=== FILE: README.md ===
# Flow custodial signing layer — a Dafny model

This project models the custodial signing layer of a Flow-blockchain back end. The back end holds users' wallet keys and signs and submits Cadence transactions for them. The layer has five parts.

- **Three transaction adapters.**
  - The Python adapter built on the Flow Python SDK (`flow_py_adapter.py`).
  - The TypeScript adapter built on FCL (`flowWrapper.ts`).
  - The Node bridge, which base64-encodes a JSON payload and reads back the last JSON line the Node CLI prints (`flow_node_adapter.py`).
- **Two Flow-CLI wrappers**, `flowWrapper.py` and `flowWrapper.js`. They cover:
  - building commands;
  - reading the transaction ID from the CLI's output;
  - classifying the operation type;
  - retry with exponential back-off;
  - metrics;
  - polling for a sealed transaction.
- **Identifiers and the request layer.**
  - Wallet identifiers: addresses, UUIDs and address normalisation (`cli/core.py`).
  - The request helpers of `app.py`: bearer secrets, role-flag filtering, background-task dispatch, the recipient check and the sealed-status check.
- **Keys at rest** (`wallet_crypto.py`):
  - the layout `base64(salt ‖ nonce ‖ AES-GCM ciphertext)`;
  - recognising an encrypted blob;
  - the master-key formats.
- **Book-keeping.**
  - The Supabase transaction log (`transaction_logger.py`).
  - The wallet sync script that rebuilds the production account config and removes orphaned key files (`syncWallets.py`).

The model is written in functional Dafny. Each component is one module. Everything outside the layer is a parameter of the function that needs it:

- the network;
- the clock;
- subprocesses;
- the database;
- the cryptographic primitives;
- JSON parsing.

The parameter is either an oracle function or an outcome datatype.

The layer has several places where two implementations of the same operation disagree. Each one is modelled on both sides, and a lemma names the input that separates them:

- `FlowCli.EmptyIdDisagreement`: the JS wrapper's `transactionId || null` drops an empty id that the Python wrapper keeps.
- `FlowCli.EmptyAuthorizersDiffer`: an empty authorizer array wins in JS but not in Python.
- `FclWrapper.BareHexDisagreement` and `FclWrapper.DottedTextDisagreement`: the Python and FCL argument classifiers disagree.
- `Accounts.MissingAddressDisagreement`: a missing address becomes `"undefined"` in TypeScript.
- `AppHelpers.SpacedSecretDiffers`: the admin-secret and webhook-secret checks disagree.

## Model

| member | source | states |
|---|---|---|
| CadenceArgs.AddressFromHex | src/python/flow_py_adapter.py:31-32 | The digits after one leading `0x` are lower-cased into the address; digits that are not whole hex pairs raise the `fromhex` error instead |
| CadenceArgs.IndexOf | src/python/flow_py_adapter.py:33-38 | Finds the first decimal point: absent exactly when the text has none, and nothing before the returned index is a point |
| CadenceArgs.ParseUnsigned | src/python/flow_py_adapter.py:33-38 | A parsed unsigned decimal is all digits on both sides of one point, with at least one digit, and it re-assembles into the input |
| CadenceArgs.ParseDecimal | src/python/flow_py_adapter.py:33-38 | A parsed decimal literal is digit runs around a point and prints back to exactly the input text |
| CadenceArgs.Frac8 | src/python/flow_py_adapter.py:14 | The fraction is cut or padded to the 8 places of UFix64 |
| CadenceArgs.EncodeText | src/python/flow_py_adapter.py:25-43 | A string becomes an Address exactly when it is address-shaped, and raises when its digits are not hex pairs; otherwise it becomes a UFix64 if it parses as a decimal, else it stays a String holding the text |
| CadenceArgs.EncodeArg | src/python/flow_py_adapter.py:25-43 | Argument conversion per Python type: bytes become a UInt8 array element by element; ints and bools are scaled by 10^8 to UFix64; None becomes the string "None"; other values become their `str()` text; a string raises when it is address-shaped with digits that are not hex pairs |
| CadenceArgs.BuildArgs | src/python/flow_py_adapter.py:172-173 | No args gives an empty list; otherwise the arguments are converted in order, and the first conversion that raises is the error |
| CadenceArgs.EncodeAll | src/python/flow_py_adapter.py:172-173 | The list converts exactly when every item does, item by item; an error is the first failing item's |
| CadenceArgs.BuildArgsRaises | src/python/flow_py_adapter.py:172-173 | Building raises exactly when some string argument starts with `0x` and its digits are not hex pairs |
| CadenceArgs.PretestOfNumericText | src/python/flow_py_adapter.py:33 | Text made of digits, points and minus signs passes the digit pre-test |
| CadenceArgs.DecimalTextPassesPretest | src/python/flow_py_adapter.py:33 | Every printed decimal contains a point and passes the digit pre-test |
| CadenceArgs.EncodeTextDecimal | src/python/flow_py_adapter.py:33-38 | A string becomes UFix64 exactly when it is not address-shaped and parses as a decimal; with exact decimal scaling the raw value is the decimal times 10^8 |
| CadenceArgs.AddressPrefixIrrelevant | src/python/flow_py_adapter.py:31-32 | For an address-shaped string, bare hex and `0x`-prefixed hex encode to the same address |
| CadenceArgs.Pad8 | src/python/flow_py_adapter.py:14 | An 8-place fraction is zero-padded and reads back as the same number |
| CadenceArgs.ParseUnsignedText | src/python/flow_py_adapter.py:33-38 | Two digit runs joined by a point parse back to those two runs |
| CadenceArgs.ParseDecimalText | src/python/flow_py_adapter.py:33-38 | Printing a decimal and parsing it again gives the same decimal |
| CadenceArgs.PointNotAddress | src/python/flow_py_adapter.py:31-33 | Text containing a point, and whose second character is not `x`, is never taken for an address |
| CadenceArgs.FormatNotAddress | src/python/flow_py_adapter.py:31-38 | A formatted UFix64 amount is never taken for an address |
| CadenceArgs.AmountDecimal | src/python/flow_py_adapter.py:14 | An amount splits into a whole part and exactly 8 fraction digits |
| CadenceArgs.FormatParses | src/python/flow_py_adapter.py:33-38 | A formatted amount parses back to its whole and fraction parts |
| CadenceArgs.AmountScaled | src/python/flow_py_adapter.py:14 | Scaling the split amount by 10^8 gives back the raw UFix64 value |
| CadenceArgs.FormatUFix64RoundTrip | src/python/flow_py_adapter.py:25-43 | With exact decimal scaling, passing any UFix64 amount as its 8-place text converts it back to exactly that amount |
| CadenceArgs.ScaledExample | src/python/flow_py_adapter.py:14 | 12.5 scales to 1 250 000 000 |
| CadenceArgs.DecimalExample | src/python/flow_py_adapter.py:33-38 | The string "12.5" is sent as UFix64 1 250 000 000 |
| CadenceArgs.NotADecimal | src/python/flow_py_adapter.py:33-38 | "1.2.3" is not a decimal literal |
| CadenceArgs.PretestOfTwoPoints | src/python/flow_py_adapter.py:33 | "1.2.3" still passes the digit pre-test |
| CadenceArgs.MalformedDecimalExample | src/python/flow_py_adapter.py:33-43 | "1.2.3" passes the pre-test but fails the float conversion, so it is sent as a String |
| Accounts.WithPrefix | src/python/flow_py_adapter.py:100-106 | The address always ends up with `0x`, and an address that has it is unchanged |
| Accounts.WithPrefixIdempotent | src/python/flow_py_adapter.py:100-106 | Adding the prefix twice is the same as adding it once |
| Accounts.PyApplyKey | src/python/flow_py_adapter.py:77-84 | A config key object supplies the index and algorithms; a null or plain-text key entry makes the loader fail; an absent key leaves the defaults |
| Accounts.PyApplyFile | src/python/flow_py_adapter.py:72-84 | An absent file, or one without the entry, leaves the draft; a malformed one fails; an entry sets the address to its `str()` text and then applies its key object |
| Accounts.PyLoad | src/python/flow_py_adapter.py:58-108 | Succeeds exactly when there is a key file and the two files, read without error, leave an address; the key is the stripped file text; the address is flow.json's when truthy, else flow-production.json's, with `0x`; the key index and algorithms are what the files leave over index 0 and the given defaults, and algorithms neither file sets keep those defaults |
| Accounts.PyNoKeyIndexMeansZero | src/python/flow_py_adapter.py:68-84 | A flow.json entry with an address but no integer key index loads with key index 0 |
| Accounts.PyLoadService | src/python/flow_py_adapter.py:58-108 | A cached account is returned unchanged, and a success is cached; otherwise the flow-directory key file comes before the repository-root one and the defaults are ECDSA_secp256k1 and SHA2_256; with no key file, loading fails and nothing is cached |
| Accounts.PyLoadByName | src/python/flow_py_adapter.py:110-156 | The service name goes to the service loader; any other name leaves the cache alone, fails without its `.pkey` file, and otherwise loads with the defaults ECDSA_P256 and SHA3_256 |
| Accounts.ServiceKeyFile | src/python/flow_py_adapter.py:61-67 | The service key file is the flow directory's when present, else the repository root's |
| Accounts.FlowDirServiceKeyFirst | src/python/flow_py_adapter.py:61-67 | With a key in the flow directory, the repository-root key never matters |
| Accounts.DefaultAlgorithms | src/python/flow_py_adapter.py:58-156 | An entry without a key object loads the service account with ECDSA_secp256k1 and SHA2_256, and a named account with ECDSA_P256 and SHA3_256 |
| Accounts.FlowJsonTakesPrecedence | src/python/flow_py_adapter.py:121-148 | When flow.json names the account, flow-production.json is never consulted |
| Accounts.ProductionFallback | src/python/flow_py_adapter.py:134-156 | An account missing from flow.json is read from flow-production.json with key index 0 and the default algorithms |
| Accounts.PyNullAddressAccepted | src/python/flow_py_adapter.py:121-156 | A null address in the config becomes the address text "0xNone" rather than an error |
| Accounts.ServiceCacheSticks | src/python/flow_py_adapter.py:58-108 | After one successful load, the service account stays the same whatever the files later say |
| Accounts.JsApplyFile | src/typescript/flowWrapper.ts:90-138 | No entry leaves the draft; an entry sets the address to `String(address)`, the key index when it is a number, and each algorithm when it is truthy |
| Accounts.JsLoad | src/typescript/flowWrapper.ts:140-188 | The key exists exactly when the key file does and is its trimmed text; a non-empty flow.json address wins together with that entry's index and algorithms; otherwise the production entry's address is used, and its fields are applied after flow.json's; with no entry anywhere the address is null and the defaults stay |
| Accounts.JsFlowJsonTakesPrecedence | src/typescript/flowWrapper.ts:117-136 | Once flow.json gives an address, flow-production.json is never consulted |
| Accounts.JsProductionFallback | src/typescript/flowWrapper.ts:117-136 | An account missing from flow.json is read from flow-production.json with key index 0 and the default algorithms |
| Accounts.JsLoadService | src/typescript/flowWrapper.ts:90-138 | The TypeScript service key is the flow directory's trimmed key file; the address comes from flow.json when it gives one, else from flow-production.json, each file applied over the defaults ECDSA_secp256k1 and SHA2_256 |
| Accounts.JsLoadByName | src/typescript/flowWrapper.ts:140-188 | A named account's key is its trimmed `.pkey` file; the address comes from flow.json when it gives one, else from flow-production.json, each file applied over the defaults ECDSA_P256 and SHA3_256 |
| Accounts.MissingAddressDisagreement | src/typescript/flowWrapper.ts:148-156 | An entry with no address gives the TypeScript loader the usable address "undefined", while the Python loader fails |
| Accounts.LoadersAgree | src/python/flow_py_adapter.py:110-156 | For an entry with an address and a key object, both loaders give the same key, key index and algorithms |
| Accounts.PySigner | src/python/flow_py_adapter.py:158-165 | The Python signer uses P-256 exactly for ECDSA_P256 and SHA3 exactly for SHA3_256 |
| Accounts.JsSigner | src/typescript/flowWrapper.ts:195-199 | The TypeScript signer uses secp256k1 exactly for ECDSA_secp256k1 and SHA3 exactly for SHA3_256 |
| Accounts.SignerNamesRoundTrip | src/python/flow_py_adapter.py:158-165 | Both signers read back the curve and hash whose names they are given |
| Accounts.SignerDefaultsDiffer | src/typescript/flowWrapper.ts:195-199 | With an unknown curve name the two signers disagree: Python falls back to secp256k1 and TypeScript to P-256 |
| Envelope.ExtendMadeOf | src/python/flow_py_adapter.py:304-315 | Each step of the authorizer loop keeps only signers taken from the authorizer list |
| Envelope.ExtendDistinct | src/python/flow_py_adapter.py:304-315 | The loop never adds an (address, key) pair twice and never adds the payer's pair |
| Envelope.NewFirstListingSigns | src/python/flow_py_adapter.py:304-315 | A pair listed for the first time, and not the payer's, is added to the signers |
| Envelope.ExtendFirstListings | src/python/flow_py_adapter.py:304-315 | After each step, every first listing of a non-payer pair so far has signed |
| Envelope.AuthorizerSignaturesShape | src/python/flow_py_adapter.py:304-315 | The authorizer signatures come from the authorizer list, are distinct by pair, exclude the payer and include each pair's first listing |
| Envelope.EnvelopeSignaturesShape | src/python/flow_py_adapter.py:304-315 | The envelope is signed by each distinct authorizer pair once, and then by the payer last |
| Envelope.SignEnvelope | src/python/flow_py_adapter.py:304-315 | The signing loop computes the envelope signers, ending with the payer, with no pair twice |
| PyTransaction.AccessNode | src/python/flow_py_adapter.py:17-22 | mainnet and testnet access nodes on port 9000; any other name means the local emulator at 127.0.0.1:3569 |
| PyTransaction.RolesFromWallets | src/python/flow_py_adapter.py:220-228 | Wallet ids fill the roles only when no role is given: the proposer is the proposer id or else the payer id, the payer the payer id or else the proposer id, the authorizers the id list when non-empty or else the proposer; with no ids the roles are unchanged |
| PyTransaction.OneWalletFillsAllRoles | src/python/flow_py_adapter.py:220-228 | A proposer wallet alone becomes proposer, payer and authorizer |
| PyTransaction.PayerStandsInForProposer | src/python/flow_py_adapter.py:220-228 | With only a payer wallet, the payer is also the proposer |
| PyTransaction.FirstMatchFrom | src/python/flow_py_adapter.py:249-255 | The private-key scan returns the first entry whose normalised address matches |
| PyTransaction.PrivateKeyFor | src/python/flow_py_adapter.py:249-255 | The key lookup is empty exactly when no entry matches, and otherwise gives the key of the first match |
| PyTransaction.HexNormalForms | src/python/flow_py_adapter.py:249-255 | Bare, prefixed and upper-case spellings of one address normalise to the same lower-case `0x` form |
| PyTransaction.PrivateKeyLookupIgnoresCaseAndPrefix | src/python/flow_py_adapter.py:249-255 | The key lookup ignores a `0x` prefix and letter case |
| PyTransaction.SameNormalFormSameKey | src/python/flow_py_adapter.py:249-255 | Two addresses with the same normal form find the same key |
| PyTransaction.FirstMatchIsUnique | src/python/flow_py_adapter.py:249-255 | A matching entry with no earlier match is the one the scan returns |
| PyTransaction.Resolve | src/python/flow_py_adapter.py:257-272 | A falsy role is the service account; a non-string role raises; a string with a supplied private key signs at that address with key 0, P-256 and SHA3; any other string loads the named account, and that load's errors propagate |
| PyTransaction.PartyAt | src/python/flow_py_adapter.py:265-267 | An address becomes a signing party exactly when its digits are hex pairs, lower-cased; otherwise the `fromhex` error |
| PyTransaction.PartyOf | src/python/flow_py_adapter.py:259-271 | A loaded account becomes a party with its lower-cased address digits, its key index and its key |
| PyTransaction.SuppliedKeyWins | src/python/flow_py_adapter.py:262-267 | A supplied private key wins over any named account: the flow directory does not matter |
| PyTransaction.UnmatchedKeysIgnored | src/python/flow_py_adapter.py:262-271 | Supplied keys for other addresses do not change how a role resolves |
| PyTransaction.ResolveRoles | src/python/flow_py_adapter.py:274-282 | Proposer, then payer, then authorizers are resolved; the first error wins, and success gives all three |
| PyTransaction.ResolveAll | src/python/flow_py_adapter.py:274-282 | An authorizer list resolves item by item; the error, if any, is the first failing item's |
| PyTransaction.Authorizers | src/python/flow_py_adapter.py:274-282 | An empty list gives no authorizers; a falsy non-list role gives the proposer; a list gives one authorizer per item; a single role gives one |
| PyTransaction.PyIndex | src/python/flow_py_adapter.py:291 | Python list indexing, including negative indices counted from the end |
| PyTransaction.SequenceNumber | src/python/flow_py_adapter.py:291 | The proposer key's sequence number is at its index, counted from the end for a negative index within the list, or at key 0 when the index is past the end; there is none when the account has no keys or the index is below minus the key count |
| PyTransaction.PollFrom | src/python/flow_py_adapter.py:320-324 | Polling stops at the first poll that fails, is SEALED, or comes after the 120-second deadline; every earlier poll succeeded in time without sealing |
| PyTransaction.PollEndsAtFirstStop | src/python/flow_py_adapter.py:320-324 | Polling ends at the first poll after which it would not poll again |
| PyTransaction.Poll | src/python/flow_py_adapter.py:320-324 | A stopped poll took at most 120 one-second polls |
| PyTransaction.Submit | src/python/flow_py_adapter.py:287-355 | Each failure before the send gives return code 1 and its own `str(e)` message, such as "list index out of range", with no id; after the send the report carries the id, succeeds exactly for a final SEALED status, and otherwise says "Transaction status: N" |
| PyTransaction.SubmitReportsFirstStop | src/python/flow_py_adapter.py:317-343 | After the send, the report is fixed by the first stopping poll: its error, a SEALED success with the id, or "Transaction status: N" with the id after the deadline |
| PyTransaction.ExecuteTransaction | src/python/flow_py_adapter.py:244-355 | A failing service-account load, role resolution, Cadence file read or argument conversion raises; otherwise the result is the submission report for the resolved proposer |
| PyTransaction.SignaturesFor | src/python/flow_py_adapter.py:304-315 | For exactly the roles that resolve, the envelope signers are the distinct authorizer pairs followed by the payer |
| PyTransaction.PayerAloneSigns | src/python/flow_py_adapter.py:304-315 | When the payer is the only authorizer, or there are none, the payer signs alone |
| PyTransaction.ServiceAccountSignsOnce | src/python/flow_py_adapter.py:257-315 | With no roles, the service account is proposer, payer and authorizer and signs once |
| PyTransaction.EmptyAuthorizerList | src/python/flow_py_adapter.py:274-315 | An explicit empty authorizer list leaves only the payer's signature |
| PyTransaction.ProposerOnlySignsIfAuthorizer | src/python/flow_py_adapter.py:304-315 | The proposer signs exactly when it is the payer or one of the authorizers |
| FclWrapper.NewFlowResult | src/typescript/flowWrapper.ts:9-30 | Falsy options fall back to success false, data null, error "" and transaction id null; truthy ones are kept |
| FclWrapper.ToDict | src/typescript/flowWrapper.ts:9-30 | The dictionary form has exactly the four result fields |
| FclWrapper.DefaultResult | src/typescript/flowWrapper.ts:9-30 | A result built from no options is an unsuccessful empty result |
| FclWrapper.RebuildFromDict | src/typescript/flowWrapper.ts:9-30 | Building a result from another result's dictionary reproduces it |
| FclWrapper.AccessNode | src/typescript/flowWrapper.ts:66-70 | The REST endpoints for mainnet and testnet; the local emulator on port 8888 otherwise |
| FclWrapper.FclArgOf | src/typescript/flowWrapper.ts:251-256 | A `0x` string is an Address; a string with a point, or any number, is UFix64; anything else is a String; the value is its text form |
| FclWrapper.FclArgs | src/typescript/flowWrapper.ts:296-301 | Each argument is classified in order |
| FclWrapper.DottedTextDisagreement | src/typescript/flowWrapper.ts:251-256 | "1.2.3" is UFix64 to FCL but a String to the Python adapter |
| FclWrapper.BareHexDisagreement | src/typescript/flowWrapper.ts:251-256 | A bare 16-digit hex string is a String to FCL but an Address to the Python adapter |
| FclWrapper.ClassifiersAgreeOnPrefixed | src/typescript/flowWrapper.ts:251-256 | Both adapters treat a `0x`-prefixed 16-digit hex string as an Address |
| FclWrapper.AuthzFactory | src/typescript/flowWrapper.ts:190-235 | The authorization's temp id is the prefixed address, a dash and the key index; it carries the bare address, the key and the signer's curve and hash |
| FclWrapper.AuthzIgnoresPrefix | src/typescript/flowWrapper.ts:190-235 | The authorization is the same whether or not the address has `0x` |
| FclWrapper.SignatureHex | src/typescript/flowWrapper.ts:222-226 | A signature is 128 hex digits |
| FclWrapper.SignatureHexRoundTrip | src/typescript/flowWrapper.ts:222-226 | The hex decodes to 64 bytes: r, then s, each 32 bytes big-endian |
| FclWrapper.ServiceAuthorization | src/typescript/flowWrapper.ts:61-63 | The service authorization exists exactly when the service account has an address and a key |
| FclWrapper.NormalizeAuth | src/typescript/flowWrapper.ts:306-337 | A falsy or non-string role is the service account; a function is passed through; an address with a supplied key builds an authorization with key 0, P-256 and SHA3; another name builds its loaded account's authorization when that has an address and a key, and falls back to the service account otherwise |
| FclWrapper.NamedAccountAuthorizes | src/typescript/flowWrapper.ts:306-337 | A named account with a `.pkey` file and a config address authorizes with its own address and key, unless a supplied key for the same text wins |
| FclWrapper.UnknownNameFallsBack | src/typescript/flowWrapper.ts:306-337 | A role naming no known account falls back to the service account |
| FclWrapper.KeyLookupIsExact | src/typescript/flowWrapper.ts:306-337 | The private-key map is matched on exact spelling, so an upper-case address misses its lower-case key |
| FclWrapper.Authorizations | src/typescript/flowWrapper.ts:339-351 | An array is normalised item by item; a falsy authorizer means the service account; a single value gives one authorization |
| FclWrapper.NormalizeEach | src/typescript/flowWrapper.ts:339-351 | Normalises each array item in order |
| FclWrapper.PlanTransaction | src/typescript/flowWrapper.ts:273-354 | Without a service account the call fails with "service account not configured"; otherwise the proposer and payer are their roles normalised against the service authorization, which fills a missing one, and the authorizations are the authorizer role's list; there is at least one unless the array is empty |
| FclWrapper.SendTransaction | src/typescript/flowWrapper.ts:273-395 | Without a service account the result is unsuccessful; with one, a missing transaction file rejects, since the read is outside the `try`; otherwise success exactly when the mutate and the seal succeed, and the id is the mutate's |
| FlowCli.NewJsConfig | flowWrapper.js:52-63 | Each truthy option is kept and each falsy one takes its default: network mainnet, timeout 300, 3 retries, retry delay 1, log level INFO; JSON output is off only for an explicit false |
| FlowCli.JsConfigIdempotent | flowWrapper.js:52-63 | A config rebuilt from a config's own fields is unchanged |
| FlowCli.ZeroMeansDefault | flowWrapper.js:52-63 | A timeout or retry count of 0 is replaced by the default |
| FlowCli.Complete | flowWrapper.js:220-248 | The command keeps its prefix and then the two `-f` config flags; the result always names a network, and asks for JSON output whenever JSON is wanted; without JSON it is exactly the prefix, the flags and `--network` with the network unless one was given |
| FlowCli.CompleteLayout | flowWrapper.js:232-245 | After the config flags come exactly `--network` and the network when none was given, then exactly `--output json` when JSON is wanted and not yet asked for, and nothing else |
| FlowCli.PrefixParts | flowWrapper.py:205-231 | The command starts with the binary, then the operation words, then the caller's args |
| FlowCli.PyBaseCommand | flowWrapper.py:205-231 | Fails when the CLI was not found; otherwise the binary, the whitespace-split operation and the args are completed with the config, network and output flags |
| FlowCli.JsBaseCommand | flowWrapper.js:220-248 | Fails when the CLI was not found; otherwise the binary, the operation split on single spaces and the args are completed with the config, network and output flags |
| FlowCli.BuildersAgree | flowWrapper.js:220-248 | For operations whose words are joined by single spaces, the two builders give the same command |
| FlowCli.PyDoubleSpace | flowWrapper.py:205-231 | Python's split drops the empty word between two spaces |
| FlowCli.JsDoubleSpace | flowWrapper.js:220-248 | JavaScript's split keeps the empty word between two spaces |
| FlowCli.RoleFlags | flowWrapper.py:464-494 | Transactions are proposed by the service account and authorized by the service account followed by the extra authorizers; `--payer` is added only for a given payer |
| FlowCli.PyExtraAuthorizers | flowWrapper.py:464-494 | A non-empty authorizer list wins; otherwise a single authorizer; otherwise none |
| FlowCli.JsExtraAuthorizers | flowWrapper.js:478-508 | Any authorizer array wins, even an empty one; otherwise a single authorizer; otherwise none |
| FlowCli.AuthorizerListRoundTrip | flowWrapper.py:464-494 | Splitting the `--authorizer` value on commas gives back the service account and the extras |
| FlowCli.EmptyAuthorizersDiffer | flowWrapper.js:478-508 | With an empty array and a single authorizer, Python signs with the single authorizer and JavaScript drops it |
| FlowCli.TxIdFrom | flowWrapper.py:344-351 | An id is found exactly when some line contains "Transaction ID:" |
| FlowCli.ExtractTxId | flowWrapper.py:344-351 | An id is found exactly when some line contains the marker, and it is the stripped field after the first marked line's colon |
| FlowCli.TxIdFromFirstMarked | flowWrapper.py:344-351 | A found id is the one on the first line carrying the marker |
| FlowCli.SkipUnmarked | flowWrapper.py:344-351 | Lines without the marker do not change the result |
| FlowCli.TxLineGivesId | flowWrapper.py:344-351 | The CLI's id line, split at colons, gives the id after stripping |
| FlowCli.TxIdRoundTrip | flowWrapper.py:344-351 | An id printed on its own line, among lines without the marker, is read back exactly |
| FlowCli.OperationType | flowWrapper.py:415-427 | The lower-cased command is a script if it mentions "scripts", else a transaction, account or block by the first keyword present, else unknown |
| FlowCli.ScriptCommandIsScript | flowWrapper.py:456-462 | A `scripts execute` command is classified as a script |
| FlowCli.ParseOutput | flowWrapper.py:333-413 | Output that parses as JSON is kept as JSON data; otherwise it is kept as raw output |
| FlowCli.PyExecute | flowWrapper.py:333-413 | Success means exit code 0; data exists only for non-empty output; the transaction id and error come from the run; timeouts and crashes give their messages and no id |
| FlowCli.JsId | flowWrapper.js:32 | An empty transaction id becomes null |
| FlowCli.JsExecute | flowWrapper.js:342-421 | Success means the process resolved; a rejection gives no id and no data, with the timeout message for TIMEOUT and "Unexpected error" otherwise |
| FlowCli.ExitZeroAgrees | flowWrapper.js:342-421 | For a clean exit, the two wrappers give the same result except that JavaScript nulls an empty id |
| FlowCli.EmptyAfterColon | flowWrapper.py:344-351 | A marker line with nothing after the colon yields the empty id |
| FlowCli.MarkerAlone | flowWrapper.py:344-351 | Output that is just the marker yields the empty id |
| FlowCli.EmptyIdDisagreement | flowWrapper.js:355-367 | Python reports the empty id "" where JavaScript reports none |
| FlowCli.RetryFrom | flowWrapper.py:429-454 | Retries stop at the first success, at a non-retryable error, or when the retries run out; every failed attempt before the last was retryable |
| FlowCli.Retry | flowWrapper.js:439-467 | A negative retry budget makes no attempt; the delays are the base delay times 2^i |
| FlowCli.RetryStopsAtFirstAttempt | flowWrapper.py:429-454 | A first attempt that succeeds, or fails non-retryably, is the result with no retries |
| FlowCli.RetryExhausts | flowWrapper.py:429-454 | When every attempt fails retryably, the last attempt is the result after the full budget |
| FlowCli.Bump | flowWrapper.py:115-147 | A per-key counter adds one to total, and to either success or failure; other keys are unchanged |
| FlowCli.Record | flowWrapper.py:115-147 | Each result adds one to total, success or failure, and its retries; rate-limit and timeout errors are counted by message; the per-type and per-network counters of its key go up by one |
| FlowCli.RecordConsistent | flowWrapper.py:115-147 | Recording keeps successes plus failures equal to total |
| FlowCli.HistoryConsistent | flowWrapper.py:115-147 | After any history the counters are consistent and the total is the number of results |
| FlowCli.BumpKeepsCount | flowWrapper.py:115-147 | Bumping a key adds one to that key's counts and leaves every other key's counts as they were |
| FlowCli.BumpTypesCounts | flowWrapper.py:115-147 | Bumping the operation types of a history adds that history's per-type counts |
| FlowCli.HistoryCountsPerType | flowWrapper.py:115-147 | After any history, each operation type's counters are the number of its results, successes and failures, and types never seen have no entry |
| FlowCli.SuccessRate | flowWrapper.py:149-159 | The success rate is 0 with no operations, stays between 0 and 100, and is 100 with no failures |
| FlowCli.SealFrom | flowWrapper.py:512-543 | Polling stops at SEALED, at FAILED, or at the timeout; before that, every poll was in time and neither sealed nor failed |
| FlowCli.WaitForSeal | flowWrapper.js:528-562 | The polling loop ends exactly as the recursive definition does from the first poll: at the first SEALED or FAILED status, or at the timeout |
| FlowCli.SealResult | flowWrapper.py:512-543 | Sealed means no error; otherwise the error says the transaction failed or did not seal within the timeout |
| Identifiers.Clean | src/python/cli/core.py:24-28 | Text without a leading `0x` is unchanged; with one, that prefix and every later `0x` are removed |
| Identifiers.CleanPrefixed | src/python/cli/core.py:24-28 | Bare hex and `0x` plus the same hex clean to the same digits |
| Identifiers.UuidNewline | src/python/cli/core.py:14 | The UUID pattern's `$` accepts one trailing newline but not two |
| Identifiers.NormalizeAddress | src/python/cli/core.py:24-28 | Empty stays empty; 16 hex digits after removing `0x` gain one `0x`; anything else is unchanged |
| Identifiers.NormalizeIdempotent | src/python/cli/core.py:24-28 | Normalising twice is the same as normalising once |
| Identifiers.NormalizeAddressForm | src/python/cli/core.py:17-28 | A Flow address normalises to `0x` plus its 16 digits, which is again a Flow address |
| Identifiers.DoubledPrefix | src/python/cli/core.py:17-28 | "0x0x" plus 16 hex digits counts as an address and normalises to one prefix |
| Identifiers.EntryKey | src/python/cli/core.py:52-60 | A config entry gives a key exactly when it names a key file that exists, and the key is that file's stripped text |
| Identifiers.ConfigKeyFrom | src/python/cli/core.py:52-60 | The config scan returns the key of the first entry for the address that has a readable key file, and nothing when there is none |
| Identifiers.RowKey | src/python/cli/core.py:61-73 | An empty stored key gives none; otherwise the decrypted or plain key, or the stored value itself when decryption fails |
| Identifiers.DatabaseKey | src/python/cli/core.py:61-73 | No row or an empty stored key gives none; a usable row key is returned; otherwise the stored value |
| Identifiers.Lookup | src/python/cli/core.py:75-106 | An account is found exactly when some entry has the name, and it is the last such entry, as a parsed JSON object keeps the last duplicate |
| Identifiers.ResolveAddress | src/python/cli/core.py:48-74 | The address is returned as given; no key unless one is required; then a config key wins, and otherwise the database row's key is used |
| Identifiers.ConfigKeyIgnoresDatabase | src/python/cli/core.py:50-60 | The config scan never consults the database |
| Identifiers.KeyedMatchIgnoresDatabase | src/python/cli/core.py:50-60 | An entry's key file, and whether it is a keyed match, do not depend on the database |
| Identifiers.ConfigKeyWinsOverDatabase | src/python/cli/core.py:48-74 | When the config has a key for the address, the database does not change the result |
| Identifiers.ResolveUuidInDatabase | src/python/cli/core.py:107-121 | A UUID resolves exactly when the database has its row: the address is the row's normalised address and the key is the row's key when one is required; otherwise "Wallet not found" |
| Identifiers.ResolveUuid | src/python/cli/core.py:75-106 | A configured address always resolves: with its config key, else its `pkeys` file, else the database row when a key is required; a UUID without a configured address goes to the database |
| Identifiers.UuidFileKeyWinsOverDatabase | src/python/cli/core.py:75-106 | A configured UUID with a config key or a `pkeys` file resolves the same whatever the database holds |
| Identifiers.ResolveWallet | src/python/cli/core.py:44-122 | An empty identifier is required; a Flow address resolves as ResolveAddress on its normal form; a UUID resolves as ResolveUuid; anything else is invalid |
| Identifiers.NormalFormFixed | src/python/cli/core.py:17-28 | A normalised Flow address is stripped, is an address and normalises to itself |
| Identifiers.ResolveStable | src/python/cli/core.py:44-74 | Resolving a resolved address again gives the same address |
| Identifiers.UnknownUuidNotFound | src/python/cli/core.py:75-121 | A UUID known neither to the config nor to the database is "not found" |
| AppHelpers.UserIdStricter | src/python/app.py:19-22 | A lower-case user id is a wallet UUID; one with capital hex letters is a valid wallet id but not a user id |
| AppHelpers.BearerSplit | src/python/app.py:374-380 | A bearer header is "Bearer " plus its token |
| AppHelpers.BearerJoin | src/python/app.py:374-380 | The header "Bearer " plus a secret without spaces splits into "Bearer" and the secret |
| AppHelpers.AdminSecretExact | src/python/app.py:61-113 | The admin check passes exactly for a non-blank secret without spaces and the header "Bearer " plus that secret |
| AppHelpers.WebhookSecret | src/python/app.py:37 | The webhook secret falls back to the admin secret |
| AppHelpers.WebhookSecretExact | src/python/app.py:374-380 | The webhook check passes exactly for a set secret and the header "Bearer " plus that secret |
| AppHelpers.SpacedSecretDiffers | src/python/app.py:61-113 | A secret containing a space passes the webhook check but fails the admin check |
| AppHelpers.FilterCadenceArgs | src/python/app.py:383-395 | The filtered args contain no role flags and only original args, and equal what the skipping loop produces |
| AppHelpers.FilterKeepsPlainArgs | src/python/app.py:383-395 | Args without role flags are unchanged |
| AppHelpers.FilterIdempotent | src/python/app.py:383-395 | Filtering twice is the same as filtering once |
| AppHelpers.FilterDropsPair | src/python/app.py:383-395 | A role flag is dropped together with its value |
| AppHelpers.FilterIsLoop | src/python/app.py:383-395 | The loop with its skip flag keeps exactly the args the recursive filter keeps, in order |
| AppHelpers.AuthorizerFrom | src/python/app.py:397-401 | An authorizer is found exactly when some `--authorizer` flag has a value after it, and it is the value after the first such flag |
| AppHelpers.AuthorizerRoundTrip | src/python/app.py:397-401 | The value after the first `--authorizer` flag is the authorizer |
| AppHelpers.TaskPlanOf | src/python/app.py:403-436 | `script execute` runs a script; `transactions send` is proposed and paid by the service account, authorized by it alone for admin paths and by it plus the `--authorizer` value otherwise; other commands are unsupported |
| AppHelpers.UserAuthorizerSigns | src/python/app.py:403-436 | A user transaction is authorized by the service account and the named user, and the flag pair is removed from the args |
| AppHelpers.TaskResultOf | src/python/app.py:437-456 | Return code -1 for unsupported commands or errors; otherwise 0 exactly on success; stderr falls back to the error message |
| AppHelpers.PluralScriptsRefused | src/python/app.py:403-436 | A `scripts execute` command is unsupported |
| AppHelpers.ToAddress | src/python/app.py:908-909 | A 16-character address gains `0x`; anything else is unchanged |
| AppHelpers.ToAddressIdempotent | src/python/app.py:908-909 | Adding the prefix twice is the same as adding it once |
| AppHelpers.Recipient | src/python/app.py:1061-1075 | A lower-case UUID is replaced by the user's wallet address with `0x`, or refused when the user has none; other text gets the address prefix rule |
| AppHelpers.BaitOutcomeOf | src/python/app.py:1152-1184 | Sealed exactly on success with status 4; a failure has a non-empty error and is insufficient balance exactly when the withdraw message says so |
| WalletCrypto.MasterKey | src/python/wallet_crypto.py:17-28 | A missing or short master key is refused; a 64-digit hex key decodes to 32 bytes |
| WalletCrypto.HexMasterKey | src/python/wallet_crypto.py:17-28 | A 64-digit hex master key is its 32 decoded bytes, and 31 characters are too short |
| WalletCrypto.PlainBytes | src/python/wallet_crypto.py:47 | Hex plaintext is hex-decoded and fails at odd length; other text is UTF-8 encoded |
| WalletCrypto.Encrypt | src/python/wallet_crypto.py:42-50 | Encryption succeeds exactly with a master key and a valid plaintext; the blob is base64 of the salt, then the nonce, then the ciphertext |
| WalletCrypto.Decrypt | src/python/wallet_crypto.py:53-64 | Fails on bad base64 or a too-short blob; a decrypted key is lower-case hex of even length |
| WalletCrypto.EncryptLayout | src/python/wallet_crypto.py:11-12 | The blob decodes to the 16-byte salt, the 12-byte nonce and the sealed plaintext |
| WalletCrypto.RoundTrip | src/python/wallet_crypto.py:42-64 | Decrypting an encrypted key gives back the lower-case hex of the plaintext |
| WalletCrypto.HexIsBase64 | src/python/wallet_crypto.py:67-76 | Hex text is also valid base64 |
| WalletCrypto.HexKeyGuardNeeded | src/python/wallet_crypto.py:67-76 | A 64-digit hex key decodes as 48 bytes of base64, yet is not taken for an encrypted blob |
| WalletCrypto.LongHexLooksEncrypted | src/python/wallet_crypto.py:67-76 | A longer hex text is taken for an encrypted blob |
| WalletCrypto.EncryptedIsRecognised | src/python/wallet_crypto.py:42-76 | Every encrypted key is recognised as encrypted |
| WalletCrypto.LongBlobIsEncrypted | src/python/wallet_crypto.py:67-76 | Base64 of enough bytes is recognised as encrypted |
| WalletCrypto.PlainPrivateKey | src/python/wallet_crypto.py:79-85 | An empty key gives none; a plain key is returned as it is; an encrypted key is decrypted |
| WalletCrypto.StoredKeyReadsBack | src/python/wallet_crypto.py:42-85 | A stored encrypted key reads back as lower-case hex, and a plain 64-digit key reads back unchanged |
| TransactionLogger.ValidIds | src/python/transaction_logger.py:6-11 | Keeps each valid wallet UUID as often as it occurs and drops every other id |
| TransactionLogger.ValidIdsKeepsValid | src/python/transaction_logger.py:6-11 | A list of valid ids is unchanged |
| TransactionLogger.ValidIdsIdempotent | src/python/transaction_logger.py:6-11 | Filtering twice is the same as filtering once |
| TransactionLogger.ValidIdsConcat | src/python/transaction_logger.py:6-11 | Filtering a concatenation filters each part and keeps their order |
| TransactionLogger.NewRecord | src/python/transaction_logger.py:32-56 | A new log row is pending with one "execution started" entry; paths and wallet ids are stored only when set and valid |
| TransactionLogger.RecordIdsValid | src/python/transaction_logger.py:32-56 | Every wallet id stored in a new row is a valid UUID, and an authorizer list is stored only when non-empty |
| TransactionLogger.CreateTransaction | src/python/transaction_logger.py:18-70 | No client gives no row; a foreign-key error is swallowed and any other insert error is re-raised; success returns the first inserted row |
| TransactionLogger.AppendLog | src/python/transaction_logger.py:72-93 | The entry, stamped with the time, is appended to the current logs, or starts a new log when they cannot be fetched |
| TransactionLogger.AppendTwice | src/python/transaction_logger.py:72-93 | Two appends keep both entries in order |
| TransactionLogger.UpdateTransaction | src/python/transaction_logger.py:95-113 | An update returns the first updated row only with a client and a successful update |
| TransactionLogger.SuccessUpdate | src/python/transaction_logger.py:115-130 | Success sets status "executed", the result and the execution time, and the logs are the stored ones with the "Execution completed successfully" entry appended |
| TransactionLogger.FailureUpdate | src/python/transaction_logger.py:132-147 | Failure sets status "failed", the error and the execution time, and the logs are the stored ones with the "Execution failed" entry, carrying the error, appended |
| TransactionLogger.SubmittedUpdate | src/python/transaction_logger.py:149-163 | Submission sets status "submitted" and the Flow id only when one is given; the logs get one entry whose message ends in " with ID" and the id exactly when one is given |
| TransactionLogger.SealedUpdate | src/python/transaction_logger.py:165-198 | Sealing sets status "sealed" and each optional column exactly when its value is given; the logs get the "Transaction sealed successfully" entry with every field, null when missing |
| TransactionLogger.UpdatesAppendOneEntry | src/python/transaction_logger.py:115-163 | Each status update keeps the stored log entries in order and adds exactly one, stamped with the time, whose message names the update |
| TransactionLogger.SealedLogKeepsNulls | src/python/transaction_logger.py:165-198 | The sealed log entry records missing values as null, even though the columns are not set |
| NodeAdapter.WithFlowDir | src/python/flow_node_adapter.py:18 | The flow directory is added to the payload only when it is absent |
| NodeAdapter.WithFlowDirIdempotent | src/python/flow_node_adapter.py:18 | A second default does not change the payload |
| NodeAdapter.CommandLine | src/python/flow_node_adapter.py:19-23 | The command runs node with the CLI, the command and `--payload=` followed by the payload |
| NodeAdapter.PayloadRoundTrip | src/python/flow_node_adapter.py:19-23 | The base64 payload decodes back to the JSON text |
| NodeAdapter.ScriptPayload | src/python/flow_node_adapter.py:76-81 | A script payload has exactly the script path, the args and the network |
| NodeAdapter.WithWalletIds | src/python/flow_node_adapter.py:83-100 | Wallet ids are added only when given, and nothing else changes |
| NodeAdapter.SendPayload | src/python/flow_node_adapter.py:83-100 | A send payload has the path, args, roles and network, each wallet id that is given, and no private keys |
| NodeAdapter.SendWithKeysPayload | src/python/flow_node_adapter.py:102-120 | The private keys are passed in the payload |
| NodeAdapter.WithKeysExtendsPlain | src/python/flow_node_adapter.py:83-120 | The keyed payload is the plain payload plus the private keys |
| NodeAdapter.LastMatching | src/python/flow_node_adapter.py:45-58 | The scan returns the last line that parses as JSON, or nothing when no line does |
| NodeAdapter.PickJsonLine | src/python/flow_node_adapter.py:45-58 | The backward scanning loop picks the same line as the reference definition: the last line that parses as JSON |
| NodeAdapter.ReplyResult | src/python/flow_node_adapter.py:60-74 | The reply's fields are copied into the result with the process output; missing ones become false or null |
| NodeAdapter.ReadOutput | src/python/flow_node_adapter.py:34-74 | Empty output is "no output"; output with no JSON line is an error carrying the output; otherwise the result is built from the reply |
| NodeAdapter.ReplyFrom | src/python/flow_node_adapter.py:45-74 | Without a JSON line the reply is an error; with one, the command and output are kept |
| NodeAdapter.ReplyFromLast | src/python/flow_node_adapter.py:45-74 | A JSON last line is the reply |
| NodeAdapter.RunResult | src/python/flow_node_adapter.py:14-74 | A missing CLI is an error, and so is a process killed after 300 seconds (the `TimeoutExpired` passed on); otherwise the stripped output of the process is read |
| NodeAdapter.Run | src/python/flow_node_adapter.py:14-74 | The imperative run, with its scanning loop, agrees with the functional result for every process outcome |
| NodeAdapter.ReadsLastLine | src/python/flow_node_adapter.py:45-74 | When the last line is JSON, it is the reply |
| NodeAdapter.ReplyAfterLogs | src/python/flow_node_adapter.py:31-74 | Log lines printed before the JSON reply are ignored |
| SyncWallets.CompleteIsRequired | syncWallets.py:157-166 | The required fields are present and set exactly when the wallet is complete |
| SyncWallets.ValidateWalletData | syncWallets.py:157-166 | Validation passes exactly for complete wallets |
| SyncWallets.FirstKey | syncWallets.py:104-155 | The account's first key exists exactly when the reply has a non-empty key list whose first item is an object |
| SyncWallets.CheckSignatureAlgorithm | syncWallets.py:104-155 | A failed lookup, unreadable output or no key gives the unknown algorithms; otherwise the first key's algorithms |
| SyncWallets.CheckReadsFirstKey | syncWallets.py:104-155 | The algorithms are read from the first key |
| SyncWallets.CheckNeedsKeyObject | syncWallets.py:104-155 | A key list whose first item is not an object gives the unknown algorithms |
| SyncWallets.ChooseAlgorithms | syncWallets.py:255-275 | Stored algorithms are used when both are set; otherwise a chain answer is used, with one update exactly when the database records it; otherwise the defaults with one error |
| SyncWallets.ChainUsedWhenColumnsEmpty | syncWallets.py:255-275 | With empty columns and a chain answer, the chain's algorithms are used without error |
| SyncWallets.Step | syncWallets.py:234-290 | A wallet without auth_id aborts; an incomplete one is counted corrupted; a synced one adds its account, with the chosen algorithms, its key file and the algorithm counts; a complete one that is not synced, because its key file is missing and cannot be written, only counts as a missing key file |
| SyncWallets.RunFailsOnlyWithoutAuthId | syncWallets.py:234-290 | The sync fails exactly when some wallet lacks auth_id |
| SyncWallets.EveryWalletCounted | syncWallets.py:234-290 | Every wallet is counted once |
| SyncWallets.CountersAddUp | syncWallets.py:234-290 | Corrupted, missing-key and synced wallets add up to the number of wallets |
| SyncWallets.AlgorithmCountsBounded | syncWallets.py:234-290 | Algorithm updates and errors together never exceed the synced wallets |
| SyncWallets.StepKeepsWellFormed | syncWallets.py:234-290 | Each account points at its own key file, which exists |
| SyncWallets.RunKeepsWellFormed | syncWallets.py:234-290 | The whole run keeps every account pointing at an existing key file |
| SyncWallets.ConfigWellFormed | syncWallets.py:234-290 | The production config's accounts all have their key files |
| SyncWallets.RunAppend | syncWallets.py:234-290 | The sync processes wallets one by one in order |
| SyncWallets.LastWalletWins | syncWallets.py:234-290 | A later wallet with the same auth_id overwrites the earlier account |
| SyncWallets.SyncedWhenKeyAvailable | syncWallets.py:168-186 | A complete wallet syncs exactly when its key file exists or can be written |
| SyncWallets.AccountsAtMostSynced | syncWallets.py:234-290 | There are never more accounts than synced wallets |
| SyncWallets.Stem | syncWallets.py:311-321 | The stem is the file name without `.pkey` |
| SyncWallets.StemOfKeyFile | syncWallets.py:311-321 | A wallet's key file ends in `.pkey`, and its stem is the auth id |
| SyncWallets.Orphans | syncWallets.py:311-321 | The orphans are exactly the key files whose stem is no valid account |
| SyncWallets.OrphanExactly | syncWallets.py:311-321 | A wallet's key file is an orphan exactly when its auth id is not a valid account |
| SyncWallets.SyncedKeysKept | syncWallets.py:234-321 | A synced wallet's key file survives the orphan cleanup |

## Left out

- Network, subprocess, database, clock and file-system access are parameters: oracle functions or outcome datatypes. The async lock, the rate limiter, execution-time averages and logging are not modelled.
- AES-GCM, PBKDF2, ECDSA signing and SHA hashing are oracle parameters. Only the byte layout around them is modelled.
- CadenceArgs.EncodeArg: float arguments are not modelled, and decimal text is scaled exactly. The source goes through binary floating point, so "0.29" gives 28999999, and large integers lose precision.
- CadenceArgs.EncodeArg: the OverflowError the source raises for numbers beyond the float range is not modelled. It comes from an int of about 2^1024 or more, or decimal text of over 300 digits, which `float` turns into infinity.
- PyTransaction.Resolve: the raised error for a role that is not a string is a fixed text. The source also puts the rejected value in the message.
- NodeAdapter.RunResult: the `execution_time` member of the result is not modelled, because it is clock time. The `TimeoutExpired` message is a fixed text; the source's message also lists the command.
- FclWrapper.SendTransaction: the `data` member of the returned object (the sealed transaction, or null) is not modelled.
- Whitespace stripping, `isdigit` and lower-casing are ASCII only.
- Accounts.JsLoad: `svc.keyId || 0` is modelled as the stored key index.
- WalletCrypto.Decrypt: it uses strict base64. The source's `b64decode` is non-validating and skips stray characters.
- Identifiers.ResolveUuid: a database row cannot hold an explicit null Flow address.
- CadenceArgs.EncodeTextDecimal: the 10^8 scaling is exact. The source multiplies a binary float, so "0.29" gives 28999999 there.
- CadenceArgs.FormatUFix64RoundTrip: the round trip holds for exact scaling only. Through the source's float, the raw value 29000000 comes back as 28999999.
- CadenceArgs.AddressFromHex: the SDK's own length and padding checks on an address are not modelled, nor the whitespace that `bytes.fromhex` skips.
- FclWrapper.FclArgOf: JavaScript numbers are integers here. The text `toString()` gives a fraction or an exponent, such as "1.5" or "1e+21", is not modelled.
- Text.Strip: Python's `str.strip` also removes the separators `\x1c` to `\x1f`, which the model keeps. JavaScript's `trim` keeps them too.
- Identifiers.ConfigKeyFrom: the production accounts are a sequence of pairs scanned in order. Duplicate names are not collapsed the way a parsed JSON object collapses them; Identifiers.Lookup does take the last duplicate.
- FlowCli.JsExecute: the `TIMEOUT` branch is modelled as written. Node's `exec` reports a timeout through `killed` and `signal`, so that branch does not arise in practice.
- FlowCli.JsExecute: falsy JSON values (0, false, "", null) are kept as parsed text. The source's `data || null` makes them null.
- FlowCli.SealResult: the Python wait raises on transaction data that is not a dictionary; this is not modelled.
- Result decoding for `get_transaction`, `get_account`, `create_account` and `execute_script` in the Python adapter is not modelled; only their argument conversion is.
- `getAccount`, `getTransaction` and `waitForTransactionSeal` in the TypeScript adapter are not modelled; the Flow-CLI wrappers' seal wait is.
- Loading aliases from the TypeScript adapter's flow config is not modelled.
- The background-task store and its HTTP routes are not modelled; only the plan and the result of a task are.
- The Supabase pagination of the sync script is not modelled. The wallets arrive as one sequence.

=== FILE: accounts.dfy ===
/** Where the signing layers find an account's key and on-chain identity.

    Two configuration files are consulted in order, `flow.json` and then
    `accounts/flow-production.json`, the second only while no address has
    been found. The Python adapter raises when something is missing or
    malformed; the TypeScript wrapper swallows parse errors and returns
    whatever it has, possibly with a `null` address or key.
 */
module Accounts {
  import opened Wrappers
  import opened Text

  /** The account that pays, proposes and authorises by default. */
  const SERVICE_ACCOUNT := "mainnet-agfarms"

  const ECDSA_P256 := "ECDSA_P256"
  const ECDSA_SECP256K1 := "ECDSA_secp256k1"
  const SHA2_256 := "SHA2_256"
  const SHA3_256 := "SHA3_256"

  /** The `address` member of an account entry. */
  datatype AddressField = AddressAbsent | AddressNull | AddressText(text: string)

  /** The `key.index` member: JSON booleans are integers to Python's
      `isinstance(_, int)` but not numbers to JavaScript's `typeof`. */
  datatype IndexField = IndexAbsent | IndexInt(n: int) | IndexBool(b: bool) | IndexOther

  /** The `key` member of an account entry. `others` records members the
      loaders do not read (they still make the object non-empty). */
  datatype KeyField =
    | KeyAbsent
    | KeyNull
    | KeyText(text: string)
    | KeyObject(index: IndexField, signatureAlgorithm: Option<string>,
                hashAlgorithm: Option<string>, others: bool)

  datatype Entry = Entry(address: AddressField, key: KeyField, others: bool)

  /** A configuration file: missing, not JSON, or parsed (with or without
      an `accounts` member). */
  datatype ConfigFile =
    | FileAbsent
    | FileMalformed
    | FileParsed(accounts: Option<map<string, Entry>>)

  /** The files the loaders read. `serviceKeyInFlowDir` and
      `serviceKeyInRepoRoot` are the two places of `mainnet-agfarms.pkey`;
      `pkeys` maps an account name to the content of its
      `accounts/pkeys/<name>.pkey`. */
  datatype FlowDir = FlowDir(
    serviceKeyInFlowDir: Option<string>,
    serviceKeyInRepoRoot: Option<string>,
    pkeys: map<string, string>,
    flowJson: ConfigFile,
    production: ConfigFile)

  /** A resolved account: `0x`-prefixed address, private key hex, key
      index and algorithm names. */
  datatype Account = Account(address: string, key: string, keyId: int,
                             signatureAlgorithm: string, hashAlgorithm: string)

  /** The loader's working values; the empty address stands for "not found
      yet" (Python's `None` and `''` are both falsy). */
  datatype Draft = Draft(address: string, keyId: int,
                         signatureAlgorithm: string, hashAlgorithm: string)

  /** The text with `0x` in front, unless it is already there. */
  function WithPrefix(a: string): (r: string)
    ensures StartsWith(r, "0x")
    ensures StartsWith(a, "0x") ==> r == a
  {
    if StartsWith(a, "0x") then a else "0x" + a
  }

  lemma WithPrefixIdempotent(a: string)
    ensures WithPrefix(WithPrefix(a)) == WithPrefix(a)
  {
  }

  // ---------------------------------------------------------------------
  // Python adapter (flow_py_adapter.py)
  // ---------------------------------------------------------------------

  /** An entry dictionary is truthy when it has any member. */
  predicate PyEntryTruthy(e: Entry) {
    e.address != AddressAbsent || e.key != KeyAbsent || e.others
  }

  /** `str(acc.get('address', ''))`. */
  function PyAddressText(a: AddressField): string {
    match a
    case AddressAbsent => ""
    case AddressNull => "None"
    case AddressText(t) => t
  }

  /** The key member's effect: a key index that is an `int` (booleans
      included) and truthy algorithm names replace the current values; a
      key that is text or `null` fails on `.get`. */
  function PyApplyKey(d: Draft, k: KeyField): (r: Result<Draft, string>)
    ensures r.Err? <==> k.KeyNull? || k.KeyText?
    ensures r.Ok? ==> r.value.address == d.address
    ensures k.KeyAbsent? ==> r == Ok(d)
    ensures r.Ok? && k.KeyObject? && k.index.IndexInt? ==> r.value.keyId == k.index.n
    ensures r.Ok? && k.KeyObject? && k.index.IndexBool? ==> r.value.keyId == (if k.index.b then 1 else 0)
    ensures r.Ok? && k.KeyObject? && (k.index.IndexAbsent? || k.index.IndexOther?) ==> r.value.keyId == d.keyId
    ensures r.Ok? ==>
              r.value.signatureAlgorithm == (if k.KeyObject? && Truthy(k.signatureAlgorithm)
                                             then k.signatureAlgorithm.value else d.signatureAlgorithm)
    ensures r.Ok? ==>
              r.value.hashAlgorithm == (if k.KeyObject? && Truthy(k.hashAlgorithm)
                                        then k.hashAlgorithm.value else d.hashAlgorithm)
  {
    match k
    case KeyAbsent => Ok(d)
    case KeyNull => Err("AttributeError")
    case KeyText(_) => Err("AttributeError")
    case KeyObject(index, sig, hash, _) =>
      var keyId := match index
        case IndexInt(n) => n
        case IndexBool(b) => if b then 1 else 0
        case _ => d.keyId;
      Ok(Draft(d.address, keyId,
               if Truthy(sig) then sig.value else d.signatureAlgorithm,
               if Truthy(hash) then hash.value else d.hashAlgorithm))
  }

  /** `cfg.get('accounts', {}).get(name)` is a non-empty entry. */
  predicate PyHasEntry(f: ConfigFile, name: string) {
    f.FileParsed? && f.accounts.Some? && name in f.accounts.value && PyEntryTruthy(f.accounts.value[name])
  }

  /** The address a file gives account `name`: the empty text when the
      file has no entry for it. */
  function PyFileAddress(f: ConfigFile, name: string): string {
    if PyHasEntry(f, name) then PyAddressText(f.accounts.value[name].address) else ""
  }

  /** One configuration file's contribution for account `name`: an entry
      sets the address and applies its key member; anything else leaves the
      values as they are, except unreadable JSON, which raises. */
  function PyApplyFile(d: Draft, f: ConfigFile, name: string): (r: Result<Draft, string>)
    ensures f.FileAbsent? ==> r == Ok(d)
    ensures f.FileMalformed? ==> r.Err?
    ensures f.FileParsed? && !PyHasEntry(f, name) ==> r == Ok(d)
    ensures PyHasEntry(f, name) ==>
              r == PyApplyKey(d.(address := PyFileAddress(f, name)), f.accounts.value[name].key)
    ensures r.Ok? ==> r.value.address == (if PyHasEntry(f, name) then PyFileAddress(f, name) else d.address)
  {
    match f
    case FileAbsent => Ok(d)
    case FileMalformed => Err("JSONDecodeError")
    case FileParsed(accounts) =>
      if accounts.Some? && name in accounts.value && PyEntryTruthy(accounts.value[name]) then
        var e := accounts.value[name];
        PyApplyKey(d.(address := PyAddressText(e.address)), e.key)
      else Ok(d)
  }

  /** The values both files leave behind for account `name`, starting
      from key index 0 and the given algorithms: flow.json applied first,
      flow-production.json only when no address has been found. */
  function PyDraft(name: string, flowJson: ConfigFile, production: ConfigFile,
                   signatureAlgorithm: string, hashAlgorithm: string): (r: Result<Draft, string>)
    ensures PyApplyFile(Draft("", 0, signatureAlgorithm, hashAlgorithm), flowJson, name).Err? ==> r.Err?
    ensures PyFileAddress(flowJson, name) != "" ==>
              r == PyApplyFile(Draft("", 0, signatureAlgorithm, hashAlgorithm), flowJson, name)
  {
    match PyApplyFile(Draft("", 0, signatureAlgorithm, hashAlgorithm), flowJson, name)
    case Err(e) => Err(e)
    case Ok(d1) => if d1.address == "" then PyApplyFile(d1, production, name) else Ok(d1)
  }

  /** The shared body of `_load_service_account` and `_load_account_by_name`
      once the key file is known. */
  function PyLoad(name: string, keyFile: Option<string>, flowJson: ConfigFile,
                  production: ConfigFile, signatureAlgorithm: string,
                  hashAlgorithm: string): (r: Result<Account, string>)
    ensures keyFile.None? ==> r.Err?
    ensures r.Ok? ==> keyFile.Some? && r.value.key == Strip(keyFile.value)
    ensures r.Ok? ==> StartsWith(r.value.address, "0x")
    ensures r.Ok? ==>
              r.value.address == WithPrefix(if PyFileAddress(flowJson, name) != "" then PyFileAddress(flowJson, name)
                                            else PyFileAddress(production, name))
    ensures PyFileAddress(flowJson, name) == "" && PyFileAddress(production, name) == "" ==> r.Err?
    ensures r.Ok? && !PySetsSignature(flowJson, name) && !PySetsSignature(production, name) ==>
              r.value.signatureAlgorithm == signatureAlgorithm
    ensures r.Ok? && !PySetsHash(flowJson, name) && !PySetsHash(production, name) ==>
              r.value.hashAlgorithm == hashAlgorithm
    ensures var d := PyDraft(name, flowJson, production, signatureAlgorithm, hashAlgorithm);
            && (r.Ok? <==> keyFile.Some? && d.Ok? && d.value.address != "")
            && (r.Ok? ==> r.value.keyId == d.value.keyId
                          && r.value.signatureAlgorithm == d.value.signatureAlgorithm
                          && r.value.hashAlgorithm == d.value.hashAlgorithm)
  {
    if keyFile.None? then Err("RuntimeError: private key file not found")
    else
      match PyDraft(name, flowJson, production, signatureAlgorithm, hashAlgorithm)
      case Err(e) => Err(e)
      case Ok(d) =>
        if d.address == "" then Err("RuntimeError: account not found in flow.json or flow-production.json")
        else
          Ok(Account(WithPrefix(d.address), Strip(keyFile.value), d.keyId,
                     d.signatureAlgorithm, d.hashAlgorithm))
  }

  /** An account whose flow.json entry gives an address but no integer
      key index (no key object, or one without `index`) loads with key
      index 0, whatever flow-production.json says. */
  lemma PyNoKeyIndexMeansZero(name: string, keyFile: string, flowJson: ConfigFile,
                              production: ConfigFile, signatureAlgorithm: string, hashAlgorithm: string)
    requires PyHasEntry(flowJson, name) && PyFileAddress(flowJson, name) != ""
    requires var k := flowJson.accounts.value[name].key;
             k.KeyAbsent? || (k.KeyObject? && (k.index.IndexAbsent? || k.index.IndexOther?))
    ensures var r := PyLoad(name, Some(keyFile), flowJson, production, signatureAlgorithm, hashAlgorithm);
            r.Ok? && r.value.keyId == 0
  {
  }

  /** The file's entry for `name` names a signature algorithm. */
  predicate PySetsSignature(f: ConfigFile, name: string) {
    PyHasEntry(f, name) && f.accounts.value[name].key.KeyObject?
    && Truthy(f.accounts.value[name].key.signatureAlgorithm)
  }

  /** The file's entry for `name` names a hash algorithm. */
  predicate PySetsHash(f: ConfigFile, name: string) {
    PyHasEntry(f, name) && f.accounts.value[name].key.KeyObject?
    && Truthy(f.accounts.value[name].key.hashAlgorithm)
  }

  /** A load's outcome together with the adapter's service-account cache
      afterwards. */
  datatype Loaded = Loaded(result: Result<Account, string>, cache: Option<Account>)

  /** The service key file `_load_service_account` reads: the flow
      directory's copy, else the repository root's. */
  function ServiceKeyFile(dir: FlowDir): (r: Option<string>)
    ensures dir.serviceKeyInFlowDir.Some? ==> r == dir.serviceKeyInFlowDir
    ensures dir.serviceKeyInFlowDir.None? ==> r == dir.serviceKeyInRepoRoot
  {
    if dir.serviceKeyInFlowDir.Some? then dir.serviceKeyInFlowDir else dir.serviceKeyInRepoRoot
  }

  /** `_load_service_account`: the cached account if there is one, else
      the key from the flow directory or, failing that, the repository root,
      with secp256k1 / SHA2-256 defaults. A success is cached. */
  function PyLoadService(dir: FlowDir, cache: Option<Account>): (r: Loaded)
    ensures cache.Some? ==> r == Loaded(Ok(cache.value), cache)
    ensures r.result.Ok? ==> r.cache == Some(r.result.value)
    ensures r.result.Err? ==> r.cache == cache == None
    ensures dir.serviceKeyInFlowDir.None? && dir.serviceKeyInRepoRoot.None? && cache.None? ==>
              r.result.Err?
    ensures cache.None? ==>
              r.result == PyLoad(SERVICE_ACCOUNT, ServiceKeyFile(dir), dir.flowJson, dir.production,
                                 ECDSA_SECP256K1, SHA2_256)
  {
    if cache.Some? then Loaded(Ok(cache.value), cache)
    else
      var result := PyLoad(SERVICE_ACCOUNT, ServiceKeyFile(dir), dir.flowJson, dir.production, ECDSA_SECP256K1, SHA2_256);
      Loaded(result, if result.Ok? then Some(result.value) else None)
  }

  /** `_load_account_by_name`: the service account by its name, otherwise
      `accounts/pkeys/<name>.pkey` with P-256 / SHA3-256 defaults. */
  function PyLoadByName(dir: FlowDir, cache: Option<Account>, name: string): (r: Loaded)
    ensures name == SERVICE_ACCOUNT ==> r == PyLoadService(dir, cache)
    ensures name != SERVICE_ACCOUNT ==> r.cache == cache
    ensures name != SERVICE_ACCOUNT && name !in dir.pkeys ==> r.result.Err?
    ensures name != SERVICE_ACCOUNT && name in dir.pkeys ==>
              r.result == PyLoad(name, Some(dir.pkeys[name]), dir.flowJson, dir.production,
                                 ECDSA_P256, SHA3_256)
  {
    if name == SERVICE_ACCOUNT then PyLoadService(dir, cache)
    else
      var keyFile := if name in dir.pkeys then Some(dir.pkeys[name]) else None;
      Loaded(PyLoad(name, keyFile, dir.flowJson, dir.production, ECDSA_P256, SHA3_256), cache)
  }

  /** Once `flow.json` yields an address, the production file is never
      read. */
  lemma FlowJsonTakesPrecedence(name: string, keyFile: Option<string>, flowJson: ConfigFile,
                                p1: ConfigFile, p2: ConfigFile, sig: string, hash: string)
    requires PyApplyFile(Draft("", 0, sig, hash), flowJson, name).Ok?
    requires PyApplyFile(Draft("", 0, sig, hash), flowJson, name).value.address != ""
    ensures PyLoad(name, keyFile, flowJson, p1, sig, hash) == PyLoad(name, keyFile, flowJson, p2, sig, hash)
  {
  }

  /** With no `flow.json` entry, a production entry with a plain address
      and no key member gives that address, key index 0 and the defaults. */
  lemma ProductionFallback(name: string, key: string, address: string, others: map<string, Entry>,
                           sig: string, hash: string)
    requires address != ""
    requires name !in others
    ensures PyLoad(name, Some(key), FileParsed(Some(others)),
                   FileParsed(Some(others[name := Entry(AddressText(address), KeyAbsent, false)])), sig, hash)
            == Ok(Account(WithPrefix(address), Strip(key), 0, sig, hash))
  {
    var d0 := Draft("", 0, sig, hash);
    var e := Entry(AddressText(address), KeyAbsent, false);
    assert PyApplyFile(d0, FileParsed(Some(others)), name) == Ok(d0);
    assert PyEntryTruthy(e);
    assert PyApplyFile(d0, FileParsed(Some(others[name := e])), name) == Ok(Draft(address, 0, sig, hash));
  }

  /** An explicit `null` address is rendered `"None"` and accepted as the
      address `0xNone`. */
  lemma PyNullAddressAccepted(name: string, key: string, sig: string, hash: string)
    ensures PyLoad(name, Some(key), FileParsed(Some(map[name := Entry(AddressNull, KeyAbsent, false)])),
                   FileAbsent, sig, hash)
            == Ok(Account("0xNone", Strip(key), 0, sig, hash))
  {
    var f := FileParsed(Some(map[name := Entry(AddressNull, KeyAbsent, false)]));
    var d0 := Draft("", 0, sig, hash);
    assert PyApplyFile(d0, f, name) == Ok(Draft("None", 0, sig, hash));
    assert "None"[..2][0] == 'N';
    assert WithPrefix("None") == "0xNone";
  }

  /** A cached service account is returned whatever the files now say. */
  lemma ServiceCacheSticks(dir1: FlowDir, dir2: FlowDir)
    requires PyLoadService(dir1, None).result.Ok?
    ensures var first := PyLoadService(dir1, None);
            PyLoadService(dir2, first.cache).result == first.result
  {
  }

  /** The key in the flow directory wins over the one in the repository
      root, which is read only when the first is missing. */
  lemma FlowDirServiceKeyFirst(dir: FlowDir, rootKey: Option<string>)
    requires dir.serviceKeyInFlowDir.Some?
    ensures PyLoadService(dir, None) == PyLoadService(dir.(serviceKeyInRepoRoot := rootKey), None)
    ensures PyLoadService(dir, None).result.Ok? ==>
              PyLoadService(dir, None).result.value.key == Strip(dir.serviceKeyInFlowDir.value)
  {
  }

  /** An entry with a plain address and no key member leaves the defaults:
      secp256k1 and SHA2-256 for the service account, P-256 and SHA3-256
      for any other account. */
  lemma DefaultAlgorithms(dir: FlowDir, name: string, address: string)
    requires address != "" && dir.production.FileAbsent?
    requires dir.flowJson == FileParsed(Some(map[name := Entry(AddressText(address), KeyAbsent, false)]))
    ensures name == SERVICE_ACCOUNT && dir.serviceKeyInFlowDir.Some? ==>
              var r := PyLoadService(dir, None).result;
              r.Ok? && r.value.signatureAlgorithm == ECDSA_SECP256K1 && r.value.hashAlgorithm == SHA2_256
    ensures name != SERVICE_ACCOUNT && name in dir.pkeys ==>
              var r := PyLoadByName(dir, None, name).result;
              r.Ok? && r.value.signatureAlgorithm == ECDSA_P256 && r.value.hashAlgorithm == SHA3_256
  {
    assert PyHasEntry(dir.flowJson, name) && PyFileAddress(dir.flowJson, name) == address;
  }

  // ---------------------------------------------------------------------
  // TypeScript wrapper (flowWrapper.ts)
  // ---------------------------------------------------------------------

  /** `String(entry.address)`: a missing member is `"undefined"`, `null`
      is `"null"`. */
  function JsAddressText(a: AddressField): string {
    match a
    case AddressAbsent => "undefined"
    case AddressNull => "null"
    case AddressText(t) => t
  }

  /** The wrapper's working values: the address starts out `null`. */
  datatype JsDraft = JsDraft(address: Option<string>, keyId: int,
                             signatureAlgorithm: string, hashAlgorithm: string)

  /** The TypeScript loaders' result; address and key may be `null`. */
  datatype JsAccount = JsAccount(address: Option<string>, key: Option<string>, keyId: int,
                                 signatureAlgorithm: string, hashAlgorithm: string)

  /** `cfg.accounts && cfg.accounts[name]`: every entry object is truthy. */
  predicate JsHasEntry(f: ConfigFile, name: string) {
    f.FileParsed? && f.accounts.Some? && name in f.accounts.value
  }

  /** One file's contribution: unreadable JSON is ignored, every entry
      object counts, and only a key object can change the key index (when
      `typeof index === 'number'`) or the algorithms (when truthy). */
  function JsApplyFile(d: JsDraft, f: ConfigFile, name: string): (r: JsDraft)
    ensures !JsHasEntry(f, name) ==> r == d
    ensures JsHasEntry(f, name) ==> r.address == Some(JsAddressText(f.accounts.value[name].address))
    ensures JsHasEntry(f, name) ==>
              var k := f.accounts.value[name].key;
              r.keyId == (if k.KeyObject? && k.index.IndexInt? then k.index.n else d.keyId)
              && r.signatureAlgorithm == (if k.KeyObject? && Truthy(k.signatureAlgorithm)
                                          then k.signatureAlgorithm.value else d.signatureAlgorithm)
              && r.hashAlgorithm == (if k.KeyObject? && Truthy(k.hashAlgorithm)
                                     then k.hashAlgorithm.value else d.hashAlgorithm)
  {
    match f
    case FileParsed(accounts) =>
      if accounts.Some? && name in accounts.value then
        var e := accounts.value[name];
        var d1 := d.(address := Some(JsAddressText(e.address)));
        match e.key
        case KeyObject(index, sig, hash, _) =>
          JsDraft(d1.address,
                  if index.IndexInt? then index.n else d1.keyId,
                  if Truthy(sig) then sig.value else d1.signatureAlgorithm,
                  if Truthy(hash) then hash.value else d1.hashAlgorithm)
        case _ => d1
      else d
    case _ => d
  }

  /** A file whose entry gives a non-empty address text; only then is
      the production file skipped. */
  predicate JsGivesAddress(f: ConfigFile, name: string) {
    JsHasEntry(f, name) && JsAddressText(f.accounts.value[name].address) != ""
  }

  /** The address, key index and algorithms of a loaded account. */
  function JsDraftOf(a: JsAccount): JsDraft {
    JsDraft(a.address, a.keyId, a.signatureAlgorithm, a.hashAlgorithm)
  }

  /** `loadServiceAccount` / `loadAccountByName` given the key file's
      content: the key is the trimmed content or `null`. `flow.json` is
      read first; the production file only when that gave no address. */
  function JsLoad(name: string, keyFile: Option<string>, flowJson: ConfigFile,
                  production: ConfigFile, signatureAlgorithm: string,
                  hashAlgorithm: string): (r: JsAccount)
    ensures r.key.Some? <==> keyFile.Some?
    ensures r.key.Some? ==> r.key.value == Strip(keyFile.value)
    ensures JsGivesAddress(flowJson, name) ==>
              r.address == Some(JsAddressText(flowJson.accounts.value[name].address))
              && JsDraftOf(r) == JsApplyFile(JsDraft(None, 0, signatureAlgorithm, hashAlgorithm), flowJson, name)
    ensures !JsGivesAddress(flowJson, name) && JsHasEntry(production, name) ==>
              r.address == Some(JsAddressText(production.accounts.value[name].address))
    ensures !JsGivesAddress(flowJson, name) ==>
              JsDraftOf(r) == JsApplyFile(JsApplyFile(JsDraft(None, 0, signatureAlgorithm, hashAlgorithm),
                                                      flowJson, name), production, name)
    ensures !JsGivesAddress(flowJson, name) && !JsHasEntry(production, name) ==>
              r.address == (if JsHasEntry(flowJson, name) then Some("") else None)
    ensures !JsHasEntry(flowJson, name) && !JsHasEntry(production, name) ==>
              r.signatureAlgorithm == signatureAlgorithm && r.hashAlgorithm == hashAlgorithm && r.keyId == 0
  {
    var d0 := JsDraft(None, 0, signatureAlgorithm, hashAlgorithm);
    var d1 := JsApplyFile(d0, flowJson, name);
    var d := if Truthy(d1.address) then d1 else JsApplyFile(d1, production, name);
    JsAccount(d.address, if keyFile.Some? then Some(Strip(keyFile.value)) else None,
              d.keyId, d.signatureAlgorithm, d.hashAlgorithm)
  }

  /** Once `flow.json` yields an address, the production file is never
      read by the TypeScript loader either. */
  lemma JsFlowJsonTakesPrecedence(name: string, keyFile: Option<string>, flowJson: ConfigFile,
                                  p1: ConfigFile, p2: ConfigFile, sig: string, hash: string)
    requires JsGivesAddress(flowJson, name)
    ensures JsLoad(name, keyFile, flowJson, p1, sig, hash) == JsLoad(name, keyFile, flowJson, p2, sig, hash)
  {
  }

  /** With no `flow.json` entry, a production entry with an address and no
      key member gives that address, key index 0 and the defaults. */
  lemma JsProductionFallback(name: string, key: string, address: string, others: map<string, Entry>,
                             sig: string, hash: string)
    requires name !in others
    ensures JsLoad(name, Some(key), FileParsed(Some(others)),
                   FileParsed(Some(others[name := Entry(AddressText(address), KeyAbsent, false)])), sig, hash)
            == JsAccount(Some(address), Some(Strip(key)), 0, sig, hash)
  {
  }

  /** `loadServiceAccount`: only the flow directory's key file, with
      secp256k1 / SHA2-256 defaults. */
  function JsLoadService(dir: FlowDir): (r: JsAccount)
    ensures r.key == (if dir.serviceKeyInFlowDir.Some? then Some(Strip(dir.serviceKeyInFlowDir.value)) else None)
    ensures JsGivesAddress(dir.flowJson, SERVICE_ACCOUNT) ==>
              r.address == Some(JsAddressText(dir.flowJson.accounts.value[SERVICE_ACCOUNT].address))
    ensures !JsGivesAddress(dir.flowJson, SERVICE_ACCOUNT) && JsHasEntry(dir.production, SERVICE_ACCOUNT) ==>
              r.address == Some(JsAddressText(dir.production.accounts.value[SERVICE_ACCOUNT].address))
    ensures var d0 := JsDraft(None, 0, ECDSA_SECP256K1, SHA2_256);
            JsDraftOf(r) == if JsGivesAddress(dir.flowJson, SERVICE_ACCOUNT)
                            then JsApplyFile(d0, dir.flowJson, SERVICE_ACCOUNT)
                            else JsApplyFile(JsApplyFile(d0, dir.flowJson, SERVICE_ACCOUNT),
                                             dir.production, SERVICE_ACCOUNT)
    ensures !JsHasEntry(dir.flowJson, SERVICE_ACCOUNT) && !JsHasEntry(dir.production, SERVICE_ACCOUNT) ==>
              r.signatureAlgorithm == ECDSA_SECP256K1 && r.hashAlgorithm == SHA2_256
  {
    JsLoad(SERVICE_ACCOUNT, dir.serviceKeyInFlowDir, dir.flowJson, dir.production,
           ECDSA_SECP256K1, SHA2_256)
  }

  /** `loadAccountByName`: `accounts/pkeys/<name>.pkey`, with P-256 /
      SHA3-256 defaults; the service account's name gets no special case. */
  function JsLoadByName(dir: FlowDir, name: string): (r: JsAccount)
    ensures r.key == (if name in dir.pkeys then Some(Strip(dir.pkeys[name])) else None)
    ensures JsGivesAddress(dir.flowJson, name) ==>
              r.address == Some(JsAddressText(dir.flowJson.accounts.value[name].address))
    ensures !JsGivesAddress(dir.flowJson, name) && JsHasEntry(dir.production, name) ==>
              r.address == Some(JsAddressText(dir.production.accounts.value[name].address))
    ensures var d0 := JsDraft(None, 0, ECDSA_P256, SHA3_256);
            JsDraftOf(r) == if JsGivesAddress(dir.flowJson, name)
                            then JsApplyFile(d0, dir.flowJson, name)
                            else JsApplyFile(JsApplyFile(d0, dir.flowJson, name), dir.production, name)
    ensures !JsHasEntry(dir.flowJson, name) && !JsHasEntry(dir.production, name) ==>
              r.signatureAlgorithm == ECDSA_P256 && r.hashAlgorithm == SHA3_256
  {
    JsLoad(name, if name in dir.pkeys then Some(dir.pkeys[name]) else None,
           dir.flowJson, dir.production, ECDSA_P256, SHA3_256)
  }

  /** The wrapper creates a signing function only for an account with a
      truthy address and key. */
  predicate JsUsable(a: JsAccount) {
    Truthy(a.address) && Truthy(a.key)
  }

  /** An entry without an address member is usable in TypeScript, under
      the address `"undefined"`, while Python rejects it. */
  lemma MissingAddressDisagreement(name: string, key: string, sig: string, hash: string)
    requires Strip(key) != ""
    ensures var f := FileParsed(Some(map[name := Entry(AddressAbsent, KeyAbsent, true)]));
            JsLoad(name, Some(key), f, FileAbsent, sig, hash).address == Some("undefined")
            && JsUsable(JsLoad(name, Some(key), f, FileAbsent, sig, hash))
            && PyLoad(name, Some(key), f, FileAbsent, sig, hash).Err?
  {
  }

  /** Both loaders agree on a well-formed entry: same address up to the
      `0x` prefix Python adds, same key, key index and algorithms. */
  lemma LoadersAgree(name: string, key: string, address: string, index: int,
                     sig: Option<string>, hash: Option<string>, defSig: string, defHash: string)
    requires address != ""
    ensures var f := FileParsed(Some(map[name := Entry(AddressText(address), KeyObject(IndexInt(index), sig, hash, false), false)]));
            var p := PyLoad(name, Some(key), f, FileAbsent, defSig, defHash);
            var j := JsLoad(name, Some(key), f, FileAbsent, defSig, defHash);
            p.Ok? && j.address == Some(address) && p.value.address == WithPrefix(address)
            && j.key == Some(p.value.key) && j.keyId == p.value.keyId == index
            && j.signatureAlgorithm == p.value.signatureAlgorithm
            && j.hashAlgorithm == p.value.hashAlgorithm
  {
    var f := FileParsed(Some(map[name := Entry(AddressText(address), KeyObject(IndexInt(index), sig, hash, false), false)]));
    var s := if Truthy(sig) then sig.value else defSig;
    var h := if Truthy(hash) then hash.value else defHash;
    assert PyApplyFile(Draft("", 0, defSig, defHash), f, name) == Ok(Draft(address, index, s, h));
    assert JsApplyFile(JsDraft(None, 0, defSig, defHash), f, name) == JsDraft(Some(address), index, s, h);
  }

  // ---------------------------------------------------------------------
  // Signer construction
  // ---------------------------------------------------------------------

  datatype SignAlgo = P256 | Secp256k1
  datatype HashAlgo = Sha2 | Sha3

  function SignAlgoName(a: SignAlgo): string {
    match a
    case P256 => ECDSA_P256
    case Secp256k1 => ECDSA_SECP256K1
  }

  function HashAlgoName(h: HashAlgo): string {
    match h
    case Sha2 => SHA2_256
    case Sha3 => SHA3_256
  }

  /** `_create_signer`: unknown names fall back to secp256k1 and
      SHA2-256. */
  function PySigner(signatureAlgorithm: string, hashAlgorithm: string): (r: (SignAlgo, HashAlgo))
    ensures r.0 == P256 <==> signatureAlgorithm == ECDSA_P256
    ensures r.1 == Sha3 <==> hashAlgorithm == SHA3_256
  {
    (if signatureAlgorithm == ECDSA_P256 then P256 else Secp256k1,
     if hashAlgorithm == SHA3_256 then Sha3 else Sha2)
  }

  /** `authzFactory`'s choice of curve and digest: unknown names fall back
      to P-256 and SHA2-256. */
  function JsSigner(signatureAlgorithm: string, hashAlgorithm: string): (r: (SignAlgo, HashAlgo))
    ensures r.0 == Secp256k1 <==> signatureAlgorithm == ECDSA_SECP256K1
    ensures r.1 == Sha3 <==> hashAlgorithm == SHA3_256
  {
    (if signatureAlgorithm == ECDSA_SECP256K1 then Secp256k1 else P256,
     if hashAlgorithm == SHA3_256 then Sha3 else Sha2)
  }

  /** Both layers read every known name as itself. */
  lemma SignerNamesRoundTrip(a: SignAlgo, h: HashAlgo)
    ensures PySigner(SignAlgoName(a), HashAlgoName(h)) == (a, h)
    ensures JsSigner(SignAlgoName(a), HashAlgoName(h)) == (a, h)
  {
  }

  /** The two layers agree on a name exactly when it is a known one. */
  lemma SignerDefaultsDiffer(s: string)
    ensures PySigner(s, SHA2_256).0 == JsSigner(s, SHA2_256).0 <==>
            s == ECDSA_P256 || s == ECDSA_SECP256K1
  {
  }
}

=== FILE: app_helpers.dfy ===
/** Request helpers of the Python HTTP service (`src/python/app.py`):
    wallet ids, the two bearer-secret checks, the argument filter, the
    role choice and result shape of background tasks, recipient
    addresses, and the send-bait seal check.
 */
module AppHelpers {
  import opened Wrappers
  import opened Text
  import Identifiers
  import Accounts

  // ---------------------------------------------------------------------
  // Identifiers
  // ---------------------------------------------------------------------

  /** `_is_valid_wallet_id` on a text (`None` for `None`). */
  predicate IsValidWalletId(v: Option<string>) {
    v.Some? && v.value != "" && Identifiers.IsUuid(v.value)
  }

  predicate IsLowerHexChar(c: char) {
    ('0' <= c <= '9') || ('a' <= c <= 'f')
  }

  /** The user-id test of send-bait: the same pattern without `re.I`. */
  predicate IsLowerUuid(s: string) {
    LowerUuidShape(s) || (|s| == 37 && s[36] == '\n' && LowerUuidShape(s[..36]))
  }

  predicate LowerUuidShape(s: string) {
    && |s| == 36
    && (forall i :: 0 <= i < 36 ==> (if i in {8, 13, 18, 23} then s[i] == '-' else IsLowerHexChar(s[i])))
  }

  /** The user-id test is stricter: it accepts only UUIDs the wallet-id
      test accepts, and refuses any with an upper-case digit. */
  lemma UserIdStricter(s: string)
    ensures IsLowerUuid(s) ==> Identifiers.IsUuid(s)
    ensures Identifiers.UuidShape(s) && (exists i :: 0 <= i < |s| && 'A' <= s[i] <= 'F') ==>
              !IsLowerUuid(s) && IsValidWalletId(Some(s))
  {
    if Identifiers.UuidShape(s) && (exists i :: 0 <= i < |s| && 'A' <= s[i] <= 'F') {
      var i :| 0 <= i < |s| && 'A' <= s[i] <= 'F';
      assert !IsLowerHexChar(s[i]);
      assert s[i] != '-';
      assert |s| != 37;
    }
  }

  // ---------------------------------------------------------------------
  // Bearer secrets
  // ---------------------------------------------------------------------

  const BEARER := "Bearer "

  /** `verify_admin_secret`: a configured secret, a `Bearer ` header that
      splits on spaces into exactly two parts, and a non-blank token equal
      to the secret. */
  predicate VerifyAdminSecret(secret: Option<string>, header: Option<string>) {
    && Truthy(secret)
    && Truthy(header)
    && StartsWith(header.value, BEARER)
    && |Split(header.value, ' ')| == 2
    && var token := Split(header.value, ' ')[1];
       token != "" && Strip(token) != "" && token == secret.value
  }

  /** A `Bearer ` header that splits into two parts is `Bearer ` and the
      second part. */
  lemma BearerSplit(h: string)
    requires StartsWith(h, BEARER) && |Split(h, ' ')| == 2
    ensures h == BEARER + Split(h, ' ')[1]
  {
    var parts := Split(h, ' ');
    JoinSplit(h, ' ');
    assert h == parts[0] + " " + parts[1] by {
      assert parts[1..] == [parts[1]];
    }
    var n := |parts[0]|;
    assert h[n] == ' ';
    assert forall i :: 0 <= i < n ==> h[i] == parts[0][i];
    assert forall i :: 0 <= i < n ==> h[i] != ' ';
    assert forall i :: 0 <= i < 6 ==> h[i] == BEARER[i] != ' ';
    assert h[6] == ' ';
    assert n == 6;
    assert parts[0] == h[..6] == "Bearer";
  }

  /** `Bearer <secret>` splits into `Bearer` and the secret when the secret
      has no space. */
  lemma BearerJoin(secret: string)
    requires ' ' !in secret
    ensures Split(BEARER + secret, ' ') == ["Bearer", secret]
  {
    assert ' ' !in "Bearer";
    assert Join(["Bearer", secret], " ") == BEARER + secret;
    SplitJoin(["Bearer", secret], ' ');
  }

  /** The admin check accepts exactly `Bearer <secret>`, for a secret with
      no space and some non-blank character. */
  lemma AdminSecretExact(secret: Option<string>, header: Option<string>)
    ensures VerifyAdminSecret(secret, header) <==>
              Truthy(secret) && ' ' !in secret.value && Strip(secret.value) != ""
              && header == Some(BEARER + secret.value)
  {
    if VerifyAdminSecret(secret, header) {
      BearerSplit(header.value);
    }
    if Truthy(secret) && ' ' !in secret.value && header == Some(BEARER + secret.value) {
      BearerJoin(secret.value);
    }
  }

  /** `WEBHOOK_SECRET`, which falls back on the admin secret. */
  function WebhookSecret(webhookEnv: Option<string>, adminEnv: Option<string>): (s: Option<string>)
    ensures Truthy(webhookEnv) ==> s == webhookEnv
    ensures !Truthy(webhookEnv) ==> s == adminEnv
  {
    if Truthy(webhookEnv) then webhookEnv else adminEnv
  }

  /** `verify_webhook_secret`: the token is everything after the first
      space, so it may itself hold spaces. */
  predicate VerifyWebhookSecret(secret: Option<string>, header: Option<string>) {
    && Truthy(secret)
    && Truthy(header)
    && StartsWith(header.value, BEARER)
    && var token := header.value[|BEARER|..];
       token != "" && token == secret.value
  }

  /** The webhook check accepts exactly `Bearer <secret>`. */
  lemma WebhookSecretExact(secret: Option<string>, header: Option<string>)
    ensures VerifyWebhookSecret(secret, header) <==>
              Truthy(secret) && header == Some(BEARER + secret.value)
  {
    if Truthy(secret) && header == Some(BEARER + secret.value) {
      assert (BEARER + secret.value)[|BEARER|..] == secret.value;
    }
    if VerifyWebhookSecret(secret, header) {
      assert header.value == header.value[..|BEARER|] + header.value[|BEARER|..];
    }
  }

  /** A secret with a space is accepted by the webhook check and refused
      by the admin check. */
  lemma SpacedSecretDiffers(secret: string)
    requires secret != "" && ' ' in secret
    ensures VerifyWebhookSecret(Some(secret), Some(BEARER + secret))
    ensures !VerifyAdminSecret(Some(secret), Some(BEARER + secret))
  {
    WebhookSecretExact(Some(secret), Some(BEARER + secret));
    AdminSecretExact(Some(secret), Some(BEARER + secret));
  }

  // ---------------------------------------------------------------------
  // Arguments
  // ---------------------------------------------------------------------

  predicate IsRoleFlag(a: string) {
    a == "--proposer" || a == "--authorizer"
  }

  /** `_filter_cadence_args`: a role flag with a successor goes with the
      successor; a trailing role flag goes alone; the rest stays in
      order. */
  function FilterCadenceArgs(args: seq<string>): (r: seq<string>)
    ensures forall i :: 0 <= i < |r| ==> !IsRoleFlag(r[i])
    ensures forall i :: 0 <= i < |r| ==> r[i] in args
    ensures |r| <= |args|
    decreases |args|
  {
    if |args| == 0 then []
    else if IsRoleFlag(args[0]) then
      (if |args| >= 2 then FilterCadenceArgs(args[2..]) else [])
    else
      var rest := FilterCadenceArgs(args[1..]);
      assert forall i :: 0 <= i < |rest| ==> rest[i] in args by {
        forall i | 0 <= i < |rest|
          ensures rest[i] in args
        {
          var j :| 0 <= j < |args[1..]| && args[1..][j] == rest[i];
          assert args[j + 1] == rest[i];
        }
      }
      [args[0]] + rest
  }

  /** The loop of `_filter_cadence_args` from index `i`, with its
      `skip_next` flag: a role flag with a successor sets the flag and is
      dropped, a flagged position is skipped, and a trailing role flag is
      dropped on its own. */
  function FilterLoop(args: seq<string>, i: nat, skipNext: bool): seq<string>
    requires i <= |args|
    decreases |args| - i
  {
    if i == |args| then []
    else if skipNext then FilterLoop(args, i + 1, false)
    else if IsRoleFlag(args[i]) && i + 1 < |args| then FilterLoop(args, i + 1, true)
    else if !IsRoleFlag(args[i]) then [args[i]] + FilterLoop(args, i + 1, false)
    else FilterLoop(args, i + 1, false)
  }

  /** The recursive filter is the source's loop. */
  lemma {:induction false} FilterIsLoop(args: seq<string>, i: nat)
    requires i <= |args|
    ensures FilterLoop(args, i, false) == FilterCadenceArgs(args[i..])
    decreases |args| - i
  {
    if i < |args| {
      var rest := args[i..];
      assert rest[0] == args[i] && rest[1..] == args[i + 1..];
      if IsRoleFlag(args[i]) && i + 1 < |args| {
        FilterIsLoop(args, i + 2);
        assert rest[2..] == args[i + 2..];
        assert FilterLoop(args, i + 1, true) == FilterLoop(args, i + 2, false);
      } else {
        FilterIsLoop(args, i + 1);
      }
    }
  }

  /** Arguments without role flags pass unchanged, so filtering twice is
      filtering once. */
  lemma {:induction false} FilterKeepsPlainArgs(args: seq<string>)
    requires forall i :: 0 <= i < |args| ==> !IsRoleFlag(args[i])
    ensures FilterCadenceArgs(args) == args
    decreases |args|
  {
    if |args| > 0 {
      FilterKeepsPlainArgs(args[1..]);
      assert [args[0]] + args[1..] == args;
    }
  }

  lemma FilterIdempotent(args: seq<string>)
    ensures FilterCadenceArgs(FilterCadenceArgs(args)) == FilterCadenceArgs(args)
  {
    FilterKeepsPlainArgs(FilterCadenceArgs(args));
  }

  /** A flag and its value between plain arguments are dropped together. */
  lemma {:induction false} FilterDropsPair(pre: seq<string>, flag: string, value: string, post: seq<string>)
    requires IsRoleFlag(flag)
    requires forall i :: 0 <= i < |pre| ==> !IsRoleFlag(pre[i])
    requires forall i :: 0 <= i < |post| ==> !IsRoleFlag(post[i])
    ensures FilterCadenceArgs(pre + [flag, value] + post) == pre + post
    decreases |pre|
  {
    if |pre| == 0 {
      assert pre + [flag, value] + post == [flag, value] + post;
      assert ([flag, value] + post)[2..] == post;
      FilterKeepsPlainArgs(post);
    } else {
      assert (pre + [flag, value] + post)[1..] == pre[1..] + [flag, value] + post;
      FilterDropsPair(pre[1..], flag, value, post);
      assert [pre[0]] + (pre[1..] + post) == pre + post;
    }
  }

  /** Position `i` holds the first `--authorizer` at or after `k`, and a
      value follows it. */
  predicate FirstFlagAt(args: seq<string>, k: nat, i: nat) {
    && k <= i < |args| - 1
    && args[i] == "--authorizer"
    && (forall j :: k <= j < i ==> args[j] != "--authorizer")
  }

  /** `_get_authorizer_from_args` from position `k`. */
  function AuthorizerFrom(args: seq<string>, k: nat): (r: Option<string>)
    requires k <= |args|
    ensures r.Some? <==> exists i :: k <= i < |args| - 1 && args[i] == "--authorizer"
    ensures r.Some? ==> exists i :: FirstFlagAt(args, k, i) && r.value == args[i + 1]
    decreases |args| - k
  {
    if k + 1 >= |args| then None
    else if args[k] == "--authorizer" then
      assert FirstFlagAt(args, k, k);
      Some(args[k + 1])
    else
      var r := AuthorizerFrom(args, k + 1);
      assert r.Some? ==> exists i :: FirstFlagAt(args, k, i) && r.value == args[i + 1] by {
        if r.Some? {
          var i :| FirstFlagAt(args, k + 1, i) && r.value == args[i + 1];
          assert FirstFlagAt(args, k, i);
        }
      }
      r
  }

  function GetAuthorizer(args: seq<string>): Option<string> {
    AuthorizerFrom(args, 0)
  }

  lemma {:induction false} AuthorizerSkips(args: seq<string>, k: nat, n: nat)
    requires k <= n <= |args|
    requires forall i :: k <= i < n ==> args[i] != "--authorizer"
    ensures AuthorizerFrom(args, k) == AuthorizerFrom(args, n)
    decreases n - k
  {
    if k < n && k + 1 < |args| {
      AuthorizerSkips(args, k + 1, n);
    }
  }

  /** The value after the first `--authorizer` is read back. */
  lemma AuthorizerRoundTrip(pre: seq<string>, value: string, post: seq<string>)
    requires "--authorizer" !in pre
    ensures GetAuthorizer(pre + ["--authorizer", value] + post) == Some(value)
  {
    var args := pre + ["--authorizer", value] + post;
    assert forall i :: 0 <= i < |pre| ==> args[i] == pre[i];
    AuthorizerSkips(args, 0, |pre|);
    assert args[|pre|] == "--authorizer" && args[|pre| + 1] == value;
  }

  // ---------------------------------------------------------------------
  // Background tasks
  // ---------------------------------------------------------------------

  /** The `authorizer` role handed to the adapter: one account, or a
      list of them. */
  datatype RoleValue = OneAccount(name: string) | AccountList(names: seq<string>)

  /** The roles handed to the adapter. */
  datatype TaskRoles = TaskRoles(proposer: string, authorizer: RoleValue, payer: string)

  /** What `run_background_task` runs. */
  datatype TaskPlan =
    | RunScript(path: string, args: seq<string>)
    | SendTransaction(path: string, args: seq<string>, roles: TaskRoles)
    | Unsupported(message: string)

  function TaskPlanOf(command: string, args: Option<seq<string>>): (p: TaskPlan)
    ensures StartsWith(command, "script execute") <==> p.RunScript?
    ensures p.Unsupported? <==> !StartsWith(command, "script execute") && !StartsWith(command, "transactions send")
    ensures p.Unsupported? ==> p.message == "Unsupported command: " + command
    ensures !p.Unsupported? ==> p.args == FilterCadenceArgs(args.GetOr([]))
    ensures p.SendTransaction? ==>
              p.roles.proposer == Accounts.SERVICE_ACCOUNT && p.roles.payer == Accounts.SERVICE_ACCOUNT
    ensures p.SendTransaction? ==> (p.roles.authorizer.OneAccount? <==> Contains(Lower(p.path), "admin"))
    ensures p.SendTransaction? && p.roles.authorizer.OneAccount? ==>
              p.roles.authorizer.name == Accounts.SERVICE_ACCOUNT
    ensures p.SendTransaction? && p.roles.authorizer.AccountList? ==>
              p.roles.authorizer.names
              == [Accounts.SERVICE_ACCOUNT] + (if Truthy(GetAuthorizer(args.GetOr([])))
                                               then [GetAuthorizer(args.GetOr([])).value] else [])
  {
    var all := args.GetOr([]);
    var txArgs := FilterCadenceArgs(all);
    if StartsWith(command, "script execute") then
      RunScript(RemoveAll(RemoveAll(command, "script execute "), "scripts execute "), txArgs)
    else if StartsWith(command, "transactions send") then
      var path := RemoveAll(RemoveAll(command, "transactions send "), "transaction send ");
      if Contains(Lower(path), "admin") then
        SendTransaction(path, txArgs, TaskRoles(Accounts.SERVICE_ACCOUNT, OneAccount(Accounts.SERVICE_ACCOUNT),
                                                Accounts.SERVICE_ACCOUNT))
      else
        var user := GetAuthorizer(all);
        var authorizers := [Accounts.SERVICE_ACCOUNT] + (if Truthy(user) then [user.value] else []);
        SendTransaction(path, txArgs, TaskRoles(Accounts.SERVICE_ACCOUNT, AccountList(authorizers),
                                                Accounts.SERVICE_ACCOUNT))
    else Unsupported("Unsupported command: " + command)
  }

  /** The user's `--authorizer` is read from the unfiltered arguments: it
      signs, yet its flag never reaches the transaction's arguments. */
  lemma UserAuthorizerSigns(path: string, pre: seq<string>, user: string, post: seq<string>)
    requires "--authorizer" !in pre && user != ""
    requires forall i :: 0 <= i < |pre| ==> !IsRoleFlag(pre[i])
    requires forall i :: 0 <= i < |post| ==> !IsRoleFlag(post[i])
    requires !Contains(Lower(RemoveAll(RemoveAll("transactions send " + path, "transactions send "), "transaction send ")), "admin")
    ensures var p := TaskPlanOf("transactions send " + path, Some(pre + ["--authorizer", user] + post));
            p.SendTransaction? && p.roles.authorizer == AccountList([Accounts.SERVICE_ACCOUNT, user]) && p.args == pre + post
  {
    AuthorizerRoundTrip(pre, user, post);
    FilterDropsPair(pre, "--authorizer", user, post);
    assert StartsWith("transactions send " + path, "transactions send");
    assert !StartsWith("transactions send " + path, "script execute") by {
      assert ("transactions send " + path)[0] == 't';
    }
  }

  /** What the adapter call gave: a result dictionary (absent members are
      `None`) or an exception. */
  datatype AdapterResult = AdapterResult(success: bool, stdout: Option<string>, stderr: Option<string>,
                                         errorMessage: Option<string>, transactionId: Option<string>)

  datatype TaskResult = TaskResult(success: bool, stdout: string, stderr: string, returncode: int,
                                   transactionId: Option<string>)

  /** The stored task result: return code 0 or 1 from the adapter's
      success, and -1 for any exception, an unsupported command included. */
  function TaskResultOf(plan: TaskPlan, call: Result<AdapterResult, string>): (r: TaskResult)
    ensures r.returncode == -1 <==> plan.Unsupported? || call.Err?
    ensures r.returncode == 0 <==> r.success
    ensures r.returncode in {-1, 0, 1}
    ensures plan.Unsupported? ==> r.stderr == plan.message && !r.success
    ensures !plan.Unsupported? && call.Ok? ==>
              (r.success == call.value.success
               && r.stderr == (if Truthy(call.value.stderr) then call.value.stderr.value
                               else call.value.errorMessage.GetOr("")))
  {
    if plan.Unsupported? then TaskResult(false, "", plan.message, -1, None)
    else match call
      case Err(e) => TaskResult(false, "", e, -1, None)
      case Ok(a) =>
        TaskResult(a.success, a.stdout.GetOr(""),
                   if Truthy(a.stderr) then a.stderr.value else a.errorMessage.GetOr(""),
                   if a.success then 0 else 1, a.transactionId)
  }

  /** `scripts execute ...` is not `script execute ...`: it is refused. */
  lemma PluralScriptsRefused(rest: string)
    ensures TaskPlanOf("scripts execute " + rest, None).Unsupported?
  {
    var c := "scripts execute " + rest;
    assert c[6] == 's';
    assert c[..14] != "script execute" by { assert c[..14][6] == 's'; }
    assert c[0] == 's';
  }

  // ---------------------------------------------------------------------
  // Recipients and the seal check
  // ---------------------------------------------------------------------

  /** A sixteen-character recipient without `0x` gains it. */
  function ToAddress(to: string): (r: string)
    ensures StartsWith(r, "0x") || |r| != 16
    ensures !StartsWith(to, "0x") && |to| == 16 ==> r == "0x" + to
    ensures StartsWith(to, "0x") || |to| != 16 ==> r == to
  {
    if !StartsWith(to, "0x") && |to| == 16 then "0x" + to else to
  }

  lemma ToAddressIdempotent(to: string)
    ensures ToAddress(ToAddress(to)) == ToAddress(to)
  {
  }

  /** The send-bait recipient: a lower-case UUID is a user whose wallet
      address is looked up and prefixed; anything else goes through
      `ToAddress`. */
  function Recipient(to: string, walletOf: string -> Option<string>): (r: Result<string, string>)
    ensures !IsLowerUuid(to) ==> r == Ok(ToAddress(to))
    ensures IsLowerUuid(to) && !Truthy(walletOf(to)) ==> r == Err("No wallet found for user ID: " + to)
    ensures IsLowerUuid(to) && Truthy(walletOf(to)) ==> r == Ok(Accounts.WithPrefix(walletOf(to).value))
  {
    if IsLowerUuid(to) then
      if Truthy(walletOf(to)) then Ok(Accounts.WithPrefix(walletOf(to).value))
      else Err("No wallet found for user ID: " + to)
    else Ok(ToAddress(to))
  }

  /** The `data` member of an adapter result. */
  datatype DataField = DataAbsent | DataDict(status: Option<int>) | DataScalar(value: int)

  /** `tx_status`: the dictionary's `status`, else the data itself. */
  function TxStatus(d: DataField): Option<int> {
    match d
    case DataAbsent => None
    case DataDict(status) => status
    case DataScalar(v) => Some(v)
  }

  datatype BaitOutcome =
    | BaitFailed(error: string, insufficientBalance: bool)
    | NotSealed(status: Option<int>)
    | BaitSealed

  /** The checks of send-bait after the adapter returns. */
  function BaitOutcomeOf(success: bool, stderr: Option<string>, errorMessage: Option<string>,
                         data: DataField): (o: BaitOutcome)
    ensures o.BaitSealed? <==> success && TxStatus(data) == Some(4)
    ensures !success ==> o.BaitFailed?
    ensures o.BaitFailed? ==> o.error != ""
    ensures o.BaitFailed? ==>
              (o.insufficientBalance <==>
                 (Contains(o.error, "Cannot withdraw tokens") && Contains(o.error, "greater than the balance")))
  {
    if !success then
      var msg := if Truthy(stderr) then stderr.value
                 else if Truthy(errorMessage) then errorMessage.value
                 else "Transaction failed";
      BaitFailed(msg, Contains(msg, "Cannot withdraw tokens") && Contains(msg, "greater than the balance"))
    else if TxStatus(data) != Some(4) then NotSealed(TxStatus(data))
    else BaitSealed
  }
}

=== FILE: base64.dfy ===
/** The standard base64 alphabet and padding of RFC 4648, section 4:
    Python's `base64.b64encode`, and `base64.b64decode(..., validate=True)`,
    which refuses any character outside the alphabet, a length that is not
    a multiple of four, and padding anywhere but at the end. Like Python,
    decoding ignores the pad bits of a final partial group.
 */
module Base64 {
  import opened Wrappers
  import opened Bytes

  type sextet = v: int | 0 <= v < 64

  predicate IsBase64Char(c: char) {
    ('A' <= c <= 'Z') || ('a' <= c <= 'z') || ('0' <= c <= '9') || c == '+' || c == '/'
  }

  predicate AllBase64(s: string) {
    forall i :: 0 <= i < |s| ==> IsBase64Char(s[i])
  }

  function CharOf(v: sextet): (c: char)
    ensures IsBase64Char(c)
  {
    if v < 26 then ('A' as int + v) as char
    else if v < 52 then ('a' as int + v - 26) as char
    else if v < 62 then ('0' as int + v - 52) as char
    else if v == 62 then '+'
    else '/'
  }

  function ValueOf(c: char): (v: sextet)
    requires IsBase64Char(c)
    ensures CharOf(v) == c
  {
    if 'A' <= c <= 'Z' then c as int - 'A' as int
    else if 'a' <= c <= 'z' then c as int - 'a' as int + 26
    else if '0' <= c <= '9' then c as int - '0' as int + 52
    else if c == '+' then 62
    else 63
  }

  lemma ValueOfChar(v: sextet)
    ensures ValueOf(CharOf(v)) == v
  {
  }

  // The four sextets of three bytes a b c, most significant bits first.

  function High6(a: byte): sextet { a / 4 }
  function Low2High4(a: byte, b: byte): sextet { (a % 4) * 16 + b / 16 }
  function Low4High2(b: byte, c: byte): sextet { (b % 16) * 4 + c / 64 }
  function Low6(c: byte): sextet { c % 64 }

  // The three bytes of four sextets w x y z.

  function FirstByte(w: sextet, x: sextet): byte { w * 4 + x / 16 }
  function SecondByte(x: sextet, y: sextet): byte { (x % 16) * 16 + y / 4 }
  function ThirdByte(y: sextet, z: sextet): byte { (y % 4) * 64 + z }

  /** Each byte is rebuilt from the sextets it was spread over; the bits
      a padded group adds after the last byte are zero and do not
      matter. */
  lemma BytesFromSextets(a: byte, b: byte, c: byte)
    ensures FirstByte(High6(a), Low2High4(a, b)) == a
    ensures SecondByte(Low2High4(a, b), Low4High2(b, c)) == b
    ensures ThirdByte(Low4High2(b, c), Low6(c)) == c
  {
  }

  /** Three bytes as four characters. */
  function EncodeTriple(a: byte, b: byte, c: byte): (r: string)
    ensures |r| == 4 && AllBase64(r)
  {
    [CharOf(High6(a)), CharOf(Low2High4(a, b)), CharOf(Low4High2(b, c)), CharOf(Low6(c))]
  }

  /** A final pair of bytes: three characters and one `=`. */
  function EncodePair(a: byte, b: byte): (r: string)
    ensures |r| == 4 && AllBase64(r[..3]) && r[3] == '='
  {
    [CharOf(High6(a)), CharOf(Low2High4(a, b)), CharOf(Low4High2(b, 0)), '=']
  }

  /** A final single byte: two characters and `==`. */
  function EncodeSingle(a: byte): (r: string)
    ensures |r| == 4 && AllBase64(r[..2]) && r[2] == '=' && r[3] == '='
  {
    [CharOf(High6(a)), CharOf(Low2High4(a, 0)), '=', '=']
  }

  function Encode(bs: seq<byte>): string
    decreases |bs|
  {
    if |bs| == 0 then ""
    else if |bs| == 1 then EncodeSingle(bs[0])
    else if |bs| == 2 then EncodePair(bs[0], bs[1])
    else EncodeTriple(bs[0], bs[1], bs[2]) + Encode(bs[3..])
  }

  /** Four alphabet characters as three bytes. */
  function DecodeFull(q: string): (r: seq<byte>)
    requires |q| == 4 && AllBase64(q)
    ensures |r| == 3
  {
    var w, x, y, z := ValueOf(q[0]), ValueOf(q[1]), ValueOf(q[2]), ValueOf(q[3]);
    [FirstByte(w, x), SecondByte(x, y), ThirdByte(y, z)]
  }

  /** The last group of four: full, or padded with one or two `=`. */
  function DecodeLast(q: string): (r: Option<seq<byte>>)
    requires |q| == 4
    ensures r.Some? ==> 1 <= |r.value| <= 3
    ensures AllBase64(q) ==> r == Some(DecodeFull(q))
  {
    if AllBase64(q) then Some(DecodeFull(q))
    else if AllBase64(q[..3]) && q[3] == '=' then
      var w, x, y := ValueOf(q[0]), ValueOf(q[1]), ValueOf(q[2]);
      Some([FirstByte(w, x), SecondByte(x, y)])
    else if AllBase64(q[..2]) && q[2] == '=' && q[3] == '=' then
      Some([FirstByte(ValueOf(q[0]), ValueOf(q[1]))])
    else None
  }

  function Decode(s: string): Option<seq<byte>>
    decreases |s|
  {
    if |s| == 0 then Some([])
    else if |s| < 4 then None
    else if |s| == 4 then DecodeLast(s)
    else if !AllBase64(s[..4]) then None
    else
      match Decode(s[4..])
      case None => None
      case Some(rest) => Some(DecodeFull(s[..4]) + rest)
  }

  /** Four characters for every three bytes, the last group padded. */
  lemma {:induction false} EncodeLength(bs: seq<byte>)
    ensures |Encode(bs)| == 4 * ((|bs| + 2) / 3)
    decreases |bs|
  {
    if |bs| >= 3 {
      EncodeLength(bs[3..]);
    }
  }

  /** Forty-nine bytes or more encode to at least sixty-eight characters. */
  lemma LongEncoding(bs: seq<byte>)
    requires |bs| >= 49
    ensures |Encode(bs)| >= 68
  {
    EncodeLength(bs);
    var n := |bs| + 2;
    assert n / 3 >= 17;
  }

  /** Only text in groups of four decodes, to three bytes per group less
      up to two for the padding. */
  lemma {:induction false} DecodeLength(s: string)
    requires Decode(s).Some?
    ensures |s| % 4 == 0
    ensures 3 * (|s| / 4) - 2 <= |Decode(s).value| <= 3 * (|s| / 4)
    decreases |s|
  {
    if |s| > 4 {
      DecodeLength(s[4..]);
    }
  }

  lemma TripleRoundTrip(a: byte, b: byte, c: byte)
    ensures DecodeFull(EncodeTriple(a, b, c)) == [a, b, c]
  {
    ValueOfChar(High6(a));
    ValueOfChar(Low2High4(a, b));
    ValueOfChar(Low4High2(b, c));
    ValueOfChar(Low6(c));
    BytesFromSextets(a, b, c);
  }

  lemma PairRoundTrip(a: byte, b: byte)
    ensures DecodeLast(EncodePair(a, b)) == Some([a, b])
  {
    var q := EncodePair(a, b);
    assert !AllBase64(q) by { assert !IsBase64Char(q[3]); }
    ValueOfChar(High6(a));
    ValueOfChar(Low2High4(a, b));
    ValueOfChar(Low4High2(b, 0));
    BytesFromSextets(a, b, 0);
  }

  lemma SingleRoundTrip(a: byte)
    ensures DecodeLast(EncodeSingle(a)) == Some([a])
  {
    var q := EncodeSingle(a);
    assert !AllBase64(q) by { assert !IsBase64Char(q[3]); }
    assert !AllBase64(q[..3]) by { assert !IsBase64Char(q[..3][2]); }
    assert AllBase64(q[..2]) && q[2] == '=' && q[3] == '=';
    assert DecodeLast(q) == Some([FirstByte(ValueOf(q[0]), ValueOf(q[1]))]);
    assert ValueOf(q[0]) == High6(a) by { ValueOfChar(High6(a)); }
    assert ValueOf(q[1]) == Low2High4(a, 0) by { ValueOfChar(Low2High4(a, 0)); }
    BytesFromSextets(a, 0, 0);
  }

  /** A full group in front adds its three bytes in front. */
  lemma DecodePrefix(q: string, t: string)
    requires |q| == 4 && AllBase64(q) && Decode(t).Some?
    ensures Decode(q + t) == Some(DecodeFull(q) + Decode(t).value)
  {
    if |t| == 0 {
      assert q + t == q;
      assert Decode(q) == DecodeLast(q);
      assert DecodeFull(q) + Decode(t).value == DecodeFull(q);
    } else {
      assert (q + t)[..4] == q;
      assert (q + t)[4..] == t;
    }
  }

  lemma DecodeEncodeShort(bs: seq<byte>)
    requires |bs| < 3
    ensures Decode(Encode(bs)) == Some(bs)
  {
    if |bs| == 1 {
      DecodeEncodeOne(bs[0]);
      assert bs == [bs[0]];
    } else if |bs| == 2 {
      DecodeEncodeTwo(bs[0], bs[1]);
      assert bs == [bs[0], bs[1]];
    }
  }

  lemma DecodeEncodeOne(a: byte)
    ensures Decode(Encode([a])) == Some([a])
  {
    var q := EncodeSingle(a);
    assert Encode([a]) == q;
    assert Decode(q) == DecodeLast(q);
    SingleRoundTrip(a);
  }

  lemma DecodeEncodeTwo(a: byte, b: byte)
    ensures Decode(Encode([a, b])) == Some([a, b])
  {
    var q := EncodePair(a, b);
    assert Encode([a, b]) == q;
    assert Decode(q) == DecodeLast(q);
    PairRoundTrip(a, b);
  }

  lemma FirstThree(bs: seq<byte>)
    requires |bs| >= 3
    ensures bs == [bs[0], bs[1], bs[2]] + bs[3..]
  {
  }

  lemma DecodeEncodeStep(bs: seq<byte>)
    requires |bs| >= 3 && Decode(Encode(bs[3..])) == Some(bs[3..])
    ensures Decode(Encode(bs)) == Some(bs)
  {
    var head := EncodeTriple(bs[0], bs[1], bs[2]);
    assert Encode(bs) == head + Encode(bs[3..]);
    DecodePrefix(head, Encode(bs[3..]));
    TripleRoundTrip(bs[0], bs[1], bs[2]);
    FirstThree(bs);
  }

  /** Decoding an encoding gives the bytes back. */
  lemma {:induction false} DecodeEncode(bs: seq<byte>)
    ensures Decode(Encode(bs)) == Some(bs)
    decreases |bs|
  {
    if |bs| < 3 {
      DecodeEncodeShort(bs);
    } else {
      DecodeEncode(bs[3..]);
      DecodeEncodeStep(bs);
    }
  }

  /** Text of alphabet characters only, in groups of four, decodes to
      three bytes per group. */
  lemma {:induction false} DecodeUnpadded(s: string)
    requires AllBase64(s) && |s| % 4 == 0
    ensures Decode(s).Some? && |Decode(s).value| == 3 * (|s| / 4)
    decreases |s|
  {
    if |s| > 4 {
      assert AllBase64(s[..4]);
      DecodeUnpadded(s[4..]);
    }
  }
}

=== FILE: bytes.dfy ===
/** Byte strings: lower-case hex rendering (Python's `bytes.hex()`, Node's
    `toString('hex')`), hex parsing (`bytes.fromhex`) and fixed-width
    big-endian integers (`toArrayLike(Buffer, 'be', n)`).
 */
module Bytes {
  import opened Wrappers
  import opened Text

  type byte = b: int | 0 <= b < 256

  function HexDigit(d: nat): char
    requires d < 16
  {
    if d < 10 then ('0' as int + d) as char else ('a' as int + d - 10) as char
  }

  function HexValue(c: char): (v: nat)
    requires IsHexChar(c)
    ensures v < 16
  {
    if '0' <= c <= '9' then c as int - '0' as int
    else if 'a' <= c <= 'f' then c as int - 'a' as int + 10
    else c as int - 'A' as int + 10
  }

  lemma HexDigitValue(d: nat)
    requires d < 16
    ensures IsHexChar(HexDigit(d)) && HexValue(HexDigit(d)) == d
  {
  }

  lemma HexValueDigit(c: char)
    requires IsHexChar(c)
    ensures HexDigit(HexValue(c)) == LowerChar(c)
  {
  }

  /** Two lower-case hex digits per byte, most significant nibble first. */
  function HexEncode(bs: seq<byte>): (r: string)
    ensures |r| == 2 * |bs|
    ensures AllHex(r)
    ensures forall i :: 0 <= i < |r| ==> r[i] == LowerChar(r[i])
    decreases |bs|
  {
    if |bs| == 0 then ""
    else
      HexDigitValue(bs[0] / 16);
      HexDigitValue(bs[0] % 16);
      [HexDigit(bs[0] / 16), HexDigit(bs[0] % 16)] + HexEncode(bs[1..])
  }

  /** `bytes.fromhex(s)` on text made only of hex digits: fails on an odd
      number of digits. */
  function HexDecode(s: string): (r: Option<seq<byte>>)
    requires AllHex(s)
    ensures r.Some? <==> |s| % 2 == 0
    ensures r.Some? ==> 2 * |r.value| == |s|
    decreases |s|
  {
    if |s| == 0 then Some([])
    else if |s| == 1 then None
    else
      var b := HexValue(s[0]) * 16 + HexValue(s[1]);
      match HexDecode(s[2..])
      case None => None
      case Some(rest) => Some([b as byte] + rest)
  }

  /** Parsing rendered bytes gives the bytes back. */
  lemma {:induction false} HexRoundTrip(bs: seq<byte>)
    ensures HexDecode(HexEncode(bs)) == Some(bs)
    decreases |bs|
  {
    if |bs| > 0 {
      var h := HexEncode(bs);
      HexDigitValue(bs[0] / 16);
      HexDigitValue(bs[0] % 16);
      assert h[2..] == HexEncode(bs[1..]);
      HexRoundTrip(bs[1..]);
      assert bs == [bs[0]] + bs[1..];
    }
  }

  /** Rendering parsed hex gives the text in lower case. */
  lemma {:induction false} HexLowerRoundTrip(s: string)
    requires AllHex(s) && |s| % 2 == 0
    ensures HexEncode(HexDecode(s).value) == Lower(s)
    decreases |s|
  {
    if |s| > 0 {
      var b := HexValue(s[0]) * 16 + HexValue(s[1]);
      assert b / 16 == HexValue(s[0]) && b % 16 == HexValue(s[1]);
      HexValueDigit(s[0]);
      HexValueDigit(s[1]);
      var rest := HexDecode(s[2..]).value;
      var bs := [b as byte] + rest;
      assert HexDecode(s) == Some(bs);
      assert bs[0] == b && bs[1..] == rest;
      assert HexEncode(bs) == [HexDigit(b / 16), HexDigit(b % 16)] + HexEncode(rest);
      HexLowerRoundTrip(s[2..]);
      assert Lower(s) == [LowerChar(s[0]), LowerChar(s[1])] + Lower(s[2..]);
    }
  }

  function Pow256(n: nat): (r: nat)
    ensures r >= 1
  {
    if n == 0 then 1 else 256 * Pow256(n - 1)
  }

  /** `value` as exactly `width` big-endian bytes; `None` when it does not
      fit (bn.js throws in that case). */
  function BigEndian(value: nat, width: nat): (r: Option<seq<byte>>)
    ensures r.Some? <==> value < Pow256(width)
    ensures r.Some? ==> |r.value| == width
    decreases width
  {
    if width == 0 then (if value == 0 then Some([]) else None)
    else
      match BigEndian(value / 256, width - 1)
      case None => None
      case Some(high) => Some(high + [(value % 256) as byte])
  }

  /** The number a big-endian byte string denotes. */
  function FromBigEndian(bs: seq<byte>): nat
    decreases |bs|
  {
    if |bs| == 0 then 0 else FromBigEndian(bs[..|bs| - 1]) * 256 + bs[|bs| - 1]
  }

  lemma {:induction false} BigEndianRoundTrip(value: nat, width: nat)
    requires value < Pow256(width)
    ensures FromBigEndian(BigEndian(value, width).value) == value
    decreases width
  {
    if width > 0 {
      BigEndianRoundTrip(value / 256, width - 1);
      var high := BigEndian(value / 256, width - 1).value;
      var bs := high + [(value % 256) as byte];
      assert bs[..|bs| - 1] == high;
    }
  }
}

=== FILE: cadence_args.dfy ===
/** How the Python signing adapter turns loosely typed call arguments into
    Cadence values (`_to_cadence_arg` and `_build_args`).

    A text argument is an address when it carries the `0x` prefix or is
    exactly sixteen hex digits; a decimal-looking text is a `UFix64` scaled
    by 10^8; a number is a `UFix64`; everything else is a Cadence `String`.
 */
module CadenceArgs {
  import opened Wrappers
  import opened Text
  import opened Bytes

  /** Fixed-point scale of Cadence's `UFix64`: eight decimal places. */
  const UFIX64_FACTOR: nat := 100_000_000

  /** The Cadence values the encoder produces. An address holds its hex
      digits in lower case, without the `0x` prefix. */
  datatype CadenceValue =
    | AddressValue(hex: string)
    | UFix64Value(raw: int)
    | UInt8Value(b: byte)
    | ArrayValue(items: seq<CadenceValue>)
    | StringValue(text: string)

  /** The caller's argument, by Python type. `PyOther` is any other object,
      carried by its `str()` text; `None` is rendered `"None"`. */
  datatype PyArg =
    | PyCadence(value: CadenceValue)
    | PyBytes(bytes: seq<byte>)
    | PyStr(s: string)
    | PyInt(n: int)
    | PyBool(b: bool)
    | PyNone
    | PyOther(text: string)

  /** The digits `Address.from_hex` parses: the text after one leading
      `0x`. */
  function HexDigits(s: string): string {
    if StartsWith(s, "0x") then s[2..] else s
  }

  /** Text `bytes.fromhex` accepts: hex digits in pairs. */
  predicate HexPairs(h: string) {
    AllHex(h) && |h| % 2 == 0
  }

  const FROMHEX_ERROR := "ValueError: non-hexadecimal number found in fromhex() arg"

  /** The SDK's `Address.from_hex`: the address is the bytes
      `bytes.fromhex` reads from the digits, which raises on anything but
      hex digits in pairs. An address is kept as the lower-case hex of its
      bytes, as `hex()` renders them. */
  function AddressFromHex(s: string): (r: Result<string, string>)
    ensures r.Ok? <==> HexPairs(HexDigits(s))
    ensures r.Err? ==> r.error == FROMHEX_ERROR
    ensures r.Ok? ==> r.value == Lower(HexDigits(s))
  {
    var h := HexDigits(s);
    if HexPairs(h) then
      var bs := HexDecode(h).value;
      HexLowerRoundTrip(h);
      HexRoundTrip(bs);
      Ok(HexEncode(bs))
    else Err(FROMHEX_ERROR)
  }

  /** Text the encoder reads as an account address. */
  predicate AddressShaped(s: string) {
    StartsWith(s, "0x") || (|s| == 16 && AllHex(s))
  }

  predicate AllDigits(s: string) {
    forall i :: 0 <= i < |s| ==> IsDigit(s[i])
  }

  /** Position of the first occurrence of `c`. */
  function IndexOf(s: string, c: char): (r: Option<nat>)
    ensures r.None? <==> c !in s
    ensures r.Some? ==> r.value < |s| && s[r.value] == c && c !in s[..r.value]
    decreases |s|
  {
    if |s| == 0 then None
    else if s[0] == c then Some(0)
    else
      match IndexOf(s[1..], c)
      case None => None
      case Some(k) =>
        assert s[..k + 1] == [s[0]] + s[1..][..k];
        Some(k + 1)
  }

  /** A decimal literal: sign, digits before the point, digits after. */
  datatype Decimal = Decimal(negative: bool, whole: string, frac: string)

  /** The text of a decimal literal. */
  function DecimalText(d: Decimal): string {
    (if d.negative then "-" else "") + d.whole + "." + d.frac
  }

  /** Unsigned digits around exactly one point, at least one digit in all. */
  function ParseUnsigned(body: string): (r: Option<(string, string)>)
    ensures r.Some? ==> AllDigits(r.value.0) && AllDigits(r.value.1)
    ensures r.Some? ==> |r.value.0| + |r.value.1| >= 1
    ensures r.Some? ==> body == r.value.0 + "." + r.value.1
  {
    match IndexOf(body, '.')
    case None => None
    case Some(k) =>
      if AllDigits(body[..k]) && AllDigits(body[k + 1..]) && |body| >= 2 then
        assert body == body[..k] + "." + body[k + 1..];
        Some((body[..k], body[k + 1..]))
      else None
  }

  /** What Python's `float()` accepts among texts made of digits, `.` and
      `-`: an optional leading minus, then digits around exactly one point,
      with at least one digit in all. */
  function ParseDecimal(s: string): (r: Option<Decimal>)
    ensures r.Some? ==> AllDigits(r.value.whole) && AllDigits(r.value.frac)
    ensures r.Some? ==> |r.value.whole| + |r.value.frac| >= 1
    ensures r.Some? ==> s == DecimalText(r.value)
  {
    var negative := StartsWith(s, "-");
    var body := if negative then s[1..] else s;
    match ParseUnsigned(body)
    case None => None
    case Some(parts) =>
      assert negative ==> s == "-" + body;
      Some(Decimal(negative, parts.0, parts.1))
  }

  /** The first eight fractional digits, right-padded with zeros. */
  function Frac8(frac: string): (r: string)
    requires AllDigits(frac)
    ensures |r| == 8 && AllDigits(r)
  {
    if |frac| >= 8 then frac[..8] else frac + Zeros(8 - |frac|)
  }

  /** The literal times 10^8, truncated toward zero, computed on the exact
      decimal value rather than through a binary float. */
  function Scaled(d: Decimal): int
    requires AllDigits(d.whole) && AllDigits(d.frac)
  {
    var magnitude := DigitsValue(d.whole) * UFIX64_FACTOR + DigitsValue(Frac8(d.frac));
    if d.negative then -magnitude else magnitude
  }

  /** The text branch of `_to_cadence_arg`; an address that
      `Address.from_hex` rejects raises. */
  function EncodeText(s: string): (r: Result<CadenceValue, string>)
    ensures r.Err? <==> AddressShaped(s) && !HexPairs(HexDigits(s))
    ensures r.Ok? ==> (r.value.AddressValue? <==> AddressShaped(s))
    ensures r.Ok? && r.value.AddressValue? ==>
              r.value.hex == AddressFromHex(if StartsWith(s, "0x") then s else "0x" + s).value
    ensures r.Ok? && r.value.StringValue? ==> r.value.text == s
    ensures r.Ok? ==> !r.value.ArrayValue? && !r.value.UInt8Value?
  {
    if AddressShaped(s) then
      assert ("0x" + s)[..2] == "0x" && ("0x" + s)[2..] == s;
      match AddressFromHex(if StartsWith(s, "0x") then s else "0x" + s)
      case Ok(hex) => Ok(AddressValue(hex))
      case Err(e) => Err(e)
    else if '.' in s && IsDigitString(RemoveAll(RemoveAll(s, "."), "-")) then
      match ParseDecimal(s)
      case Some(d) => Ok(UFix64Value(Scaled(d)))
      case None => Ok(StringValue(s))
    else Ok(StringValue(s))
  }

  /** `_to_cadence_arg`. */
  function EncodeArg(a: PyArg): (r: Result<CadenceValue, string>)
    ensures r.Err? ==> a.PyStr?
    ensures a.PyStr? ==> r == EncodeText(a.s)
    ensures a.PyCadence? ==> r == Ok(a.value)
    ensures a.PyBytes? ==> (r.Ok? && r.value.ArrayValue? && |r.value.items| == |a.bytes|
      && forall i :: 0 <= i < |a.bytes| ==> r.value.items[i] == UInt8Value(a.bytes[i]))
    ensures a.PyInt? ==> r == Ok(UFix64Value(a.n * UFIX64_FACTOR))
    ensures a.PyBool? ==> r == Ok(UFix64Value(if a.b then UFIX64_FACTOR else 0))
    ensures a.PyNone? ==> r == Ok(StringValue("None"))
    ensures a.PyOther? ==> r == Ok(StringValue(a.text))
  {
    match a
    case PyCadence(v) => Ok(v)
    case PyBytes(bs) => Ok(ArrayValue(seq(|bs|, i requires 0 <= i < |bs| => UInt8Value(bs[i]))))
    case PyStr(s) => EncodeText(s)
    case PyInt(n) => Ok(UFix64Value(n * UFIX64_FACTOR))
    case PyBool(b) => Ok(UFix64Value(if b then UFIX64_FACTOR else 0))
    case PyNone => Ok(StringValue("None"))
    case PyOther(text) => Ok(StringValue(text))
  }

  /** Converts each argument in order; the first one that raises ends the
      list comprehension. */
  function EncodeAll(xs: seq<PyArg>): (r: Result<seq<CadenceValue>, string>)
    ensures r.Ok? <==> forall i :: 0 <= i < |xs| ==> EncodeArg(xs[i]).Ok?
    ensures r.Ok? ==> |r.value| == |xs| && forall i :: 0 <= i < |xs| ==> r.value[i] == EncodeArg(xs[i]).value
    ensures r.Err? ==> exists i :: 0 <= i < |xs| && EncodeArg(xs[i]) == Err(r.error)
                                   && forall j :: 0 <= j < i ==> EncodeArg(xs[j]).Ok?
    decreases |xs|
  {
    if |xs| == 0 then Ok([])
    else
      match EncodeArg(xs[0])
      case Err(e) => Err(e)
      case Ok(v) =>
        match EncodeAll(xs[1..])
        case Err(e) =>
          var i :| 0 <= i < |xs[1..]| && EncodeArg(xs[1..][i]) == Err(e)
                   && forall j :: 0 <= j < i ==> EncodeArg(xs[1..][j]).Ok?;
          assert EncodeArg(xs[i + 1]) == Err(e);
          assert forall j :: 0 <= j < i + 1 ==> EncodeArg(xs[j]).Ok? by {
            forall j | 0 <= j < i + 1 ensures EncodeArg(xs[j]).Ok? {
              if j > 0 { assert xs[j] == xs[1..][j - 1]; }
            }
          }
          Err(e)
        case Ok(vs) =>
          assert forall i :: 1 <= i < |xs| ==> xs[i] == xs[1..][i - 1];
          Ok([v] + vs)
  }

  /** `_build_args`: `None` counts as no arguments. */
  function BuildArgs(args: Option<seq<PyArg>>): (r: Result<seq<CadenceValue>, string>)
    ensures args.None? ==> r == Ok([])
    ensures args.Some? ==> r == EncodeAll(args.value)
  {
    match args
    case None => Ok([])
    case Some(xs) => EncodeAll(xs)
  }

  /** An argument list raises exactly when one of its texts starts with
      `0x` but is not hex digits in pairs. */
  lemma BuildArgsRaises(xs: seq<PyArg>)
    ensures BuildArgs(Some(xs)).Err? <==>
              exists i :: 0 <= i < |xs| && xs[i].PyStr? && StartsWith(xs[i].s, "0x")
                                       && !HexPairs(xs[i].s[2..])
  {
    if BuildArgs(Some(xs)).Err? {
      var i :| 0 <= i < |xs| && EncodeArg(xs[i]).Err?;
      assert StartsWith(xs[i].s, "0x");
    }
    if exists i :: 0 <= i < |xs| && xs[i].PyStr? && StartsWith(xs[i].s, "0x") && !HexPairs(xs[i].s[2..]) {
      var i :| 0 <= i < |xs| && xs[i].PyStr? && StartsWith(xs[i].s, "0x") && !HexPairs(xs[i].s[2..]);
      assert EncodeArg(xs[i]).Err?;
    }
  }

  /** Deleting one character keeps exactly the other characters. */
  lemma {:induction false} RemoveCharMembers(s: string, c: char, x: char)
    ensures x in RemoveAll(s, [c]) <==> x in s && x != c
    decreases |s|
  {
    if |s| > 0 {
      RemoveCharMembers(s[1..], c, x);
      assert s == [s[0]] + s[1..];
      if StartsWith(s, [c]) {
        assert s[0] == c;
      } else {
        assert s[..1] == [s[0]];
      }
    }
  }

  /** Characters that survive deleting points and minus signs. */
  predicate NumericChar(x: char) {
    IsDigit(x) || x == '.' || x == '-'
  }

  /** Text made of digits, points and minus signs, with at least one digit,
      is all digits once the points and minus signs are deleted. */
  lemma PretestOfNumericText(s: string, digit: char)
    requires forall i :: 0 <= i < |s| ==> NumericChar(s[i])
    requires digit in s && IsDigit(digit)
    ensures IsDigitString(RemoveAll(RemoveAll(s, "."), "-"))
  {
    var a := RemoveAll(s, ".");
    var r := RemoveAll(a, "-");
    forall i | 0 <= i < |r|
      ensures IsDigit(r[i])
    {
      var x := r[i];
      RemoveCharMembers(a, '-', x);
      RemoveCharMembers(s, '.', x);
    }
    RemoveCharMembers(s, '.', digit);
    RemoveCharMembers(a, '-', digit);
  }

  /** Every decimal literal passes the source's cheaper pre-test: it holds
      a point, and is all digits once points and minus signs go. */
  lemma DecimalTextPassesPretest(d: Decimal)
    requires AllDigits(d.whole) && AllDigits(d.frac) && |d.whole| + |d.frac| >= 1
    ensures '.' in DecimalText(d) && IsDigitString(RemoveAll(RemoveAll(DecimalText(d), "."), "-"))
  {
    var sign: string := if d.negative then "-" else "";
    var s := sign + d.whole + "." + d.frac;
    var n := |sign| + |d.whole|;
    assert s[n] == '.';
    forall i | 0 <= i < |s|
      ensures NumericChar(s[i])
    {
      if |sign| <= i < n {
        assert s[i] == d.whole[i - |sign|];
      } else if i > n {
        assert s[i] == d.frac[i - n - 1];
      }
    }
    if |d.whole| > 0 {
      assert s[|sign|] == d.whole[0];
      PretestOfNumericText(s, d.whole[0]);
    } else {
      assert s[n + 1] == d.frac[0];
      PretestOfNumericText(s, d.frac[0]);
    }
  }

  /** The text branch in terms of the literal grammar alone: a text that is
      not an address becomes a `UFix64` exactly when it is a decimal
      literal, and then carries the literal's value scaled by 10^8. */
  lemma EncodeTextDecimal(s: string)
    ensures EncodeText(s).Ok? && EncodeText(s).value.UFix64Value? <==>
              !AddressShaped(s) && ParseDecimal(s).Some?
    ensures ParseDecimal(s).Some? && !AddressShaped(s) ==>
              EncodeText(s) == Ok(UFix64Value(Scaled(ParseDecimal(s).value)))
  {
    if ParseDecimal(s).Some? {
      DecimalTextPassesPretest(ParseDecimal(s).value);
    }
  }

  /** Sixteen hex digits name the same account with or without `0x`. */
  lemma AddressPrefixIrrelevant(s: string)
    requires |s| == 16 && AllHex(s)
    ensures EncodeText(s) == EncodeText("0x" + s) == Ok(AddressValue(Lower(s)))
  {
    var p := "0x" + s;
    assert p[..2] == "0x" && p[2..] == s;
    assert IsHexChar(s[1]);
    assert !StartsWith(s, "0x") && StartsWith(p, "0x");
    assert AddressShaped(s) && AddressShaped(p);
    assert HexDigits(p) == s && HexPairs(s);
    assert AddressFromHex(p) == Ok(Lower(s));
  }

  /** Eight zero-padded digits of a fraction below 10^8. */
  function Pad8(n: nat): (r: string)
    requires n < UFIX64_FACTOR
    ensures |r| == 8 && AllDigits(r) && DigitsValue(r) == n
  {
    var t := NatToString(n);
    assert UFIX64_FACTOR == Pow10(8);
    NatToStringLength(n, 8);
    DigitsValueConcat(Zeros(8 - |t|), t);
    DigitsValueZeros(8 - |t|);
    NatToStringRoundTrip(n);
    Zeros(8 - |t|) + t
  }

  /** The canonical decimal text of a `UFix64`: whole part, point, eight
      fractional digits. */
  function FormatUFix64(raw: nat): string {
    NatToString(raw / UFIX64_FACTOR) + "." + Pad8(raw % UFIX64_FACTOR)
  }

  /** In digits followed by a point, the first point is that one. */
  lemma {:induction false} IndexOfPointAfterDigits(w: string, rest: string)
    requires AllDigits(w)
    ensures IndexOf(w + "." + rest, '.') == Some(|w|)
    decreases |w|
  {
    if |w| > 0 {
      assert (w + "." + rest)[1..] == w[1..] + "." + rest;
      assert IsDigit(w[0]);
      IndexOfPointAfterDigits(w[1..], rest);
    }
  }

  /** Parsing digits around a point gives the two runs back. */
  lemma ParseUnsignedText(w: string, f: string)
    requires AllDigits(w) && AllDigits(f) && |w| + |f| >= 1
    ensures ParseUnsigned(w + "." + f) == Some((w, f))
  {
    var body := w + "." + f;
    IndexOfPointAfterDigits(w, f);
    assert body[..|w|] == w && body[|w| + 1..] == f;
  }

  /** Parsing the text of a literal gives the literal back. */
  lemma ParseDecimalText(d: Decimal)
    requires AllDigits(d.whole) && AllDigits(d.frac) && |d.whole| + |d.frac| >= 1
    ensures ParseDecimal(DecimalText(d)) == Some(d)
  {
    var body := d.whole + "." + d.frac;
    var s := DecimalText(d);
    ParseUnsignedText(d.whole, d.frac);
    if d.negative {
      assert s == "-" + body;
      assert StartsWith(s, "-") && s[1..] == body;
    } else {
      assert s == body;
      assert s[0] != '-' by {
        if |d.whole| > 0 {
          assert s[0] == d.whole[0] && IsDigit(d.whole[0]);
        } else {
          assert s[0] == '.';
        }
      }
      assert !StartsWith(s, "-") by {
        assert s[..1][0] == s[0];
      }
    }
  }

  /** A text with a point whose second character is not `x` is no address. */
  lemma PointNotAddress(s: string, i: nat)
    requires i < |s| && s[i] == '.' && (|s| < 2 || s[1] != 'x')
    ensures !AddressShaped(s)
  {
    assert !IsHexChar(s[i]);
    if |s| >= 2 {
      assert s[..2][1] != 'x';
    }
  }

  /** The rendering of an amount never reads as an address. */
  lemma FormatNotAddress(raw: nat)
    ensures !AddressShaped(FormatUFix64(raw))
  {
    var w := NatToString(raw / UFIX64_FACTOR);
    var s := FormatUFix64(raw);
    assert s[|w|] == '.' && !IsHexChar(s[|w|]);
    if |w| == 1 {
      assert s[1] == '.';
    } else {
      assert s[0] == w[0] != '0';
    }
  }

  /** The literal an amount is rendered as. */
  function AmountDecimal(raw: nat): (d: Decimal)
    ensures AllDigits(d.whole) && AllDigits(d.frac) && |d.frac| == 8
  {
    Decimal(false, NatToString(raw / UFIX64_FACTOR), Pad8(raw % UFIX64_FACTOR))
  }

  lemma FormatParses(raw: nat)
    ensures ParseDecimal(FormatUFix64(raw)) == Some(AmountDecimal(raw))
  {
    assert FormatUFix64(raw) == DecimalText(AmountDecimal(raw));
    ParseDecimalText(AmountDecimal(raw));
  }

  lemma AmountScaled(raw: nat)
    ensures Scaled(AmountDecimal(raw)) == raw
  {
    var d := AmountDecimal(raw);
    NatToStringRoundTrip(raw / UFIX64_FACTOR);
    assert Frac8(d.frac) == d.frac;
  }

  /** Passing the decimal text of an amount gives back that amount. */
  lemma FormatUFix64RoundTrip(raw: nat)
    ensures EncodeArg(PyStr(FormatUFix64(raw))) == Ok(UFix64Value(raw))
  {
    var s := FormatUFix64(raw);
    FormatParses(raw);
    AmountScaled(raw);
    FormatNotAddress(raw);
    EncodeTextDecimal(s);
  }

  lemma ScaledExample()
    ensures Scaled(Decimal(false, "12", "5")) == 1_250_000_000
  {
    assert DigitsValue("12") == 12 by {
      assert "12"[..1] == "1";
    }
    assert Frac8("5") == "5" + Zeros(7);
    DigitsValueConcat("5", Zeros(7));
    DigitsValueZeros(7);
  }

  /** `"12.5"` is twelve and a half. */
  lemma DecimalExample()
    ensures EncodeArg(PyStr("12.5")) == Ok(UFix64Value(1_250_000_000))
  {
    var d := Decimal(false, "12", "5");
    assert DecimalText(d) == "12.5";
    ParseDecimalText(d);
    PointNotAddress("12.5", 2);
    EncodeTextDecimal("12.5");
    ScaledExample();
  }

  /** `"1.2.3"` is not a literal: its text after the first point is not
      all digits. */
  lemma NotADecimal()
    ensures ParseDecimal("1.2.3").None?
  {
    var s := "1.2.3";
    assert s == "1" + "." + "2.3";
    IndexOfPointAfterDigits("1", "2.3");
    assert s[2..] == "2.3";
    assert "2.3"[1] == '.';
  }

  /** `"1.2.3"` loses its points to `"123"`. */
  lemma PretestOfTwoPoints()
    ensures IsDigitString(RemoveAll(RemoveAll("1.2.3", "."), "-"))
  {
    var s := "1.2.3";
    forall i | 0 <= i < |s|
      ensures NumericChar(s[i])
    {
    }
    assert s[0] == '1';
    PretestOfNumericText(s, '1');
  }

  /** A text that passes the pre-test but is not a number, such as
      `"1.2.3"`, stays a `String`. */
  lemma MalformedDecimalExample()
    ensures IsDigitString(RemoveAll(RemoveAll("1.2.3", "."), "-"))
    ensures EncodeArg(PyStr("1.2.3")) == Ok(StringValue("1.2.3"))
  {
    PretestOfTwoPoints();
    NotADecimal();
    PointNotAddress("1.2.3", 1);
  }
}

=== FILE: envelope.dfy ===
/** Which parties sign a transaction's envelope in the Python adapter
    (`_execute_transaction`, the `seen` loop).

    Each authorizer signs once per distinct (address, key index) pair,
    unless that pair is the payer's; the payer signs last. When the same
    pair is listed twice, the first listing's signer is used.
 */
module Envelope {
  import opened Accounts

  /** The signing material `_create_signer` builds. */
  datatype Signer = Signer(privateKey: string, algo: SignAlgo, hash: HashAlgo)

  /** A resolved role: lower-case hex address (no `0x`), key index and
      signer. */
  datatype Party = Party(address: string, keyId: int, signer: Signer)

  /** The pair a signature is recorded under in `seen`. */
  function Pair(p: Party): (string, int) {
    (p.address, p.keyId)
  }

  function PairsOf(ps: seq<Party>): set<(string, int)> {
    set p | p in ps :: Pair(p)
  }

  /** No pair occurs at two positions. */
  predicate DistinctPairs(ps: seq<Party>) {
    forall i, j :: 0 <= i < j < |ps| ==> Pair(ps[i]) != Pair(ps[j])
  }

  /** Position `i` is the first listing of its pair. */
  predicate FirstListing(ps: seq<Party>, i: int)
    requires 0 <= i < |ps|
  {
    forall k :: 0 <= k < i ==> Pair(ps[k]) != Pair(ps[i])
  }

  /** The authorizer signatures, one pass over the list as the source
      makes it: a party signs when its pair is neither already seen nor the
      payer's. */
  function AuthorizerSignatures(auths: seq<Party>, payer: Party): (r: seq<Party>)
    decreases |auths|
  {
    if |auths| == 0 then []
    else
      Extend(AuthorizerSignatures(auths[..|auths| - 1], payer), auths[|auths| - 1], payer)
  }

  /** One step of the loop: `a` signs when its pair is neither already
      seen nor the payer's. */
  function Extend(prev: seq<Party>, a: Party, payer: Party): seq<Party> {
    if Pair(a) !in PairsOf(prev) && Pair(a) != Pair(payer) then prev + [a] else prev
  }

  /** All envelope signatures: the authorizers', then the payer's unless
      its pair was already seen. */
  function EnvelopeSignatures(auths: seq<Party>, payer: Party): seq<Party> {
    var plan := AuthorizerSignatures(auths, payer);
    if Pair(payer) in PairsOf(plan) then plan else plan + [payer]
  }

  /** Every signer is one of the listed parties. */
  ghost predicate MadeOf(r: seq<Party>, auths: seq<Party>) {
    forall j :: 0 <= j < |r| ==> r[j] in auths
  }

  /** The first listing of every pair other than the payer's signs. */
  ghost predicate FirstListingsSign(auths: seq<Party>, payer: Party, r: seq<Party>) {
    forall i :: 0 <= i < |auths| && FirstListing(auths, i) && Pair(auths[i]) != Pair(payer) ==> auths[i] in r
  }

  lemma PairsOfAppend(prev: seq<Party>, a: Party)
    ensures PairsOf(prev + [a]) == PairsOf(prev) + {Pair(a)}
  {
    assert forall p :: p in prev + [a] <==> p in prev || p == a;
  }

  lemma ExtendMadeOf(prev: seq<Party>, init: seq<Party>, a: Party, payer: Party)
    requires MadeOf(prev, init)
    ensures MadeOf(Extend(prev, a, payer), init + [a])
  {
    var r := Extend(prev, a, payer);
    forall j | 0 <= j < |r|
      ensures r[j] in init + [a]
    {
      if j < |prev| {
        assert r[j] == prev[j];
      }
    }
  }

  lemma ExtendDistinct(prev: seq<Party>, a: Party, payer: Party)
    requires DistinctPairs(prev) && Pair(payer) !in PairsOf(prev)
    ensures var r := Extend(prev, a, payer);
            DistinctPairs(r) && Pair(payer) !in PairsOf(r)
  {
    if Pair(a) !in PairsOf(prev) && Pair(a) != Pair(payer) {
      var r := prev + [a];
      forall i, j | 0 <= i < j < |r|
        ensures Pair(r[i]) != Pair(r[j])
      {
        if j == |prev| {
          assert r[i] == prev[i] && Pair(prev[i]) in PairsOf(prev);
        }
      }
      PairsOfAppend(prev, a);
    }
  }

  lemma FirstListingPrefix(init: seq<Party>, a: Party, i: int)
    requires 0 <= i < |init| && FirstListing(init + [a], i)
    ensures FirstListing(init, i)
  {
    forall k | 0 <= k < i
      ensures Pair(init[k]) != Pair(init[i])
    {
      assert (init + [a])[k] == init[k] && (init + [a])[i] == init[i];
    }
  }

  lemma NewFirstListingSigns(prev: seq<Party>, init: seq<Party>, a: Party, payer: Party)
    requires MadeOf(prev, init) && FirstListing(init + [a], |init|) && Pair(a) != Pair(payer)
    ensures a in Extend(prev, a, payer)
  {
    var auths := init + [a];
    forall p | p in prev
      ensures Pair(p) != Pair(a)
    {
      var j :| 0 <= j < |prev| && prev[j] == p;
      var k :| 0 <= k < |init| && init[k] == p;
      assert auths[k] == p && auths[|init|] == a;
    }
    assert Pair(a) !in PairsOf(prev);
    assert Extend(prev, a, payer) == prev + [a];
  }

  lemma ExtendFirstListings(prev: seq<Party>, init: seq<Party>, a: Party, payer: Party)
    requires MadeOf(prev, init) && FirstListingsSign(init, payer, prev)
    ensures FirstListingsSign(init + [a], payer, Extend(prev, a, payer))
  {
    var auths := init + [a];
    var r := Extend(prev, a, payer);
    forall i | 0 <= i < |auths| && FirstListing(auths, i) && Pair(auths[i]) != Pair(payer)
      ensures auths[i] in r
    {
      if i < |init| {
        FirstListingPrefix(init, a, i);
        assert auths[i] == init[i] && init[i] in prev;
      } else {
        NewFirstListingSigns(prev, init, a, payer);
      }
    }
  }

  /** The authorizer signatures are made of authorizers, never repeat a
      pair, never use the payer's pair, and include the first listing of
      every other pair. */
  lemma {:induction false} AuthorizerSignaturesShape(auths: seq<Party>, payer: Party)
    ensures var r := AuthorizerSignatures(auths, payer);
            MadeOf(r, auths)
            && DistinctPairs(r)
            && Pair(payer) !in PairsOf(r)
            && FirstListingsSign(auths, payer, r)
    decreases |auths|
  {
    if |auths| > 0 {
      var init := auths[..|auths| - 1];
      var prev := AuthorizerSignatures(init, payer);
      var a := auths[|auths| - 1];
      assert auths == init + [a];
      AuthorizerSignaturesShape(init, payer);
      ExtendMadeOf(prev, init, a, payer);
      ExtendDistinct(prev, a, payer);
      ExtendFirstListings(prev, init, a, payer);
    }
  }

  /** The payer always signs, exactly once and last; no pair signs twice;
      the pairs signed are the authorizers' and the payer's; an authorizer
      pair other than the payer's is signed by its first listing. */
  lemma EnvelopeSignaturesShape(auths: seq<Party>, payer: Party)
    ensures var r := EnvelopeSignatures(auths, payer);
            |r| >= 1 && r[|r| - 1] == payer
            && DistinctPairs(r)
            && (forall j :: 0 <= j < |r| - 1 ==> r[j] in auths)
            && PairsOf(r) == PairsOf(auths) + {Pair(payer)}
            && (forall i :: 0 <= i < |auths| && FirstListing(auths, i) && Pair(auths[i]) != Pair(payer)
                  ==> auths[i] in r)
  {
    AuthorizerSignaturesShape(auths, payer);
    var plan := AuthorizerSignatures(auths, payer);
    var r := EnvelopeSignatures(auths, payer);
    assert r == plan + [payer];
    forall i, j | 0 <= i < j < |r|
      ensures Pair(r[i]) != Pair(r[j])
    {
      if j == |plan| {
        assert r[i] == plan[i] && Pair(plan[i]) in PairsOf(plan);
      }
    }
    assert PairsOf(r) == PairsOf(plan) + {Pair(payer)};
    forall q | q in PairsOf(auths)
      ensures q in PairsOf(r)
    {
      var p :| p in auths && Pair(p) == q;
      var i := FirstIndexOfPair(auths, q);
      if q != Pair(payer) {
        assert auths[i] in plan;
      }
    }
    forall q | q in PairsOf(plan)
      ensures q in PairsOf(auths)
    {
      var p :| p in plan && Pair(p) == q;
    }
  }

  /** The first position holding a pair that occurs. */
  lemma FirstIndexOfPair(ps: seq<Party>, q: (string, int)) returns (i: nat)
    requires q in PairsOf(ps)
    ensures i < |ps| && Pair(ps[i]) == q && FirstListing(ps, i)
  {
    var p :| p in ps && Pair(p) == q;
    var k :| 0 <= k < |ps| && ps[k] == p;
    i := k;
    while exists m :: 0 <= m < i && Pair(ps[m]) == q
      invariant i < |ps| && Pair(ps[i]) == q
      decreases i
    {
      var m :| 0 <= m < i && Pair(ps[m]) == q;
      i := m;
    }
  }

  /** The loop of `_execute_transaction` that attaches envelope
      signatures, with its `seen` set. */
  method SignEnvelope(auths: seq<Party>, payer: Party) returns (sigs: seq<Party>)
    ensures sigs == EnvelopeSignatures(auths, payer)
    ensures |sigs| >= 1 && sigs[|sigs| - 1] == payer
    ensures DistinctPairs(sigs)
  {
    sigs := [];
    var seen: set<(string, int)> := {};
    for i := 0 to |auths|
      invariant sigs == AuthorizerSignatures(auths[..i], payer)
      invariant seen == PairsOf(sigs)
    {
      var a := auths[i];
      assert auths[..i + 1][..i] == auths[..i];
      if Pair(a) !in seen && (a.address != payer.address || a.keyId != payer.keyId) {
        seen := seen + {Pair(a)};
        sigs := sigs + [a];
        assert PairsOf(sigs) == PairsOf(sigs[..|sigs| - 1]) + {Pair(a)};
      }
    }
    assert auths[..|auths|] == auths;
    if Pair(payer) !in seen {
      sigs := sigs + [payer];
    }
    EnvelopeSignaturesShape(auths, payer);
  }
}

=== FILE: fcl_wrapper.dfy ===
/** The TypeScript FCL wrapper (`src/typescript/flowWrapper.ts`): result
    defaults, access node, argument typing, authorization functions and
    their signature encoding, role normalisation and the transaction's
    authorization assembly.
 */
module FclWrapper {
  import opened Wrappers
  import opened Text
  import opened Bytes
  import opened JsValues
  import Accounts
  import CadenceArgs

  // ---------------------------------------------------------------------
  // FlowResult
  // ---------------------------------------------------------------------

  /** Constructor options; a missing member is `JsUndefined`. */
  datatype ResultOptions = ResultOptions(success: JsValue, data: JsValue,
                                         errorMessage: JsValue, transactionId: JsValue)

  datatype FlowResult = FlowResult(success: JsValue, data: JsValue,
                                   errorMessage: JsValue, transactionId: JsValue)

  /** `new FlowResult(options)`: every member falls back on `||`. */
  function NewFlowResult(o: ResultOptions): (r: FlowResult)
    ensures !JsTruthy(o.success) ==> r.success == JsBool(false)
    ensures !JsTruthy(o.data) ==> r.data == JsNull
    ensures !JsTruthy(o.errorMessage) ==> r.errorMessage == JsString("")
    ensures !JsTruthy(o.transactionId) ==> r.transactionId == JsNull
    ensures JsTruthy(o.success) ==> r.success == o.success
    ensures JsTruthy(o.data) ==> r.data == o.data
    ensures JsTruthy(o.errorMessage) ==> r.errorMessage == o.errorMessage
    ensures JsTruthy(o.transactionId) ==> r.transactionId == o.transactionId
  {
    FlowResult(if JsTruthy(o.success) then o.success else JsBool(false),
               if JsTruthy(o.data) then o.data else JsNull,
               if JsTruthy(o.errorMessage) then o.errorMessage else JsString(""),
               if JsTruthy(o.transactionId) then o.transactionId else JsNull)
  }

  /** `toDict()`: exactly the four members. */
  function ToDict(r: FlowResult): (d: map<string, JsValue>)
    ensures d.Keys == {"success", "data", "errorMessage", "transactionId"}
  {
    map["success" := r.success, "data" := r.data,
        "errorMessage" := r.errorMessage, "transactionId" := r.transactionId]
  }

  function OptionsOf(d: map<string, JsValue>): ResultOptions {
    ResultOptions(if "success" in d then d["success"] else JsUndefined,
                  if "data" in d then d["data"] else JsUndefined,
                  if "errorMessage" in d then d["errorMessage"] else JsUndefined,
                  if "transactionId" in d then d["transactionId"] else JsUndefined)
  }

  /** A result with no options. */
  lemma DefaultResult()
    ensures NewFlowResult(ResultOptions(JsUndefined, JsUndefined, JsUndefined, JsUndefined))
            == FlowResult(JsBool(false), JsNull, JsString(""), JsNull)
  {
  }

  /** Rebuilding a result from its dictionary changes nothing: the
      defaults are already applied. */
  lemma RebuildFromDict(o: ResultOptions)
    ensures NewFlowResult(OptionsOf(ToDict(NewFlowResult(o)))) == NewFlowResult(o)
  {
  }

  // ---------------------------------------------------------------------
  // Access node
  // ---------------------------------------------------------------------

  const MAINNET := "mainnet"
  const TESTNET := "testnet"
  const EMULATOR := "emulator"

  /** `getAccessNode`: the REST endpoint per network. */
  function AccessNode(network: string): (url: string)
    ensures network == MAINNET ==> url == "https://rest-mainnet.onflow.org"
    ensures network == TESTNET ==> url == "https://rest-testnet.onflow.org"
    ensures network != MAINNET && network != TESTNET ==> url == "http://127.0.0.1:8888"
  {
    if network == MAINNET then "https://rest-mainnet.onflow.org"
    else if network == TESTNET then "https://rest-testnet.onflow.org"
    else "http://127.0.0.1:8888"
  }

  // ---------------------------------------------------------------------
  // Arguments
  // ---------------------------------------------------------------------

  datatype FclType = TAddress | TUFix64 | TString

  /** `fcl.arg(value, type)`. */
  datatype FclArg = FclArg(value: string, ty: FclType)

  /** The argument mapping of `executeScript` and `sendTransaction`. */
  function FclArgOf(v: JsValue): (a: FclArg)
    ensures a.ty == TAddress <==> v.JsString? && StartsWith(v.s, "0x")
    ensures a.ty == TUFix64 <==> (v.JsString? && !StartsWith(v.s, "0x") && '.' in v.s) || v.JsNumber?
    ensures a.value == ToStr(v)
  {
    match v
    case JsString(s) =>
      if StartsWith(s, "0x") then FclArg(s, TAddress)
      else if '.' in s then FclArg(s, TUFix64)
      else FclArg(s, TString)
    case JsNumber(n) => FclArg(IntToString(n), TUFix64)
    case _ => FclArg(ToStr(v), TString)
  }

  function FclArgs(args: seq<JsValue>): (r: seq<FclArg>)
    ensures |r| == |args| && forall i :: 0 <= i < |args| ==> r[i] == FclArgOf(args[i])
  {
    seq(|args|, i requires 0 <= i < |args| => FclArgOf(args[i]))
  }

  /** The TypeScript classifier is looser than the Python one: a dotted
      text that is not a number is a `UFix64` here and a `String` there. */
  lemma DottedTextDisagreement()
    ensures FclArgOf(JsString("1.2.3")).ty == TUFix64
    ensures CadenceArgs.EncodeArg(CadenceArgs.PyStr("1.2.3")) == Ok(CadenceArgs.StringValue("1.2.3"))
  {
    CadenceArgs.MalformedDecimalExample();
    assert "1.2.3"[1] == '.';
  }

  /** Sixteen bare hex digits are a `String` here and an address in the
      Python layer. */
  lemma BareHexDisagreement(h: string)
    requires |h| == 16 && AllHex(h)
    ensures FclArgOf(JsString(h)).ty == TString
    ensures CadenceArgs.EncodeArg(CadenceArgs.PyStr(h)) == Ok(CadenceArgs.AddressValue(Lower(h)))
  {
    CadenceArgs.AddressPrefixIrrelevant(h);
    assert '.' !in h by {
      forall i | 0 <= i < |h|
        ensures h[i] != '.'
      {
        assert IsHexChar(h[i]);
      }
    }
    assert !StartsWith(h, "0x") by {
      assert IsHexChar(h[1]);
    }
  }

  /** Both layers read a `0x` text as an address; the Python layer raises
      where the digits after `0x` are not hex in pairs. */
  lemma ClassifiersAgreeOnPrefixed(s: string)
    requires StartsWith(s, "0x")
    ensures FclArgOf(JsString(s)).ty == TAddress
    ensures CadenceArgs.EncodeArg(CadenceArgs.PyStr(s)).Ok? ==>
              CadenceArgs.EncodeArg(CadenceArgs.PyStr(s)).value.AddressValue?
    ensures CadenceArgs.EncodeArg(CadenceArgs.PyStr(s)).Err? <==> !CadenceArgs.HexPairs(s[2..])
  {
  }

  // ---------------------------------------------------------------------
  // Authorization functions
  // ---------------------------------------------------------------------

  /** What `authzFactory` closes over and returns: the account's
      `tempId`, `addr` without prefix, key index, and the curve, digest and
      key its signing function uses. */
  datatype Authz = Authz(tempId: string, addr: string, keyId: int,
                         curve: Accounts.SignAlgo, hash: Accounts.HashAlgo, privateKey: string)

  /** `fcl.sansPrefix`. */
  function SansPrefix(a: string): string {
    if StartsWith(a, "0x") then a[2..] else a
  }

  function AuthzFactory(address: string, keyId: int, privateKey: string,
                        signatureAlgorithm: string, hashAlgorithm: string): (z: Authz)
    ensures z.tempId == Accounts.WithPrefix(address) + "-" + IntToString(keyId)
    ensures "0x" + z.addr == Accounts.WithPrefix(address)
    ensures z.keyId == keyId && z.privateKey == privateKey
    ensures (z.curve, z.hash) == Accounts.JsSigner(signatureAlgorithm, hashAlgorithm)
  {
    var withPrefix := if StartsWith(address, "0x") then address else "0x" + address;
    assert StartsWith(withPrefix, "0x");
    assert "0x" + withPrefix[2..] == withPrefix;
    var algos := Accounts.JsSigner(signatureAlgorithm, hashAlgorithm);
    Authz(withPrefix + "-" + IntToString(keyId), SansPrefix(withPrefix), keyId,
          algos.0, algos.1, privateKey)
  }

  /** An address with or without `0x` gives the same authorization. */
  lemma AuthzIgnoresPrefix(address: string, keyId: int, key: string, sig: string, hash: string)
    ensures AuthzFactory(Accounts.WithPrefix(address), keyId, key, sig, hash)
            == AuthzFactory(address, keyId, key, sig, hash)
  {
    Accounts.WithPrefixIdempotent(address);
    var a := AuthzFactory(Accounts.WithPrefix(address), keyId, key, sig, hash);
    var b := AuthzFactory(address, keyId, key, sig, hash);
    assert "0x" + a.addr == "0x" + b.addr;
    assert a.addr == ("0x" + a.addr)[2..] == ("0x" + b.addr)[2..] == b.addr;
  }

  /** The order of the secp256k1 and P-256 groups is below 2^256, so each
      half of a signature fits in 32 bytes. */
  const SIGNATURE_HALF: nat := 32

  /** `r` and `s` as 32 big-endian bytes each, concatenated, in hex. */
  function SignatureHex(r: nat, s: nat): (hex: string)
    requires r < Pow256(SIGNATURE_HALF) && s < Pow256(SIGNATURE_HALF)
    ensures |hex| == 128 && AllHex(hex)
  {
    HexEncode(BigEndian(r, SIGNATURE_HALF).value + BigEndian(s, SIGNATURE_HALF).value)
  }

  /** The signature text decodes back to `r` and `s`. */
  lemma SignatureHexRoundTrip(r: nat, s: nat)
    requires r < Pow256(SIGNATURE_HALF) && s < Pow256(SIGNATURE_HALF)
    ensures var bs := HexDecode(SignatureHex(r, s));
            bs.Some? && |bs.value| == 64
            && FromBigEndian(bs.value[..32]) == r && FromBigEndian(bs.value[32..]) == s
  {
    var rb := BigEndian(r, SIGNATURE_HALF).value;
    var sb := BigEndian(s, SIGNATURE_HALF).value;
    HexRoundTrip(rb + sb);
    assert (rb + sb)[..32] == rb && (rb + sb)[32..] == sb;
    BigEndianRoundTrip(r, SIGNATURE_HALF);
    BigEndianRoundTrip(s, SIGNATURE_HALF);
  }

  // ---------------------------------------------------------------------
  // Roles
  // ---------------------------------------------------------------------

  /** An authorization FCL receives: one built by `authzFactory`, or a
      function the caller passed in. */
  datatype Authorization = Built(authz: Authz) | CallerFunction(id: nat)

  /** The service authorization the constructor prepares, when the service
      account has both an address and a key. */
  function ServiceAuthorization(dir: Accounts.FlowDir): (a: Option<Authorization>)
    ensures a.Some? <==> Accounts.JsUsable(Accounts.JsLoadService(dir))
  {
    var svc := Accounts.JsLoadService(dir);
    if Accounts.JsUsable(svc) then
      Some(Built(AuthzFactory(svc.address.value, svc.keyId, svc.key.value,
                              svc.signatureAlgorithm, svc.hashAlgorithm)))
    else None
  }

  /** A `0x` text with a non-empty supplied key under exactly that text. */
  predicate SuppliedKey(privateKeys: map<string, string>, s: string) {
    s in privateKeys && privateKeys[s] != "" && StartsWith(s, "0x")
  }

  /** `normalizeAuth`: falsy is the service authorization and a function
      is kept; a `0x` text with a supplied key (looked up by exact text)
      signs with it at key 0 with P-256 / SHA3-256; a text naming a usable
      account signs as that account; everything else falls back silently
      to the service authorization. */
  function NormalizeAuth(dir: Accounts.FlowDir, service: Authorization,
                         privateKeys: map<string, string>, v: JsValue): (a: Authorization)
    ensures !JsTruthy(v) ==> a == service
    ensures v.JsFunction? ==> a == CallerFunction(v.id)
    ensures !v.JsString? && !v.JsFunction? ==> a == service
    ensures v.JsString? && SuppliedKey(privateKeys, v.s) ==>
              a == Built(AuthzFactory(v.s, 0, privateKeys[v.s], Accounts.ECDSA_P256, Accounts.SHA3_256))
    ensures v.JsString? && v.s != "" && !SuppliedKey(privateKeys, v.s) ==>
              var acc := Accounts.JsLoadByName(dir, v.s);
              a == (if Accounts.JsUsable(acc)
                    then Built(AuthzFactory(acc.address.value, acc.keyId, acc.key.value,
                                            acc.signatureAlgorithm, acc.hashAlgorithm))
                    else service)
  {
    if !JsTruthy(v) then service
    else match v
      case JsFunction(id) => CallerFunction(id)
      case JsString(s) =>
        if SuppliedKey(privateKeys, s) then
          Built(AuthzFactory(s, 0, privateKeys[s], Accounts.ECDSA_P256, Accounts.SHA3_256))
        else
          var acc := Accounts.JsLoadByName(dir, s);
          if Accounts.JsUsable(acc) then
            Built(AuthzFactory(acc.address.value, acc.keyId, acc.key.value,
                               acc.signatureAlgorithm, acc.hashAlgorithm))
          else service
      case _ => service
  }

  /** A name with no key file falls back to the service authorization
      without any error. */
  lemma UnknownNameFallsBack(dir: Accounts.FlowDir, service: Authorization,
                             privateKeys: map<string, string>, name: string)
    requires name != "" && name !in dir.pkeys && !(name in privateKeys && StartsWith(name, "0x"))
    ensures NormalizeAuth(dir, service, privateKeys, JsString(name)) == service
  {
  }

  /** A name with a key file and a `flow.json` entry giving its address
      authorises as that account, with the loader's P-256 / SHA3-256
      defaults; a supplied key for the same `0x` text wins instead. */
  lemma NamedAccountAuthorizes(dir: Accounts.FlowDir, service: Authorization,
                               privateKeys: map<string, string>, name: string, address: string)
    requires name != "" && name in dir.pkeys && Strip(dir.pkeys[name]) != "" && address != ""
    requires dir.flowJson == Accounts.FileParsed(Some(map[name := Accounts.Entry(Accounts.AddressText(address), Accounts.KeyAbsent, false)]))
    ensures !SuppliedKey(privateKeys, name) ==>
              NormalizeAuth(dir, service, privateKeys, JsString(name))
              == Built(AuthzFactory(address, 0, Strip(dir.pkeys[name]), Accounts.ECDSA_P256, Accounts.SHA3_256))
    ensures SuppliedKey(privateKeys, name) ==>
              NormalizeAuth(dir, service, privateKeys, JsString(name))
              == Built(AuthzFactory(name, 0, privateKeys[name], Accounts.ECDSA_P256, Accounts.SHA3_256))
  {
    var acc := Accounts.JsLoadByName(dir, name);
    var d0 := Accounts.JsDraft(None, 0, Accounts.ECDSA_P256, Accounts.SHA3_256);
    assert Accounts.JsHasEntry(dir.flowJson, name);
    assert Accounts.JsGivesAddress(dir.flowJson, name);
    assert Accounts.JsApplyFile(d0, dir.flowJson, name) == Accounts.JsDraft(Some(address), 0, Accounts.ECDSA_P256, Accounts.SHA3_256);
    assert acc == Accounts.JsAccount(Some(address), Some(Strip(dir.pkeys[name])), 0, Accounts.ECDSA_P256, Accounts.SHA3_256);
  }

  /** Supplied keys are looked up by the exact text: the same address in
      another case does not find its key. */
  lemma KeyLookupIsExact(dir: Accounts.FlowDir, service: Authorization, hex: string, key: string)
    requires key != "" && hex != Lower(hex)
    ensures var pks := map["0x" + Lower(hex) := key];
            NormalizeAuth(dir, service, pks, JsString("0x" + hex))
            == NormalizeAuth(dir, service, map[], JsString("0x" + hex))
  {
    assert "0x" + hex != "0x" + Lower(hex) by {
      assert hex == ("0x" + hex)[2..];
      assert Lower(hex) == ("0x" + Lower(hex))[2..];
    }
  }

  /** The roles object; missing members are `JsUndefined`. */
  datatype FclRoles = FclRoles(proposer: JsValue, payer: JsValue, authorizer: JsValue)

  /** What `fcl.mutate` receives. */
  datatype Plan = Plan(proposer: Authorization, payer: Authorization, authorizations: seq<Authorization>)

  /** The authorization list: an array (even an empty one, which is
      truthy) maps element by element, another truthy value gives one,
      otherwise the service authorization alone. */
  function Authorizations(dir: Accounts.FlowDir, service: Authorization,
                          privateKeys: map<string, string>, v: JsValue): (r: seq<Authorization>)
    ensures v.JsArray? ==> (|r| == |v.items|
      && forall i :: 0 <= i < |r| ==> r[i] == NormalizeAuth(dir, service, privateKeys, v.items[i]))
    ensures !JsTruthy(v) ==> r == [service]
    ensures JsTruthy(v) && !v.JsArray? ==> r == [NormalizeAuth(dir, service, privateKeys, v)]
  {
    if JsTruthy(v) then
      match v
      case JsArray(items) => NormalizeEach(dir, service, privateKeys, items)
      case _ => [NormalizeAuth(dir, service, privateKeys, v)]
    else [service]
  }

  function NormalizeEach(dir: Accounts.FlowDir, service: Authorization,
                         privateKeys: map<string, string>, items: seq<JsValue>): (r: seq<Authorization>)
    ensures |r| == |items|
    ensures forall i :: 0 <= i < |r| ==> r[i] == NormalizeAuth(dir, service, privateKeys, items[i])
  {
    seq(|items|, i requires 0 <= i < |items| => NormalizeAuth(dir, service, privateKeys, items[i]))
  }

  /** The roles `sendTransaction` hands to FCL, or the error it returns
      when the service account is not configured. */
  function PlanTransaction(dir: Accounts.FlowDir, roles: FclRoles,
                           privateKeys: map<string, string>): (r: Result<Plan, string>)
    ensures r.Err? <==> ServiceAuthorization(dir).None?
    ensures r.Err? ==> r.error == "service account not configured"
    ensures r.Ok? ==> |r.value.authorizations| >= 1 || roles.authorizer == JsArray([])
    ensures r.Ok? && !JsTruthy(roles.proposer) ==> r.value.proposer == ServiceAuthorization(dir).value
    ensures r.Ok? && !JsTruthy(roles.payer) ==> r.value.payer == ServiceAuthorization(dir).value
    ensures r.Ok? ==> r.value.proposer == NormalizeAuth(dir, ServiceAuthorization(dir).value, privateKeys, roles.proposer)
    ensures r.Ok? ==> r.value.payer == NormalizeAuth(dir, ServiceAuthorization(dir).value, privateKeys, roles.payer)
    ensures r.Ok? ==>
              r.value.authorizations == Authorizations(dir, ServiceAuthorization(dir).value, privateKeys, roles.authorizer)
  {
    match ServiceAuthorization(dir)
    case None => Err("service account not configured")
    case Some(service) =>
      Ok(Plan(NormalizeAuth(dir, service, privateKeys, roles.proposer),
              NormalizeAuth(dir, service, privateKeys, roles.payer),
              Authorizations(dir, service, privateKeys, roles.authorizer)))
  }

  /** What the call returns: `transactionId` is `null` on any failure
      after submission, even when FCL had issued an id. */
  datatype TxResult = TxResult(success: bool, errorMessage: Option<string>,
                               transactionId: Option<string>)

  const ENOENT := "ENOENT: no such file or directory"

  /** `sendTransaction` with the transaction file's content (`None` when
      it cannot be read), and `fcl.mutate` and `onceSealed` as answers. The
      file is read outside the `try`: a missing file rejects the returned
      promise (`Err`) instead of producing a result. */
  function SendTransaction(dir: Accounts.FlowDir, code: Option<string>, roles: FclRoles,
                           privateKeys: map<string, string>,
                           mutate: Result<string, string>, sealed: Result<bool, string>): (r: Result<TxResult, string>)
    ensures r.Err? <==> ServiceAuthorization(dir).Some? && code.None?
    ensures r.Err? ==> r.error == ENOENT
    ensures ServiceAuthorization(dir).None? ==> r == Ok(TxResult(false, Some("service account not configured"), None))
    ensures r.Ok? ==> (r.value.success <==> ServiceAuthorization(dir).Some? && mutate.Ok? && sealed.Ok?)
    ensures r.Ok? ==> (r.value.transactionId.Some? <==> r.value.success)
    ensures r.Ok? && r.value.success ==> r.value.transactionId == Some(mutate.value)
    ensures r.Ok? && ServiceAuthorization(dir).Some? && mutate.Err? ==> r.value.errorMessage == Some(mutate.error)
    ensures r.Ok? && ServiceAuthorization(dir).Some? && mutate.Ok? && sealed.Err? ==>
              r.value.errorMessage == Some(sealed.error)
  {
    match PlanTransaction(dir, roles, privateKeys)
    case Err(e) => Ok(TxResult(false, Some(e), None))
    case Ok(_) =>
      if code.None? then Err(ENOENT)
      else
        match mutate
        case Err(e) => Ok(TxResult(false, Some(e), None))
        case Ok(txId) =>
          match sealed
          case Err(e) => Ok(TxResult(false, Some(e), None))
          case Ok(_) => Ok(TxResult(true, None, Some(txId)))
  }
}

=== FILE: flow_cli.dfy ===
/** The Flow-CLI subprocess wrappers (`flowWrapper.py` and
    `flowWrapper.js`): the argument vector, the role flags of a
    transaction, the mapping of a finished process to a result, the
    operation type, the retry loop, the metrics counters and the wait for a
    sealed transaction.

    The subprocess, the clock and the JSON parser are parameters.
 */
module FlowCli {
  import opened Wrappers
  import opened Text
  import opened JsValues
  import Accounts

  // ---------------------------------------------------------------------
  // Configuration
  // ---------------------------------------------------------------------

  /** The settings the pure parts read. Delays are in milliseconds. */
  datatype CliConfig = CliConfig(network: string, jsonOutput: bool, timeout: int,
                                 maxRetries: int, retryDelayMs: nat)

  /** The JavaScript `FlowConfig` options; a missing one is `JsUndefined`. */
  datatype JsConfigOptions = JsConfigOptions(network: JsValue, timeout: JsValue, maxRetries: JsValue,
                                             retryDelay: JsValue, jsonOutput: JsValue, logLevel: JsValue)

  datatype JsConfig = JsConfig(network: JsValue, timeout: JsValue, maxRetries: JsValue,
                               retryDelay: JsValue, jsonOutput: bool, logLevel: JsValue)

  function Or(v: JsValue, default: JsValue): JsValue {
    if JsTruthy(v) then v else default
  }

  /** `new FlowConfig(options)`: `||` replaces every falsy option, so an
      explicit `0` is a default too; JSON output is on unless it is
      exactly `false`. */
  function NewJsConfig(o: JsConfigOptions): (c: JsConfig)
    ensures JsTruthy(c.network) && JsTruthy(c.timeout) && JsTruthy(c.maxRetries)
    ensures JsTruthy(c.retryDelay) && JsTruthy(c.logLevel)
    ensures JsTruthy(o.network) ==> c.network == o.network
    ensures !JsTruthy(o.network) ==> c.network == JsString("mainnet")
    ensures JsTruthy(o.timeout) ==> c.timeout == o.timeout
    ensures !JsTruthy(o.timeout) ==> c.timeout == JsNumber(300)
    ensures JsTruthy(o.maxRetries) ==> c.maxRetries == o.maxRetries
    ensures !JsTruthy(o.maxRetries) ==> c.maxRetries == JsNumber(3)
    ensures JsTruthy(o.retryDelay) ==> c.retryDelay == o.retryDelay
    ensures !JsTruthy(o.retryDelay) ==> c.retryDelay == JsNumber(1)
    ensures JsTruthy(o.logLevel) ==> c.logLevel == o.logLevel
    ensures !JsTruthy(o.logLevel) ==> c.logLevel == JsString("INFO")
    ensures !c.jsonOutput <==> o.jsonOutput == JsBool(false)
  {
    JsConfig(Or(o.network, JsString("mainnet")), Or(o.timeout, JsNumber(300)),
             Or(o.maxRetries, JsNumber(3)), Or(o.retryDelay, JsNumber(1)),
             o.jsonOutput != JsBool(false), Or(o.logLevel, JsString("INFO")))
  }

  function OptionsOf(c: JsConfig): JsConfigOptions {
    JsConfigOptions(c.network, c.timeout, c.maxRetries, c.retryDelay, JsBool(c.jsonOutput), c.logLevel)
  }

  /** Feeding a configuration back as options changes nothing. */
  lemma JsConfigIdempotent(o: JsConfigOptions)
    ensures NewJsConfig(OptionsOf(NewJsConfig(o))) == NewJsConfig(o)
  {
  }

  /** Zero retries and a zero timeout cannot be asked for. */
  lemma ZeroMeansDefault(o: JsConfigOptions)
    requires o.maxRetries == JsNumber(0) && o.timeout == JsNumber(0)
    ensures NewJsConfig(o).maxRetries == JsNumber(3) && NewJsConfig(o).timeout == JsNumber(300)
  {
  }

  // ---------------------------------------------------------------------
  // The argument vector
  // ---------------------------------------------------------------------

  const CONFIG_FLAGS := ["-f", "flow.json", "-f", "accounts/flow-production.json"]

  /** The caller already chose a network. */
  predicate NetworkGiven(cmd: seq<string>) {
    "--network" in cmd || "--net" in cmd
  }

  predicate OutputGiven(cmd: seq<string>) {
    "--output" in cmd || "-o" in cmd
  }

  predicate WantsJson(operation: string, cfg: CliConfig) {
    (StartsWith(operation, "scripts") || StartsWith(operation, "transactions")) && cfg.jsonOutput
  }

  /** The flags both wrappers append after the binary, the operation and
      the arguments: the two configuration files, the network unless
      given, and JSON output for scripts and transactions unless given. */
  function Complete(prefix: seq<string>, operation: string, cfg: CliConfig): (cmd: seq<string>)
    ensures |cmd| >= |prefix| + 4
    ensures cmd[..|prefix|] == prefix
    ensures cmd[|prefix|..|prefix| + 4] == CONFIG_FLAGS
    ensures NetworkGiven(cmd)
    ensures WantsJson(operation, cfg) ==> OutputGiven(cmd)
    ensures !WantsJson(operation, cfg) && !NetworkGiven(prefix) ==> cmd == prefix + CONFIG_FLAGS + ["--network", cfg.network]
    ensures !WantsJson(operation, cfg) && NetworkGiven(prefix) ==> cmd == prefix + CONFIG_FLAGS
  {
    var withFiles := prefix + CONFIG_FLAGS;
    ConfigFlagsNeutral(prefix);
    var withNetwork := if NetworkGiven(withFiles) then withFiles else withFiles + ["--network", cfg.network];
    assert withNetwork[..|prefix|] == prefix && withNetwork[|prefix|..|prefix| + 4] == CONFIG_FLAGS;
    if WantsJson(operation, cfg) && !OutputGiven(withNetwork) then withNetwork + ["--output", "json"]
    else withNetwork
  }

  /** The layout after the configuration files: `--network` and the
      configured network unless the caller gave one, then `--output json`
      for scripts and transactions unless an output flag is already
      there. */
  lemma CompleteLayout(prefix: seq<string>, operation: string, cfg: CliConfig)
    ensures var cmd := Complete(prefix, operation, cfg);
            var m := |prefix| + 4 + (if NetworkGiven(prefix) then 0 else 2);
            && |cmd| >= m
            && (!NetworkGiven(prefix) ==> cmd[|prefix| + 4..m] == ["--network", cfg.network])
            && cmd[m..] == (if WantsJson(operation, cfg) && !OutputGiven(cmd[..m]) then ["--output", "json"] else [])
  {
    var withFiles := prefix + CONFIG_FLAGS;
    ConfigFlagsNeutral(prefix);
    var withNetwork := if NetworkGiven(withFiles) then withFiles else withFiles + ["--network", cfg.network];
    var cmd := Complete(prefix, operation, cfg);
    assert !NetworkGiven(prefix) ==> withNetwork[|prefix| + 4..] == ["--network", cfg.network];
    assert cmd[..|withNetwork|] == withNetwork;
  }

  /** The configuration-file flags name neither a network nor an output
      format. */
  lemma ConfigFlagsNeutral(prefix: seq<string>)
    ensures NetworkGiven(prefix + CONFIG_FLAGS) == NetworkGiven(prefix)
    ensures OutputGiven(prefix + CONFIG_FLAGS) == OutputGiven(prefix)
  {
    assert forall x :: x in prefix + CONFIG_FLAGS <==> x in prefix || x in CONFIG_FLAGS;
  }

  lemma PrefixParts(cmd: seq<string>, prefix: seq<string>, binary: string, tokens: seq<string>,
                    args: seq<string>)
    requires prefix == [binary] + tokens + args
    requires |cmd| >= |prefix| && cmd[..|prefix|] == prefix
    ensures cmd[0] == binary
    ensures cmd[1..1 + |tokens|] == tokens
    ensures cmd[1 + |tokens|..1 + |tokens| + |args|] == args
  {
    assert cmd[0] == prefix[0];
    assert cmd[1..1 + |tokens|] == prefix[1..1 + |tokens|];
    assert cmd[1 + |tokens|..1 + |tokens| + |args|] == prefix[1 + |tokens|..|prefix|];
  }

  const NOT_INITIALIZED := "Flow CLI binary not initialized"

  /** `_build_base_command`: the operation is cut into whitespace tokens. */
  function PyBaseCommand(binary: Option<string>, operation: string, args: seq<string>,
                         cfg: CliConfig): (r: Result<seq<string>, string>)
    ensures r.Err? <==> binary.None? || binary.value == ""
    ensures r.Err? ==> r.error == NOT_INITIALIZED
    ensures r.Ok? ==> |r.value| >= 1 + |SplitWhitespace(operation)| + |args| + 4
    ensures r.Ok? ==> r.value[0] == binary.value
    ensures r.Ok? ==> var n := 1 + |SplitWhitespace(operation)|;
                      r.value[1..n] == SplitWhitespace(operation) && r.value[n..n + |args|] == args
    ensures r.Ok? ==> r.value == Complete([binary.value] + SplitWhitespace(operation) + args, operation, cfg)
  {
    if binary.None? || binary.value == "" then Err(NOT_INITIALIZED)
    else
      var tokens := SplitWhitespace(operation);
      var prefix := [binary.value] + tokens + args;
      var cmd := Complete(prefix, operation, cfg);
      PrefixParts(cmd, prefix, binary.value, tokens, args);
      Ok(cmd)
  }

  /** `buildBaseCommand`: the operation is cut at every single space. */
  function JsBaseCommand(binary: Option<string>, operation: string, args: seq<string>,
                         cfg: CliConfig): (r: Result<seq<string>, string>)
    ensures r.Err? <==> binary.None? || binary.value == ""
    ensures r.Err? ==> r.error == NOT_INITIALIZED
    ensures r.Ok? ==> |r.value| >= 1 + |Split(operation, ' ')| + |args| + 4
    ensures r.Ok? ==> r.value[0] == binary.value
    ensures r.Ok? ==> var n := 1 + |Split(operation, ' ')|;
                      r.value[1..n] == Split(operation, ' ') && r.value[n..n + |args|] == args
    ensures r.Ok? ==> r.value == Complete([binary.value] + Split(operation, ' ') + args, operation, cfg)
  {
    if binary.None? || binary.value == "" then Err(NOT_INITIALIZED)
    else
      var tokens := Split(operation, ' ');
      var prefix := [binary.value] + tokens + args;
      var cmd := Complete(prefix, operation, cfg);
      PrefixParts(cmd, prefix, binary.value, tokens, args);
      Ok(cmd)
  }

  /** Operations written as single-spaced words give the same command in
      both wrappers. */
  lemma BuildersAgree(binary: Option<string>, words: seq<string>, args: seq<string>, cfg: CliConfig)
    requires |words| >= 1
    requires forall k :: 0 <= k < |words| ==> |words[k]| > 0 && NoSpace(words[k])
    ensures PyBaseCommand(binary, Join(words, " "), args, cfg) == JsBaseCommand(binary, Join(words, " "), args, cfg)
  {
    SplitWords(words);
    forall k | 0 <= k < |words|
      ensures ' ' !in words[k]
    {
      assert forall i :: 0 <= i < |words[k]| ==> words[k][i] != ' ';
    }
    SplitJoin(words, ' ');
  }

  /** A doubled space is one separator for the Python wrapper... */
  lemma PyDoubleSpace(a: string, b: string)
    requires |a| > 0 && NoSpace(a) && |b| > 0 && NoSpace(b)
    ensures SplitWhitespace(a + "  " + b) == [a, b]
  {
    var rest := "  " + b;
    assert a + "  " + b == a + rest;
    WordsOfWord(a, "", rest);
    assert "" + a == a;
    assert rest[1..] == " " + b;
    assert (" " + b)[1..] == b;
    WordsOfWord(b, "", "");
    assert b + "" == b && "" + b == b;
  }

  /** ...and an empty token between two for the JavaScript one. */
  lemma JsDoubleSpace(a: string, b: string)
    requires ' ' !in a && ' ' !in b
    ensures Split(a + "  " + b, ' ') == [a, "", b]
  {
    assert Join(["", b], " ") == " " + b by {
      assert Join([b], " ") == b;
      assert ["", b][1..] == [b];
    }
    assert [a, "", b][1..] == ["", b];
    assert Join([a, "", b], " ") == a + " " + (" " + b);
    assert a + "  " + b == a + " " + (" " + b);
    SplitJoin([a, "", b], ' ');
  }

  // ---------------------------------------------------------------------
  // Transaction role flags
  // ---------------------------------------------------------------------

  /** The role flags of `send_transaction`: the proposer is always the
      service account, the authorizer list starts with it, and `--payer`
      is added only for a non-empty payer. `signer` is never read. */
  function RoleFlags(extra: seq<string>, payer: Option<string>): (flags: seq<string>)
    ensures |flags| >= 4
    ensures flags[..4] == ["--proposer", Accounts.SERVICE_ACCOUNT, "--authorizer",
                           Join([Accounts.SERVICE_ACCOUNT] + extra, ",")]
    ensures |flags| == 6 <==> Truthy(payer)
    ensures |flags| == 4 <==> !Truthy(payer)
    ensures Truthy(payer) ==> flags[4..] == ["--payer", payer.value]
  {
    ["--proposer", Accounts.SERVICE_ACCOUNT, "--authorizer", Join([Accounts.SERVICE_ACCOUNT] + extra, ",")]
    + (if Truthy(payer) then ["--payer", payer.value] else [])
  }

  /** Python: a non-empty `authorizers` list wins, then a non-empty
      `authorizer`. */
  function PyExtraAuthorizers(authorizer: Option<string>, authorizers: seq<string>): (r: seq<string>)
    ensures |authorizers| > 0 ==> r == authorizers
    ensures |authorizers| == 0 && Truthy(authorizer) ==> r == [authorizer.value]
    ensures |authorizers| == 0 && !Truthy(authorizer) ==> r == []
  {
    if |authorizers| > 0 then authorizers
    else if Truthy(authorizer) then [authorizer.value]
    else []
  }

  /** JavaScript: any `authorizers` array, even an empty one, wins. */
  function JsExtraAuthorizers(authorizer: Option<string>, authorizers: Option<seq<string>>): (r: seq<string>)
    ensures authorizers.Some? ==> r == authorizers.value
    ensures authorizers.None? && Truthy(authorizer) ==> r == [authorizer.value]
    ensures authorizers.None? && !Truthy(authorizer) ==> r == []
  {
    if authorizers.Some? then authorizers.value
    else if Truthy(authorizer) then [authorizer.value]
    else []
  }

  /** The comma-joined authorizer value reads back as the service account
      followed by the extra names, when no name holds a comma. */
  lemma AuthorizerListRoundTrip(extra: seq<string>, payer: Option<string>)
    requires forall k :: 0 <= k < |extra| ==> ',' !in extra[k]
    ensures Split(RoleFlags(extra, payer)[3], ',') == [Accounts.SERVICE_ACCOUNT] + extra
  {
    var all := [Accounts.SERVICE_ACCOUNT] + extra;
    assert ',' !in Accounts.SERVICE_ACCOUNT;
    assert forall k :: 0 <= k < |all| ==> ',' !in all[k] by {
      forall k | 0 <= k < |all|
        ensures ',' !in all[k]
      {
        if k > 0 {
          assert all[k] == extra[k - 1];
        }
      }
    }
    SplitJoin(all, ',');
  }

  /** An empty `authorizers` list with an `authorizer` set: Python signs
      with the authorizer, JavaScript leaves it out. */
  lemma EmptyAuthorizersDiffer(name: string)
    requires name != ""
    ensures PyExtraAuthorizers(Some(name), []) == [name]
    ensures JsExtraAuthorizers(Some(name), Some([])) == []
  {
  }

  // ---------------------------------------------------------------------
  // Transaction id
  // ---------------------------------------------------------------------

  const TX_MARKER := "Transaction ID:"

  /** The scan over stdout's lines from line `k`: the first line holding
      the marker gives the stripped text between its first and second
      colon. */
  function TxIdFrom(lines: seq<string>, k: nat): (r: Option<string>)
    requires k <= |lines|
    ensures r.Some? <==> exists i :: k <= i < |lines| && Contains(lines[i], TX_MARKER)
    decreases |lines| - k
  {
    if k == |lines| then None
    else if Contains(lines[k], TX_MARKER) then
      MarkerHasColon(lines[k]);
      var parts := Split(lines[k], ':');
      if |parts| > 1 then Some(Strip(parts[1])) else None
    else
      TxIdFrom(lines, k + 1)
  }

  /** The scan's answer is the id on the first marked line. */
  lemma {:induction false} TxIdFromFirstMarked(lines: seq<string>, k: nat)
    requires k <= |lines|
    ensures TxIdFrom(lines, k).Some? ==>
              exists i :: FirstMarked(lines, k, i) && IdOnLine(lines[i], TxIdFrom(lines, k).value)
    decreases |lines| - k
  {
    if k < |lines| && !Contains(lines[k], TX_MARKER) {
      TxIdFromFirstMarked(lines, k + 1);
      var r := TxIdFrom(lines, k + 1);
      if r.Some? {
        var i :| FirstMarked(lines, k + 1, i) && IdOnLine(lines[i], r.value);
        assert FirstMarked(lines, k, i);
      }
    } else if k < |lines| {
      MarkerHasColon(lines[k]);
      assert FirstMarked(lines, k, k);
    }
  }

  /** Line `i` is the first line at or after `k` holding the marker. */
  predicate FirstMarked(lines: seq<string>, k: nat, i: int) {
    k <= i < |lines| && Contains(lines[i], TX_MARKER)
    && forall j :: k <= j < i ==> !Contains(lines[j], TX_MARKER)
  }

  /** `id` is the stripped text between the line's first and second
      colon. */
  predicate IdOnLine(line: string, id: string) {
    |Split(line, ':')| > 1 && Strip(Split(line, ':')[1]) == id
  }

  lemma MarkerHasColon(line: string)
    requires Contains(line, TX_MARKER)
    ensures |Split(line, ':')| > 1
  {
    var i := ContainsWitness(line, TX_MARKER);
    assert line[i + 14] == TX_MARKER[14] == ':';
    SplitAtLeastTwo(line, ':');
  }

  /** The transaction id both wrappers read from stdout. */
  function ExtractTxId(stdout: string): (r: Option<string>)
    ensures r.Some? ==> exists i :: 0 <= i < |Split(stdout, '\n')| && Contains(Split(stdout, '\n')[i], TX_MARKER)
    ensures (exists i :: 0 <= i < |Split(stdout, '\n')| && Contains(Split(stdout, '\n')[i], TX_MARKER)) ==> r.Some?
    ensures r.Some? ==> exists i :: FirstMarked(Split(stdout, '\n'), 0, i) && IdOnLine(Split(stdout, '\n')[i], r.value)
  {
    var lines := Split(stdout, '\n');
    TxIdFromFirstMarked(lines, 0);
    TxIdFrom(lines, 0)
  }

  lemma {:induction false} SkipUnmarked(lines: seq<string>, k: nat, n: nat)
    requires k <= n <= |lines|
    requires forall i :: k <= i < n ==> !Contains(lines[i], TX_MARKER)
    ensures TxIdFrom(lines, k) == TxIdFrom(lines, n)
    decreases n - k
  {
    if k < n {
      SkipUnmarked(lines, k + 1, n);
    }
  }

  lemma StripPadded(id: string)
    requires |id| > 0 && !IsSpace(id[0]) && !IsSpace(id[|id| - 1])
    ensures Strip(" " + id) == id
  {
    assert (" " + id)[1..] == id;
  }

  /** The marked line of a transaction id. */
  function TxLine(id: string): string {
    TX_MARKER + " " + id
  }

  lemma TxLineHasNoNewline(id: string)
    requires '\n' !in id
    ensures '\n' !in TxLine(id)
  {
    var line := TxLine(id);
    forall i | 0 <= i < |line|
      ensures line[i] != '\n'
    {
      if i > |TX_MARKER| {
        assert line[i] == id[i - |TX_MARKER| - 1];
      } else if i < |TX_MARKER| {
        assert line[i] == TX_MARKER[i];
      }
    }
  }

  lemma TxLineGivesId(id: string)
    requires ':' !in id
    requires |id| > 0 && !IsSpace(id[0]) && !IsSpace(id[|id| - 1])
    ensures Contains(TxLine(id), TX_MARKER)
    ensures |Split(TxLine(id), ':')| > 1 && Strip(Split(TxLine(id), ':')[1]) == id
  {
    var line := TxLine(id);
    assert line[..|TX_MARKER|] == TX_MARKER;
    var head := "Transaction ID";
    assert ':' !in head;
    assert ':' !in " " + id;
    assert Join([head, " " + id], ":") == line;
    SplitJoin([head, " " + id], ':');
    StripPadded(id);
  }

  lemma {:induction false} LinesHaveNoNewline(before: seq<string>, line: string, after: seq<string>)
    requires forall i :: 0 <= i < |before| ==> '\n' !in before[i]
    requires forall i :: 0 <= i < |after| ==> '\n' !in after[i]
    requires '\n' !in line
    ensures var lines := before + [line] + after;
            forall i :: 0 <= i < |lines| ==> '\n' !in lines[i]
  {
    var lines := before + [line] + after;
    forall i | 0 <= i < |lines|
      ensures '\n' !in lines[i]
    {
      if i < |before| {
        assert lines[i] == before[i];
      } else if i > |before| {
        assert lines[i] == after[i - |before| - 1];
      }
    }
  }

  /** A line `Transaction ID: <id>` after lines without the marker gives
      back `<id>`. */
  lemma TxIdRoundTrip(before: seq<string>, id: string, after: seq<string>)
    requires forall i :: 0 <= i < |before| ==> !Contains(before[i], TX_MARKER) && '\n' !in before[i]
    requires forall i :: 0 <= i < |after| ==> '\n' !in after[i]
    requires '\n' !in id && ':' !in id
    requires |id| > 0 && !IsSpace(id[0]) && !IsSpace(id[|id| - 1])
    ensures ExtractTxId(Join(before + [TxLine(id)] + after, "\n")) == Some(id)
  {
    var lines := before + [TxLine(id)] + after;
    TxLineHasNoNewline(id);
    LinesHaveNoNewline(before, TxLine(id), after);
    SplitJoin(lines, '\n');
    assert forall i :: 0 <= i < |before| ==> lines[i] == before[i];
    SkipUnmarked(lines, 0, |before|);
    assert lines[|before|] == TxLine(id);
    TxLineGivesId(id);
  }

  // ---------------------------------------------------------------------
  // Operation type
  // ---------------------------------------------------------------------

  /** `_determine_operation_type` / `determineOperationType` on the
      lower-cased, space-joined command: the first of four substrings
      found decides. */
  function OperationType(cmd: seq<string>): (t: string)
    ensures var s := Lower(Join(cmd, " "));
            (t == "script" <==> Contains(s, "scripts"))
            && (t == "transaction" <==> !Contains(s, "scripts") && Contains(s, "transactions"))
            && (t == "account" <==> !Contains(s, "scripts") && !Contains(s, "transactions")
                                    && Contains(s, "accounts"))
            && (t == "block" <==> !Contains(s, "scripts") && !Contains(s, "transactions")
                                  && !Contains(s, "accounts") && Contains(s, "blocks"))
            && (t == "unknown" <==> !Contains(s, "scripts") && !Contains(s, "transactions")
                                    && !Contains(s, "accounts") && !Contains(s, "blocks"))
  {
    var s := Lower(Join(cmd, " "));
    if Contains(s, "scripts") then "script"
    else if Contains(s, "transactions") then "transaction"
    else if Contains(s, "accounts") then "account"
    else if Contains(s, "blocks") then "block"
    else "unknown"
  }

  /** Lower-case text inside a text is still there after lower-casing. */
  lemma LowerKeeps(s: string, w: string, i: nat)
    requires i + |w| <= |s| && s[i..i + |w|] == w && Lower(w) == w
    ensures Contains(Lower(s), w)
  {
    assert Lower(s)[i..i + |w|] == w by {
      forall j | 0 <= j < |w|
        ensures Lower(s)[i + j] == w[j]
      {
        assert s[i + j] == w[j];
        assert Lower(w)[j] == LowerChar(w[j]);
      }
    }
    ContainsAt(Lower(s), w, i);
  }

  lemma ScriptTokens(path: string)
    ensures var t := SplitWhitespace("scripts execute " + path);
            |t| >= 1 && t[0] == "scripts"
  {
    assert NoSpace("scripts");
    assert "scripts execute " + path == "scripts" + (" execute " + path);
    WordsOfWord("scripts", "", " execute " + path);
    assert "" + "scripts" == "scripts";
  }

  /** The second word of a command is found in its joined text. */
  lemma SecondWordInJoin(cmd: seq<string>)
    requires |cmd| >= 2
    ensures var s := Join(cmd, " ");
            |cmd[0]| + 1 + |cmd[1]| <= |s| && s[|cmd[0]| + 1..|cmd[0]| + 1 + |cmd[1]|] == cmd[1]
  {
    JoinStartsWith(cmd[1..], " ");
    assert Join(cmd, " ") == cmd[0] + " " + Join(cmd[1..], " ");
  }

  /** Every command the Python wrapper builds for a script is classified
      as a script, whatever its path. */
  lemma ScriptCommandIsScript(binary: string, path: string, args: seq<string>, cfg: CliConfig)
    requires binary != ""
    ensures var r := PyBaseCommand(Some(binary), "scripts execute " + path, args, cfg);
            r.Ok? && OperationType(r.value) == "script"
  {
    ScriptTokens(path);
    var cmd := PyBaseCommand(Some(binary), "scripts execute " + path, args, cfg).value;
    assert cmd[0] == binary && cmd[1] == "scripts";
    SecondWordInJoin(cmd);
    LowerNoCapitals("scripts");
    LowerKeeps(Join(cmd, " "), "scripts", |binary| + 1);
  }

  // ---------------------------------------------------------------------
  // Process results
  // ---------------------------------------------------------------------

  /** How the subprocess ended. `Completed` is Python's finished run;
      JavaScript's `exec` resolves only on exit code 0. */
  datatype ProcessEnd =
    | Completed(returncode: int, stdout: string, stderr: string)
    | TimedOut
    | Crashed(message: string)

  /** The parsed output: the JSON text that parsed (the value itself is
      the parser's), or the raw text kept when it does not parse. */
  datatype Data = JsonData(json: string) | RawData(rawOutput: string)

  /** The fields of a wrapper result that do not depend on the clock. */
  datatype CliResult = CliResult(success: bool, data: Option<Data>, rawOutput: string,
                                 errorMessage: string, command: string, network: string,
                                 operationType: string, transactionId: Option<string>,
                                 retryCount: nat)

  /** `timeout or self.config.timeout` / `timeout || this.config.timeout`. */
  function EffectiveTimeout(timeout: Option<int>, cfg: CliConfig): int {
    if timeout.Some? && timeout.value != 0 then timeout.value else cfg.timeout
  }

  function TimeoutMessage(seconds: int): string {
    "Command timed out after " + IntToString(seconds) + " seconds"
  }

  function ParseOutput(text: string, parses: string -> bool): (d: Data)
    ensures d.JsonData? <==> parses(text)
    ensures d.JsonData? ==> d.json == text
    ensures d.RawData? ==> d.rawOutput == text
  {
    if parses(text) then JsonData(text) else RawData(text)
  }

  /** `_execute_command`: success is exit code 0; output is parsed only on
      success with non-blank stdout; the transaction id is read from
      stdout whatever the exit code. */
  function PyExecute(cmd: seq<string>, cfg: CliConfig, timeout: Option<int>, run: ProcessEnd,
                     parses: string -> bool): (r: CliResult)
    ensures r.success <==> run.Completed? && run.returncode == 0
    ensures r.data.Some? <==> r.success && Strip(run.stdout) != ""
    ensures r.data.Some? ==> r.data.value == ParseOutput(Strip(run.stdout), parses)
    ensures run.Completed? ==> r.transactionId == ExtractTxId(run.stdout) && r.errorMessage == run.stderr
    ensures !run.Completed? ==> r.transactionId.None? && r.rawOutput == ""
    ensures run.TimedOut? ==> r.errorMessage == TimeoutMessage(EffectiveTimeout(timeout, cfg))
    ensures run.Crashed? ==> r.errorMessage == "Unexpected error: " + run.message
    ensures r.command == Join(cmd, " ") && r.operationType == OperationType(cmd) && r.retryCount == 0
  {
    var cmdStr := Join(cmd, " ");
    match run
    case Completed(code, stdout, stderr) =>
      var data := if code == 0 && Strip(stdout) != "" then Some(ParseOutput(Strip(stdout), parses)) else None;
      CliResult(code == 0, data, stdout, stderr, cmdStr, cfg.network, OperationType(cmd), ExtractTxId(stdout), 0)
    case TimedOut =>
      CliResult(false, None, "", TimeoutMessage(EffectiveTimeout(timeout, cfg)), cmdStr, cfg.network,
                OperationType(cmd), None, 0)
    case Crashed(message) =>
      CliResult(false, None, "", "Unexpected error: " + message, cmdStr, cfg.network, OperationType(cmd), None, 0)
  }

  /** How `execAsync` settled. A rejection carries the error's `code`. */
  datatype ExecEnd = Resolved(stdout: string, stderr: string) | Rejected(code: string, message: string)

  /** `transactionId || null`: an empty id is no id. */
  function JsId(id: Option<string>): (r: Option<string>)
    ensures r.Some? <==> id.Some? && id.value != ""
    ensures r.Some? ==> r == id
  {
    if id == Some("") then None else id
  }

  /** `executeCommand`: every resolved run is a success, whatever stderr
      says; every rejection is a failure. The result constructor turns an
      empty transaction id into `null`. */
  function JsExecute(cmd: seq<string>, cfg: CliConfig, timeout: Option<int>, run: ExecEnd,
                     parses: string -> bool): (r: CliResult)
    ensures r.success <==> run.Resolved?
    ensures r.data.Some? <==> run.Resolved? && Strip(run.stdout) != ""
    ensures r.data.Some? ==> r.data.value == ParseOutput(Strip(run.stdout), parses)
    ensures run.Resolved? ==> r.transactionId == JsId(ExtractTxId(run.stdout)) && r.errorMessage == run.stderr
    ensures run.Rejected? ==> r.transactionId.None? && r.data.None? && r.rawOutput == ""
    ensures run.Rejected? && run.code == "TIMEOUT" ==> r.errorMessage == TimeoutMessage(EffectiveTimeout(timeout, cfg))
    ensures run.Rejected? && run.code != "TIMEOUT" ==> r.errorMessage == "Unexpected error: " + run.message
    ensures r.command == Join(cmd, " ") && r.operationType == OperationType(cmd) && r.retryCount == 0
  {
    var cmdStr := Join(cmd, " ");
    match run
    case Resolved(stdout, stderr) =>
      var data := if Strip(stdout) != "" then Some(ParseOutput(Strip(stdout), parses)) else None;
      CliResult(true, data, stdout, stderr, cmdStr, cfg.network, OperationType(cmd), JsId(ExtractTxId(stdout)), 0)
    case Rejected(code, message) =>
      var msg := if code == "TIMEOUT" then TimeoutMessage(EffectiveTimeout(timeout, cfg))
                 else "Unexpected error: " + message;
      CliResult(false, None, "", msg, cmdStr, cfg.network, OperationType(cmd), None, 0)
  }

  /** A run that exits 0 gives the same result in both wrappers, whatever
      stderr holds, except that JavaScript drops an empty transaction id. */
  lemma ExitZeroAgrees(cmd: seq<string>, cfg: CliConfig, stdout: string, stderr: string,
                       parses: string -> bool)
    ensures var p := PyExecute(cmd, cfg, None, Completed(0, stdout, stderr), parses);
            JsExecute(cmd, cfg, None, Resolved(stdout, stderr), parses) == p.(transactionId := JsId(p.transactionId))
  {
  }

  /** A line ending in its only colon, with the marker in it, reads as
      the empty id. */
  lemma {:induction false} EmptyAfterColon(w: string)
    requires ':' !in w && '\n' !in w && Contains(w + [':'], TX_MARKER)
    ensures ExtractTxId(w + [':']) == Some("")
  {
    var line := w + [':'];
    assert '\n' !in line;
    SplitPiece(line, '\n', "");
    var lines := Split(line, '\n');
    assert lines == [line];
    SplitPiece(w, ':', "");
    assert w + [':'] + "" == line;
    var parts := Split(line, ':');
    assert parts == [w, ""];
    assert Strip(parts[1]) == "";
  }

  /** The marker alone reads as the empty id. */
  lemma MarkerAlone()
    ensures ExtractTxId(TX_MARKER) == Some("")
  {
    var w := "Transaction ID";
    assert w + [':'] == TX_MARKER;
    assert Contains(TX_MARKER, TX_MARKER) by {
      assert StartsWith(TX_MARKER, TX_MARKER);
    }
    EmptyAfterColon(w);
  }

  /** A marker line with nothing after the colon: Python reports the empty
      id, JavaScript none. */
  lemma EmptyIdDisagreement(cmd: seq<string>, cfg: CliConfig, parses: string -> bool)
    ensures PyExecute(cmd, cfg, None, Completed(0, TX_MARKER, ""), parses).transactionId == Some("")
    ensures JsExecute(cmd, cfg, None, Resolved(TX_MARKER, ""), parses).transactionId.None?
  {
    MarkerAlone();
  }


  // ---------------------------------------------------------------------
  // Retries
  // ---------------------------------------------------------------------

  const NON_RETRYABLE := ["invalid", "not found", "unauthorized", "insufficient"]

  /** A failure message naming one of the errors retrying cannot fix. */
  predicate NonRetryable(message: string) {
    exists i :: 0 <= i < |NON_RETRYABLE| && Contains(Lower(message), NON_RETRYABLE[i])
  }

  /** One attempt's outcome. */
  datatype Attempt = Attempt(success: bool, errorMessage: string)

  /** The result handed back and the attempt it came from. */
  datatype Retried = Retried(result: Attempt, retryCount: nat)

  function Pow2(n: nat): (r: nat)
    ensures r >= 1
  {
    if n == 0 then 1 else 2 * Pow2(n - 1)
  }

  /** The attempts from `k` on: stop at a success, a non-retryable failure
      or the last allowed attempt. */
  function RetryFrom(op: nat -> Attempt, maxRetries: int, k: nat): (r: Retried)
    requires k <= maxRetries
    ensures k <= r.retryCount <= maxRetries && r.result == op(r.retryCount)
    ensures forall j :: k <= j < r.retryCount ==> !op(j).success && !NonRetryable(op(j).errorMessage)
    ensures !r.result.success ==> r.retryCount == maxRetries || NonRetryable(r.result.errorMessage)
    decreases maxRetries - k
  {
    var a := op(k);
    if a.success || NonRetryable(a.errorMessage) || k == maxRetries then Retried(a, k)
    else RetryFrom(op, maxRetries, k + 1)
  }

  /** `_retry_operation` / `retryOperation`: at most `maxRetries + 1`
      attempts, sleeping `retryDelay * 2^(k-1)` before attempt `k >= 1`;
      with a negative bound nothing runs and nothing is returned. */
  method Retry(op: nat -> Attempt, maxRetries: int, retryDelayMs: nat)
    returns (r: Option<Retried>, delays: seq<nat>)
    ensures r.None? <==> maxRetries < 0
    ensures r.Some? ==> r.value == RetryFrom(op, maxRetries, 0)
    ensures r.Some? ==> |delays| == r.value.retryCount
    ensures forall i :: 0 <= i < |delays| ==> delays[i] == retryDelayMs * Pow2(i)
  {
    delays := [];
    if maxRetries < 0 {
      return None, delays;
    }
    var attempt: nat := 0;
    while true
      invariant attempt <= maxRetries
      invariant |delays| == attempt
      invariant forall i :: 0 <= i < attempt ==> delays[i] == retryDelayMs * Pow2(i)
      invariant RetryFrom(op, maxRetries, attempt) == RetryFrom(op, maxRetries, 0)
      decreases maxRetries - attempt
    {
      var result := op(attempt);
      if result.success || NonRetryable(result.errorMessage) || attempt == maxRetries {
        return Some(Retried(result, attempt)), delays;
      }
      delays := delays + [retryDelayMs * Pow2(attempt)];
      attempt := attempt + 1;
    }
  }

  /** A first-time success is returned with retry count 0; a first-time
      non-retryable failure is returned without any retry. */
  lemma RetryStopsAtFirstAttempt(op: nat -> Attempt, maxRetries: nat)
    requires op(0).success || NonRetryable(op(0).errorMessage)
    ensures RetryFrom(op, maxRetries, 0) == Retried(op(0), 0)
  {
  }

  /** With every attempt failing for a retryable reason, all attempts run
      and the last failure is returned. */
  lemma {:induction false} RetryExhausts(op: nat -> Attempt, maxRetries: nat, k: nat)
    requires k <= maxRetries
    requires forall j :: k <= j <= maxRetries ==> !op(j).success && !NonRetryable(op(j).errorMessage)
    ensures RetryFrom(op, maxRetries, k) == Retried(op(maxRetries), maxRetries)
    decreases maxRetries - k
  {
    if k < maxRetries {
      RetryExhausts(op, maxRetries, k + 1);
    }
  }

  // ---------------------------------------------------------------------
  // Metrics
  // ---------------------------------------------------------------------

  datatype Counts = Counts(total: nat, success: nat, failed: nat)

  /** The counters of `FlowMetrics` (times are left out). */
  datatype Metrics = Metrics(total: nat, successful: nat, failed: nat, retries: nat,
                             rateLimited: nat, timeouts: nat,
                             operationTypes: map<string, Counts>, networks: map<string, Counts>)

  /** What `record_operation` reads from a result. */
  datatype Recorded = Recorded(success: bool, errorMessage: string, operationType: string,
                               network: string, retryCount: nat)

  predicate CountsAdd(c: Counts) {
    c.total == c.success + c.failed
  }

  /** The counters agree with each other. */
  predicate Consistent(m: Metrics) {
    && m.total == m.successful + m.failed
    && m.rateLimited <= m.failed && m.timeouts <= m.failed
    && (forall k :: k in m.operationTypes ==> CountsAdd(m.operationTypes[k]))
    && (forall k :: k in m.networks ==> CountsAdd(m.networks[k]))
  }

  /** `reset()`. */
  const EMPTY_METRICS := Metrics(0, 0, 0, 0, 0, 0, map[], map[])

  function Bump(m: map<string, Counts>, key: string, success: bool): (r: map<string, Counts>)
    ensures r.Keys == m.Keys + {key}
    ensures forall k :: k in m && k != key ==> r[k] == m[k]
    ensures var prev := if key in m then m[key] else Counts(0, 0, 0);
            r[key] == if success then Counts(prev.total + 1, prev.success + 1, prev.failed)
                      else Counts(prev.total + 1, prev.success, prev.failed + 1)
  {
    var c := if key in m then m[key] else Counts(0, 0, 0);
    m[key := if success then Counts(c.total + 1, c.success + 1, c.failed)
             else Counts(c.total + 1, c.success, c.failed + 1)]
  }

  /** `record_operation` / `recordOperation`. Both wrappers record a
      result inside the command runner, before the retry loop sets its
      retry count, so in the program the count recorded here is always 0
      (flowWrapper.py:366 and 440; flowWrapper.js:382 and 450). */
  function Record(m: Metrics, r: Recorded): (m': Metrics)
    ensures m'.total == m.total + 1 && m'.retries == m.retries + r.retryCount
    ensures r.success ==> m'.successful == m.successful + 1 && m'.failed == m.failed
    ensures !r.success ==> m'.failed == m.failed + 1 && m'.successful == m.successful
    ensures m'.rateLimited == m.rateLimited + (if !r.success && Contains(Lower(r.errorMessage), "rate limited") then 1 else 0)
    ensures m'.timeouts == m.timeouts + (if !r.success && Contains(Lower(r.errorMessage), "timeout") then 1 else 0)
    ensures m'.operationTypes == Bump(m.operationTypes, r.operationType, r.success)
    ensures m'.networks == Bump(m.networks, r.network, r.success)
  {
    var failure := !r.success;
    Metrics(m.total + 1,
            m.successful + (if r.success then 1 else 0),
            m.failed + (if failure then 1 else 0),
            m.retries + r.retryCount,
            m.rateLimited + (if failure && Contains(Lower(r.errorMessage), "rate limited") then 1 else 0),
            m.timeouts + (if failure && Contains(Lower(r.errorMessage), "timeout") then 1 else 0),
            Bump(m.operationTypes, r.operationType, r.success),
            Bump(m.networks, r.network, r.success))
  }

  /** Recording keeps the counters consistent. */
  lemma RecordConsistent(m: Metrics, r: Recorded)
    requires Consistent(m)
    ensures Consistent(Record(m, r))
  {
  }

  /** Any history of recordings from a reset is consistent and counts
      every recording once. */
  lemma {:induction false} HistoryConsistent(rs: seq<Recorded>)
    ensures Consistent(RecordAll(EMPTY_METRICS, rs)) && RecordAll(EMPTY_METRICS, rs).total == |rs|
    decreases |rs|
  {
    if |rs| > 0 {
      HistoryConsistent(rs[..|rs| - 1]);
      RecordConsistent(RecordAll(EMPTY_METRICS, rs[..|rs| - 1]), rs[|rs| - 1]);
    }
  }

  function RecordAll(m: Metrics, rs: seq<Recorded>): Metrics
    decreases |rs|
  {
    if |rs| == 0 then m else Record(RecordAll(m, rs[..|rs| - 1]), rs[|rs| - 1])
  }

  /** How many recordings of a history have operation type `t`, and how
      many of those succeeded. */
  function CountOfType(rs: seq<Recorded>, t: string): (r: Counts)
    ensures CountsAdd(r) && r.total <= |rs|
    decreases |rs|
  {
    if |rs| == 0 then Counts(0, 0, 0)
    else
      var c := CountOfType(rs[..|rs| - 1], t);
      var last := rs[|rs| - 1];
      if last.operationType != t then c
      else if last.success then Counts(c.total + 1, c.success + 1, c.failed)
      else Counts(c.total + 1, c.success, c.failed + 1)
  }

  /** The per-key counters after bumping each recording's operation type
      in turn. */
  function BumpTypes(m: map<string, Counts>, rs: seq<Recorded>): map<string, Counts>
    decreases |rs|
  {
    if |rs| == 0 then m
    else Bump(BumpTypes(m, rs[..|rs| - 1]), rs[|rs| - 1].operationType, rs[|rs| - 1].success)
  }

  lemma {:induction false} RecordAllTypes(m: Metrics, rs: seq<Recorded>)
    ensures RecordAll(m, rs).operationTypes == BumpTypes(m.operationTypes, rs)
    decreases |rs|
  {
    if |rs| > 0 {
      RecordAllTypes(m, rs[..|rs| - 1]);
    }
  }

  /** The count of a nonempty history, from the count of its prefix. */
  lemma CountOfTypeLast(rs: seq<Recorded>, t: string)
    requires |rs| > 0
    ensures var c := CountOfType(rs[..|rs| - 1], t);
            var last := rs[|rs| - 1];
            CountOfType(rs, t) == if last.operationType != t then c
                                  else if last.success then Counts(c.total + 1, c.success + 1, c.failed)
                                  else Counts(c.total + 1, c.success, c.failed + 1)
  {
  }

  /** The counters `m` hold `c` for the key `t`: no entry while `c` is
      empty, and exactly `c` once it is not. */
  predicate Tracks(m: map<string, Counts>, t: string, c: Counts) {
    if c.total == 0 then t !in m else t in m && m[t] == c
  }

  /** Bumping one key keeps the counts of a matching count in step. */
  lemma BumpKeepsCount(m: map<string, Counts>, key: string, success: bool, t: string, c: Counts)
    requires CountsAdd(c)
    requires Tracks(m, t, c)
    ensures Tracks(Bump(m, key, success), t,
                   if key != t then c
                   else if success then Counts(c.total + 1, c.success + 1, c.failed)
                   else Counts(c.total + 1, c.success, c.failed + 1))
  {
    if key != t {
      BumpOtherKey(m, key, success, t);
    } else {
      BumpSameKey(m, key, success, c);
    }
  }

  /** Bumping a key whose counts are `c` records one more operation. */
  lemma BumpSameKey(m: map<string, Counts>, key: string, success: bool, c: Counts)
    requires key in m <==> c.total > 0
    requires key in m ==> m[key] == c
    requires CountsAdd(c)
    ensures key in Bump(m, key, success)
    ensures Bump(m, key, success)[key] == if success then Counts(c.total + 1, c.success + 1, c.failed)
                                         else Counts(c.total + 1, c.success, c.failed + 1)
  {
    var prev := if key in m then m[key] else Counts(0, 0, 0);
    assert prev == c by {
      if key !in m {
        assert c.total == 0;
        assert c.success == 0 && c.failed == 0;
      }
    }
    var n := if success then Counts(c.total + 1, c.success + 1, c.failed)
             else Counts(c.total + 1, c.success, c.failed + 1);
    assert Bump(m, key, success) == m[key := n];
  }

  /** Bumping one key leaves every other key as it was. */
  lemma BumpOtherKey(m: map<string, Counts>, key: string, success: bool, t: string)
    requires key != t
    ensures t in Bump(m, key, success) <==> t in m
    ensures t in m ==> Bump(m, key, success)[t] == m[t]
  {
  }

  function AddCounts(a: Counts, b: Counts): Counts {
    Counts(a.total + b.total, a.success + b.success, a.failed + b.failed)
  }

  /** Bumping a history's operation types adds the history's own count
      of each type to what the counters held. */
  lemma {:induction false} BumpTypesCounts(m: map<string, Counts>, c0: Counts, rs: seq<Recorded>, t: string)
    requires CountsAdd(c0) && Tracks(m, t, c0)
    ensures Tracks(BumpTypes(m, rs), t, AddCounts(c0, CountOfType(rs, t)))
    decreases |rs|
  {
    if |rs| > 0 {
      var init := rs[..|rs| - 1];
      var last := rs[|rs| - 1];
      var prev := BumpTypes(m, init);
      var c := AddCounts(c0, CountOfType(init, t));
      BumpTypesCounts(m, c0, init, t);
      CountOfTypeLast(rs, t);
      BumpKeepsCount(prev, last.operationType, last.success, t, c);
      assert BumpTypes(m, rs) == Bump(prev, last.operationType, last.success);
    }
  }

  lemma NothingTracked(t: string)
    ensures Tracks(map[], t, Counts(0, 0, 0))
  {
  }

  /** After a history from a reset, the per-type counters hold exactly the
      recordings of each type: a type is present once recorded, and then
      its counts are those of its recordings. */
  lemma HistoryCountsPerType(rs: seq<Recorded>, t: string)
    ensures Tracks(RecordAll(EMPTY_METRICS, rs).operationTypes, t, CountOfType(rs, t))
  {
    RecordAllTypes(EMPTY_METRICS, rs);
    NothingTracked(t);
    BumpTypesCounts(map[], Counts(0, 0, 0), rs, t);
    assert AddCounts(Counts(0, 0, 0), CountOfType(rs, t)) == CountOfType(rs, t);
  }

  /** The success rate in percent, before rounding; 0 with no operations. */
  function SuccessRate(m: Metrics): (rate: real)
    requires Consistent(m)
    ensures m.total == 0 ==> rate == 0.0
    ensures 0.0 <= rate <= 100.0
    ensures m.failed == 0 && m.total > 0 ==> rate == 100.0
  {
    if m.total > 0 then (m.successful as real) / (m.total as real) * 100.0 else 0.0
  }

  // ---------------------------------------------------------------------
  // Waiting for a seal
  // ---------------------------------------------------------------------

  /** One `get_transaction` answer: its success and the `status` member of
      its data, if any (absent data or member reads as no status). */
  datatype StatusPoll = StatusPoll(success: bool, status: Option<string>)

  /** The transaction answers, and the seconds elapsed (in milliseconds)
      when the loop tests its deadline before poll `k`. */
  datatype SealChain = SealChain(poll: nat -> StatusPoll, elapsedMs: nat -> int)

  /** Each round sleeps five seconds. */
  ghost predicate SleepsFiveSeconds(c: SealChain) {
    forall k: nat :: c.elapsedMs(k) >= 5000 * k
  }

  datatype SealEnd = Sealed(polls: nat) | SealFailed(polls: nat) | SealTimedOut(polls: nat)

  function UpperStatus(p: StatusPoll): string {
    if p.success && p.status.Some? then Upper(p.status.value) else ""
  }

  /** The loop from round `k`. */
  function SealFrom(c: SealChain, timeoutSeconds: int, k: nat): (r: SealEnd)
    requires SleepsFiveSeconds(c)
    ensures r.polls >= k
    ensures r.Sealed? ==> UpperStatus(c.poll(r.polls)) == "SEALED"
    ensures r.SealFailed? ==> UpperStatus(c.poll(r.polls)) == "FAILED"
    ensures r.SealTimedOut? ==> c.elapsedMs(r.polls) >= timeoutSeconds * 1000
    ensures forall j :: k <= j < r.polls ==> (c.elapsedMs(j) < timeoutSeconds * 1000
              && UpperStatus(c.poll(j)) != "SEALED" && UpperStatus(c.poll(j)) != "FAILED")
    decreases timeoutSeconds * 1000 - 5000 * k
  {
    if c.elapsedMs(k) >= timeoutSeconds * 1000 then SealTimedOut(k)
    else if UpperStatus(c.poll(k)) == "SEALED" then Sealed(k)
    else if UpperStatus(c.poll(k)) == "FAILED" then SealFailed(k)
    else SealFrom(c, timeoutSeconds, k + 1)
  }

  /** `wait_for_transaction_seal` / `waitForTransactionSeal`. */
  method WaitForSeal(c: SealChain, timeoutSeconds: int) returns (r: SealEnd)
    requires SleepsFiveSeconds(c)
    ensures r == SealFrom(c, timeoutSeconds, 0)
  {
    var k: nat := 0;
    while c.elapsedMs(k) < timeoutSeconds * 1000
      invariant SealFrom(c, timeoutSeconds, k) == SealFrom(c, timeoutSeconds, 0)
      decreases timeoutSeconds * 1000 - 5000 * k
    {
      var status := UpperStatus(c.poll(k));
      if status == "SEALED" {
        return Sealed(k);
      } else if status == "FAILED" {
        return SealFailed(k);
      }
      k := k + 1;
    }
    r := SealTimedOut(k);
  }

  /** The result the wait returns. */
  function SealResult(txId: string, timeoutSeconds: int, e: SealEnd)
    : (r: Option<string>)
    ensures e.Sealed? <==> r.None?
    ensures e.SealFailed? ==> r == Some("Transaction " + txId + " failed")
    ensures e.SealTimedOut? ==> r == Some("Transaction " + txId + " did not seal within "
                                          + IntToString(timeoutSeconds) + " seconds")
  {
    match e
    case Sealed(_) => None
    case SealFailed(_) => Some("Transaction " + txId + " failed")
    case SealTimedOut(_) =>
      Some("Transaction " + txId + " did not seal within " + IntToString(timeoutSeconds) + " seconds")
  }
}

=== FILE: identifiers.dfy ===
/** Wallet identifiers of the command-line tools (`src/python/cli/core.py`):
    Flow addresses, UUIDs (the textual form of section 3 of RFC 4122), the
    address normal form, and `resolve_wallet` over the production
    configuration, the key files and the wallet table.
 */
module Identifiers {
  import opened Wrappers
  import opened Text

  // ---------------------------------------------------------------------
  // Recognisers
  // ---------------------------------------------------------------------

  /** `addr.replace('0x', '')` when `addr` starts with `0x`: the leading
      marker goes, and so does every later one. */
  function Clean(addr: string): (r: string)
    ensures !StartsWith(addr, "0x") ==> r == addr
    ensures StartsWith(addr, "0x") ==> r == RemoveAll(addr[2..], "0x") && |r| <= |addr| - 2
  {
    if StartsWith(addr, "0x") then RemoveAll(addr, "0x") else addr
  }

  /** Prefixing text free of the marker with `0x` and cleaning it gives
      the text back. */
  lemma CleanPrefixed(h: string)
    requires !Contains(h, "0x")
    ensures Clean("0x" + h) == h && Clean(h) == h
  {
    assert ("0x" + h)[..2] == "0x" && ("0x" + h)[2..] == h;
    RemoveAllAbsent(h, "0x");
  }

  /** `is_flow_address`: sixteen hex digits, in any case, once every `0x`
      of a prefixed text is removed. */
  predicate IsFlowAddress(s: string) {
    |Clean(s)| == 16 && AllHex(Clean(s))
  }

  /** The 8-4-4-4-12 grouping of hex digits. */
  predicate UuidShape(s: string) {
    && |s| == 36
    && (forall i :: 0 <= i < 36 ==> (if i in {8, 13, 18, 23} then s[i] == '-' else IsHexChar(s[i])))
  }

  /** `is_uuid` (and `_is_valid_wallet_id` on a string): `re.match` with
      `$`, which also accepts a single newline at the end. */
  predicate IsUuid(s: string) {
    UuidShape(s) || (|s| == 37 && s[36] == '\n' && UuidShape(s[..36]))
  }

  /** A recognised UUID differs from its canonical text at most by a final
      newline. */
  lemma UuidNewline(s: string)
    requires UuidShape(s)
    ensures IsUuid(s) && IsUuid(s + "\n") && !IsUuid(s + "\n\n")
  {
    assert (s + "\n")[..36] == s;
  }

  /** The hex digits never hold the `0x` marker. */
  lemma {:induction false} HexHasNoMarker(s: string)
    requires AllHex(s)
    ensures !Contains(s, "0x")
    decreases |s|
  {
    if |s| >= 2 {
      assert IsHexChar(s[1]);
      assert s[..2] != "0x" by {
        assert s[..2][1] == s[1];
      }
    }
    if |s| > 0 {
      assert AllHex(s[1..]) by {
        forall i | 0 <= i < |s[1..]|
          ensures IsHexChar(s[1..][i])
        {
          assert s[1..][i] == s[i + 1];
        }
      }
      HexHasNoMarker(s[1..]);
    }
  }

  // ---------------------------------------------------------------------
  // Normal form
  // ---------------------------------------------------------------------

  /** `normalize_address`: `0x` and the cleaned text when that has sixteen
      characters, the input itself otherwise, and `''` for `''`. */
  function NormalizeAddress(addr: string): (r: string)
    ensures addr == "" ==> r == ""
    ensures |Clean(addr)| == 16 && addr != "" ==> r == "0x" + Clean(addr)
    ensures |Clean(addr)| != 16 ==> r == addr
  {
    if addr == "" then ""
    else if |Clean(addr)| == 16 then "0x" + Clean(addr)
    else addr
  }

  /** Normalising twice is normalising once. */
  lemma NormalizeIdempotent(addr: string)
    ensures NormalizeAddress(NormalizeAddress(addr)) == NormalizeAddress(addr)
  {
    var clean := Clean(addr);
    if addr != "" && |clean| == 16 {
      var n := "0x" + clean;
      assert n[..2] == "0x";
      assert n[2..] == clean;
      assert Clean(n) == RemoveAll(clean, "0x");
    }
  }

  /** An address normalises to `0x` and its sixteen hex digits, which is
      again an address. */
  lemma NormalizeAddressForm(addr: string)
    requires IsFlowAddress(addr)
    ensures NormalizeAddress(addr) == "0x" + Clean(addr)
    ensures IsFlowAddress(NormalizeAddress(addr))
    ensures Clean(NormalizeAddress(addr)) == Clean(addr)
  {
    var clean := Clean(addr);
    var n := "0x" + clean;
    assert n[..2] == "0x";
    assert n[2..] == clean;
    HexHasNoMarker(clean);
    RemoveAllAbsent(clean, "0x");
  }

  /** Every `0x` of a prefixed text goes, so a doubled prefix is accepted
      and dropped. */
  lemma DoubledPrefix(h: string)
    requires |h| == 16 && AllHex(h)
    ensures IsFlowAddress("0x0x" + h) && NormalizeAddress("0x0x" + h) == "0x" + h
  {
    var s := "0x0x" + h;
    assert s[..2] == "0x" && s[2..] == "0x" + h;
    assert ("0x" + h)[..2] == "0x" && ("0x" + h)[2..] == h;
    HexHasNoMarker(h);
    RemoveAllAbsent(h, "0x");
    assert RemoveAll("0x" + h, "0x") == h;
    assert RemoveAll(s, "0x") == RemoveAll("0x" + h, "0x");
    assert Clean(s) == h;
  }

  // ---------------------------------------------------------------------
  // Stores
  // ---------------------------------------------------------------------

  /** A production-configuration account: its address (`''` when absent or
      null) and the `location` of its key object, if any. */
  datatype ProdEntry = ProdEntry(address: string, keyLocation: Option<string>)

  /** A wallet-table row; `None` is an absent column. */
  datatype Row = Row(flowAddress: Option<string>, privateKey: Option<string>)

  /** The stores `resolve_wallet` reads.
      - `accounts`: the configuration's accounts in file order (empty when
        the file or the member is absent);
      - `files`: the text of each existing file, by full path;
      - `database`: the first row for a `flow_address` and for an
        `auth_id`, or `None` when the credentials are not set;
      - `plainKey`: `get_plain_private_key` on a stored key (an `Err` is
        an exception). */
  datatype Stores = Stores(flowDir: string, pkeysDir: string,
                           accounts: seq<(string, ProdEntry)>,
                           files: map<string, string>,
                           database: Option<(string -> Option<Row>, string -> Option<Row>)>,
                           plainKey: string -> Result<Option<string>, string>)

  /** `os.path.join(FLOW_DIR, p)` unless `p` is absolute. */
  function FullPath(st: Stores, p: string): string {
    if StartsWith(p, "/") then p else st.flowDir + "/" + p
  }

  /** The stripped text of the entry's key file, when it has a location
      and the file exists. */
  function EntryKey(st: Stores, e: ProdEntry): (r: Option<string>)
    ensures r.Some? <==> Truthy(e.keyLocation) && FullPath(st, e.keyLocation.value) in st.files
    ensures r.Some? ==> r.value == Strip(st.files[FullPath(st, e.keyLocation.value)])
  {
    if Truthy(e.keyLocation) && FullPath(st, e.keyLocation.value) in st.files then
      Some(Strip(st.files[FullPath(st, e.keyLocation.value)]))
    else None
  }

  /** An entry whose address normalises to `addr` and whose key file
      exists. */
  predicate KeyedMatch(st: Stores, e: ProdEntry, addr: string) {
    e.address != "" && NormalizeAddress(e.address) == addr && EntryKey(st, e).Some?
  }

  /** Entry `i` is the first keyed match for the address from position
      `k`. */
  ghost predicate FirstKeyedAt(st: Stores, addr: string, k: nat, i: nat) {
    && k <= i < |st.accounts|
    && KeyedMatch(st, st.accounts[i].1, addr)
    && forall j :: k <= j < i ==> !KeyedMatch(st, st.accounts[j].1, addr)
  }

  /** The loop over the configuration for an address: the key of the
      first keyed match from position `k`. */
  function ConfigKeyFrom(st: Stores, addr: string, k: nat): (r: Option<string>)
    requires k <= |st.accounts|
    ensures r.None? <==> forall i :: k <= i < |st.accounts| ==> !KeyedMatch(st, st.accounts[i].1, addr)
    ensures r.Some? ==> exists i: nat :: FirstKeyedAt(st, addr, k, i) && r == EntryKey(st, st.accounts[i].1)
    decreases |st.accounts| - k
  {
    if k == |st.accounts| then None
    else if KeyedMatch(st, st.accounts[k].1, addr) then
      assert FirstKeyedAt(st, addr, k, k);
      EntryKey(st, st.accounts[k].1)
    else
      var r := ConfigKeyFrom(st, addr, k + 1);
      SkipUnkeyed(st, addr, k, r);
      r
  }

  /** An entry that is not a keyed match does not change what the scan
      from the next position found. */
  lemma SkipUnkeyed(st: Stores, addr: string, k: nat, r: Option<string>)
    requires k < |st.accounts| && !KeyedMatch(st, st.accounts[k].1, addr)
    requires r.None? <==> forall i :: k + 1 <= i < |st.accounts| ==> !KeyedMatch(st, st.accounts[i].1, addr)
    requires r.Some? ==> exists i: nat :: FirstKeyedAt(st, addr, k + 1, i) && r == EntryKey(st, st.accounts[i].1)
    ensures r.None? <==> forall i :: k <= i < |st.accounts| ==> !KeyedMatch(st, st.accounts[i].1, addr)
    ensures r.Some? ==> exists i: nat :: FirstKeyedAt(st, addr, k, i) && r == EntryKey(st, st.accounts[i].1)
  {
    NoneFromNext(st, addr, k);
    if r.Some? {
      var i: nat :| FirstKeyedAt(st, addr, k + 1, i) && r == EntryKey(st, st.accounts[i].1);
      FirstFromNext(st, addr, k, i);
    }
  }

  lemma NoneFromNext(st: Stores, addr: string, k: nat)
    requires k < |st.accounts| && !KeyedMatch(st, st.accounts[k].1, addr)
    ensures (forall i :: k + 1 <= i < |st.accounts| ==> !KeyedMatch(st, st.accounts[i].1, addr))
            <==> (forall i :: k <= i < |st.accounts| ==> !KeyedMatch(st, st.accounts[i].1, addr))
  {
  }

  lemma FirstFromNext(st: Stores, addr: string, k: nat, i: nat)
    requires k < |st.accounts| && !KeyedMatch(st, st.accounts[k].1, addr)
    requires FirstKeyedAt(st, addr, k + 1, i)
    ensures FirstKeyedAt(st, addr, k, i)
  {
  }

  /** `get_plain_private_key` on a row, falling back on the stored value
      when it raises: nothing for an empty column, the decrypted (or
      plain) key otherwise. */
  function RowKey(st: Stores, row: Row): (r: Option<string>)
    ensures !Truthy(row.privateKey) ==> r.None?
    ensures Truthy(row.privateKey) && st.plainKey(row.privateKey.value).Ok? ==>
              r == st.plainKey(row.privateKey.value).value
    ensures Truthy(row.privateKey) && st.plainKey(row.privateKey.value).Err? ==> r == row.privateKey
  {
    if !Truthy(row.privateKey) then None
    else
      match st.plainKey(row.privateKey.value)
      case Ok(pk) => pk
      case Err(_) => row.privateKey
  }

  /** Entry `i` is the last one with this name. */
  predicate LastNamedAt(entries: seq<(string, ProdEntry)>, name: string, i: int) {
    && 0 <= i < |entries|
    && entries[i].0 == name
    && forall j :: i < j < |entries| ==> entries[j].0 != name
  }

  /** The config entry with this name; a JSON object that names a member
      twice keeps the last value. */
  function Lookup(entries: seq<(string, ProdEntry)>, name: string): (r: Option<ProdEntry>)
    ensures r.None? <==> forall i :: 0 <= i < |entries| ==> entries[i].0 != name
    ensures r.Some? ==> exists i :: LastNamedAt(entries, name, i) && r.value == entries[i].1
    decreases |entries|
  {
    if |entries| == 0 then None
    else if entries[|entries| - 1].0 == name then
      assert LastNamedAt(entries, name, |entries| - 1);
      Some(entries[|entries| - 1].1)
    else
      var r := Lookup(entries[..|entries| - 1], name);
      assert r.Some? ==> exists i :: LastNamedAt(entries, name, i) && r.value == entries[i].1 by {
        if r.Some? {
          var i :| LastNamedAt(entries[..|entries| - 1], name, i) && r.value == entries[..|entries| - 1][i].1;
          assert LastNamedAt(entries, name, i);
        }
      }
      r
  }

  // ---------------------------------------------------------------------
  // resolve_wallet
  // ---------------------------------------------------------------------

  const IDENTIFIER_REQUIRED := "Wallet identifier is required"

  /** The address branch. */
  function ResolveAddress(st: Stores, addr: string, requireKey: bool): (r: (string, Option<string>))
    ensures r.0 == addr
    ensures !requireKey ==> r.1.None?
    ensures requireKey && ConfigKeyFrom(st, addr, 0).Some? ==> r.1 == ConfigKeyFrom(st, addr, 0)
    ensures requireKey && ConfigKeyFrom(st, addr, 0).None? ==>
              r.1 == DatabaseKey(st, if st.database.Some? then st.database.value.0(RemoveAll(addr, "0x")) else None)
  {
    if !requireKey then (addr, None)
    else match ConfigKeyFrom(st, addr, 0)
      case Some(pk) => (addr, Some(pk))
      case None =>
        if st.database.None? then (addr, None)
        else match st.database.value.0(RemoveAll(addr, "0x"))
          case Some(row) =>
            if Truthy(row.privateKey) then
              match st.plainKey(row.privateKey.value)
              case Ok(pk) => if Truthy(pk) then (addr, pk) else (addr, row.privateKey)
              case Err(_) => (addr, row.privateKey)
            else (addr, None)
          case None => (addr, None)
  }

  /** The key the address branch takes from the wallet row for the
      address: the usable decrypted key, else the stored value, and
      nothing without a row or with an empty column. */
  function DatabaseKey(st: Stores, row: Option<Row>): (r: Option<string>)
    ensures row.None? || !Truthy(row.value.privateKey) ==> r.None?
    ensures row.Some? && Truthy(RowKey(st, row.value)) ==> r == RowKey(st, row.value)
    ensures row.Some? && Truthy(row.value.privateKey) && !Truthy(RowKey(st, row.value)) ==>
              r == row.value.privateKey
  {
    match row
    case None => None
    case Some(rw) =>
      if !Truthy(rw.privateKey) then None
      else if Truthy(RowKey(st, rw)) then RowKey(st, rw)
      else rw.privateKey
  }

  /** The database part of the UUID branch. */
  function ResolveUuidInDatabase(st: Stores, id: string, requireKey: bool): (r: Result<(string, Option<string>), string>)
    ensures st.database.None? ==> r.Err?
    ensures r.Err? ==> r.error == "Wallet not found for auth_id: " + id
    ensures !requireKey && r.Ok? ==> r.value.1.None?
    ensures r.Ok? <==> st.database.Some? && st.database.value.1(id).Some?
    ensures r.Ok? ==> var row := st.database.value.1(id).value;
                      r.value.0 == NormalizeAddress(row.flowAddress.GetOr(""))
                      && (requireKey ==> r.value.1 == RowKey(st, row))
  {
    if st.database.None? then Err("Wallet not found for auth_id: " + id)
    else match st.database.value.1(id)
      case None => Err("Wallet not found for auth_id: " + id)
      case Some(row) =>
        var addr := NormalizeAddress(row.flowAddress.GetOr(""));
        Ok((addr, if requireKey && Truthy(row.privateKey) then RowKey(st, row) else None))
  }

  function PkeyFile(st: Stores, id: string): string {
    st.pkeysDir + "/" + id + ".pkey"
  }

  /** The UUID branch: a configured account with an address answers from
      its key file, then `pkeys/<id>.pkey`, then the database; any other
      UUID is looked up in the database alone. */
  function ResolveUuid(st: Stores, id: string, requireKey: bool): (r: Result<(string, Option<string>), string>)
    ensures (Lookup(st.accounts, id).None? || Lookup(st.accounts, id).value.address == "") ==>
              r == ResolveUuidInDatabase(st, id, requireKey)
    ensures Lookup(st.accounts, id).Some? && Lookup(st.accounts, id).value.address != "" ==> r.Ok?
    ensures var e := Lookup(st.accounts, id);
            e.Some? && e.value.address != "" && Truthy(EntryKey(st, e.value)) ==>
              r == Ok((NormalizeAddress(e.value.address), EntryKey(st, e.value)))
    ensures var e := Lookup(st.accounts, id);
            e.Some? && e.value.address != "" && !requireKey ==>
              r == Ok((NormalizeAddress(e.value.address), EntryKey(st, e.value)))
    ensures var e := Lookup(st.accounts, id);
            e.Some? && e.value.address != "" && requireKey && !Truthy(EntryKey(st, e.value))
            && PkeyFile(st, id) in st.files && Strip(st.files[PkeyFile(st, id)]) != "" ==>
              r == Ok((NormalizeAddress(e.value.address), Some(Strip(st.files[PkeyFile(st, id)]))))
    ensures var e := Lookup(st.accounts, id);
            e.Some? && e.value.address != "" && requireKey && !Truthy(EntryKey(st, e.value))
            && (PkeyFile(st, id) !in st.files || Strip(st.files[PkeyFile(st, id)]) == "")
            && st.database.Some? && st.database.value.1(id).Some? ==>
              var row := st.database.value.1(id).value;
              r == Ok((NormalizeAddress(row.flowAddress.GetOr(NormalizeAddress(e.value.address))), RowKey(st, row)))
    ensures var e := Lookup(st.accounts, id);
            e.Some? && e.value.address != "" && requireKey && !Truthy(EntryKey(st, e.value))
            && (PkeyFile(st, id) !in st.files || Strip(st.files[PkeyFile(st, id)]) == "")
            && (st.database.None? || st.database.value.1(id).None?) ==>
              r == Ok((NormalizeAddress(e.value.address),
                       if PkeyFile(st, id) in st.files then Some("") else EntryKey(st, e.value)))
  {
    match Lookup(st.accounts, id)
    case Some(acc) =>
      if acc.address != "" then
        var addr := NormalizeAddress(acc.address);
        var fromConfig := EntryKey(st, acc);
        var pk := if !Truthy(fromConfig) && requireKey && PkeyFile(st, id) in st.files
                  then Some(Strip(st.files[PkeyFile(st, id)])) else fromConfig;
        if !Truthy(pk) && requireKey && st.database.Some? then
          match st.database.value.1(id)
          case Some(row) => Ok((NormalizeAddress(row.flowAddress.GetOr(addr)), RowKey(st, row)))
          case None => Ok((addr, pk))
        else Ok((addr, pk))
      else ResolveUuidInDatabase(st, id, requireKey)
    case None => ResolveUuidInDatabase(st, id, requireKey)
  }

  /** `resolve_wallet`. */
  function ResolveWallet(st: Stores, identifier: string, requireKey: bool): (r: Result<(string, Option<string>), string>)
    ensures identifier == "" ==> r == Err(IDENTIFIER_REQUIRED)
    ensures identifier != "" && IsFlowAddress(Strip(identifier)) ==>
              r == Ok(ResolveAddress(st, NormalizeAddress(Strip(identifier)), requireKey))
    ensures identifier != "" && IsFlowAddress(Strip(identifier)) ==>
              r.Ok? && r.value.0 == NormalizeAddress(Strip(identifier))
    ensures identifier != "" && !IsFlowAddress(Strip(identifier)) && IsUuid(Strip(identifier)) ==>
              r == ResolveUuid(st, Strip(identifier), requireKey)
    ensures identifier != "" && IsFlowAddress(Strip(identifier)) && !requireKey ==> r.value.1.None?
    ensures identifier != "" && !IsFlowAddress(Strip(identifier)) && !IsUuid(Strip(identifier)) ==>
              r == Err("Invalid wallet identifier: " + Strip(identifier))
  {
    if identifier == "" then Err(IDENTIFIER_REQUIRED)
    else
      var id := Strip(identifier);
      if IsFlowAddress(id) then Ok(ResolveAddress(st, NormalizeAddress(id), requireKey))
      else if IsUuid(id) then ResolveUuid(st, id, requireKey)
      else Err("Invalid wallet identifier: " + id)
  }

  /** A normalised address is its own stripped, normalised form. */
  lemma NormalFormFixed(id: string)
    requires IsFlowAddress(id)
    ensures var a := NormalizeAddress(id);
            a != "" && Strip(a) == a && IsFlowAddress(a) && NormalizeAddress(a) == a
  {
    NormalizeAddressForm(id);
    NormalizeIdempotent(id);
    var a := NormalizeAddress(id);
    assert a[0] == '0' && a[|a| - 1] == Clean(id)[15];
    assert IsHexChar(Clean(id)[15]);
    StripUnpadded(a);
  }

  /** Resolving the address a resolution returned gives it back. */
  lemma ResolveStable(st: Stores, identifier: string)
    requires identifier != "" && IsFlowAddress(Strip(identifier))
    ensures var a := ResolveWallet(st, identifier, false).value.0;
            ResolveWallet(st, a, false) == Ok((a, None))
  {
    NormalFormFixed(Strip(identifier));
  }

  /** A UUID that is neither configured nor in the database is not found. */
  lemma UnknownUuidNotFound(st: Stores, id: string, requireKey: bool)
    requires UuidShape(id)
    requires forall i :: 0 <= i < |st.accounts| ==> st.accounts[i].0 != id
    requires st.database.None?
    ensures ResolveWallet(st, id, requireKey) == Err("Wallet not found for auth_id: " + id)
  {
    assert Strip(id) == id by {
      assert IsHexChar(id[0]) && IsHexChar(id[35]);
      StripUnpadded(id);
    }
    assert !IsFlowAddress(id) by {
      assert IsHexChar(id[1]);
      assert !StartsWith(id, "0x");
    }
    assert IsUuid(id);
    assert Lookup(st.accounts, id).None?;
    assert ResolveUuid(st, id, requireKey) == ResolveUuidInDatabase(st, id, requireKey);
  }

  /** Whether a position holds a keyed match does not depend on the
      database, so neither does the config scan. */
  lemma {:induction false} ConfigKeyIgnoresDatabase(st: Stores, db: Option<(string -> Option<Row>, string -> Option<Row>)>,
                                                    addr: string, k: nat)
    requires k <= |st.accounts|
    ensures ConfigKeyFrom(st.(database := db), addr, k) == ConfigKeyFrom(st, addr, k)
    decreases |st.accounts| - k
  {
    if k < |st.accounts| {
      KeyedMatchIgnoresDatabase(st, db, st.accounts[k].1, addr);
      ConfigKeyIgnoresDatabase(st, db, addr, k + 1);
    }
  }

  /** An entry's key file, and so whether it is a keyed match, does not
      depend on the database. */
  lemma KeyedMatchIgnoresDatabase(st: Stores, db: Option<(string -> Option<Row>, string -> Option<Row>)>,
                                  e: ProdEntry, addr: string)
    ensures EntryKey(st.(database := db), e) == EntryKey(st, e)
    ensures KeyedMatch(st.(database := db), e, addr) == KeyedMatch(st, e, addr)
  {
  }

  /** A key file named in the configuration for the address wins: the
      wallet table is not consulted, whatever it holds. */
  lemma ConfigKeyWinsOverDatabase(st: Stores, db: Option<(string -> Option<Row>, string -> Option<Row>)>, addr: string)
    requires ConfigKeyFrom(st, addr, 0).Some?
    ensures ResolveAddress(st.(database := db), addr, true) == ResolveAddress(st, addr, true)
    ensures ResolveAddress(st, addr, true) == (addr, ConfigKeyFrom(st, addr, 0))
  {
    ConfigKeyIgnoresDatabase(st, db, addr, 0);
  }

  /** For a configured account, a non-empty key file of its own or under
      `pkeys/` wins over the wallet table. */
  lemma UuidFileKeyWinsOverDatabase(st: Stores, db: Option<(string -> Option<Row>, string -> Option<Row>)>,
                                    id: string, requireKey: bool)
    requires Lookup(st.accounts, id).Some? && Lookup(st.accounts, id).value.address != ""
    requires Truthy(EntryKey(st, Lookup(st.accounts, id).value))
             || (PkeyFile(st, id) in st.files && Strip(st.files[PkeyFile(st, id)]) != "")
    ensures ResolveUuid(st.(database := db), id, requireKey) == ResolveUuid(st, id, requireKey)
  {
    var e := Lookup(st.accounts, id).value;
    assert EntryKey(st.(database := db), e) == EntryKey(st, e);
  }
}

=== FILE: js_values.dfy ===
/** JavaScript values as the TypeScript and JavaScript wrappers inspect
    them: truthiness, `typeof` and `String(v)`.

    Numbers are integers here: fractional and exponent renderings of
    `String(n)` are not modelled.
 */
module JsValues {
  import opened Text

  datatype JsValue =
    | JsUndefined
    | JsNull
    | JsBool(b: bool)
    | JsNumber(n: int)
    | JsString(s: string)
    | JsArray(items: seq<JsValue>)
    | JsFunction(id: nat)
    | JsObject(id: nat)

  /** `!!v`: arrays, functions and objects are truthy even when empty. */
  predicate JsTruthy(v: JsValue) {
    match v
    case JsUndefined => false
    case JsNull => false
    case JsBool(b) => b
    case JsNumber(n) => n != 0
    case JsString(s) => s != ""
    case _ => true
  }

  /** `String(v)`; an array joins its elements' strings with commas,
      `null` and `undefined` elements giving the empty text. A function's
      `String` is its source text, which the model does not have: it
      stands in as "function". */
  function ToStr(v: JsValue): string
    decreases v, 0
  {
    match v
    case JsUndefined => "undefined"
    case JsNull => "null"
    case JsBool(b) => if b then "true" else "false"
    case JsNumber(n) => IntToString(n)
    case JsString(s) => s
    case JsArray(items) => Join(seq(|items|, i requires 0 <= i < |items| => ElementStr(items[i])), ",")
    case JsFunction(_) => "function"
    case JsObject(_) => "[object Object]"
  }

  function ElementStr(v: JsValue): string
    decreases v, 1
  {
    if v.JsUndefined? || v.JsNull? then "" else ToStr(v)
  }
}

=== FILE: json.dfy ===
/** JSON values as the Python services build and read them. */
module Json {
  datatype Field =
    | FNull
    | FBool(b: bool)
    | FInt(i: int)
    | FText(s: string)
    | FList(items: seq<Field>)
    | FDict(entries: map<string, Field>)

  type Dict = map<string, Field>

  /** Python truthiness: null, false, zero and empty values are false. */
  predicate FieldTruthy(f: Field) {
    match f
    case FNull => false
    case FBool(b) => b
    case FInt(i) => i != 0
    case FText(s) => s != ""
    case FList(items) => |items| > 0
    case FDict(entries) => |entries| > 0
  }
}

=== FILE: node_adapter.dfy ===
/** The bridge from Python to the compiled TypeScript CLI
    (`src/python/flow_node_adapter.py`): payloads, the command line, and
    the reading of the CLI's output.

    The file-system check, JSON serialisation and parsing, and the process
    run are parameters.
 */
module NodeAdapter {
  import opened Wrappers
  import opened Text
  import opened Json
  import Bytes
  import Base64

  const CLI_NOT_BUILT := "TypeScript CLI not built. Run: npm run build"
  const NO_JSON := "No valid JSON found in stdout: "
  const PAYLOAD_FLAG := "--payload="
  /** The `TimeoutExpired` that `_run` lets through when the CLI outlives
      the 300 seconds `subprocess.run` gives it. */
  const TIMEOUT_EXPIRED := "TimeoutExpired: timed out after 300 seconds"

  // ---------------------------------------------------------------------
  // Payloads
  // ---------------------------------------------------------------------

  /** `payload.setdefault('flowDir', ...)`: a given `flowDir` is kept. */
  function WithFlowDir(payload: Dict, flowDir: string): (r: Dict)
    ensures r.Keys == payload.Keys + {"flowDir"}
    ensures forall k :: k in payload ==> r[k] == payload[k]
    ensures "flowDir" !in payload ==> r["flowDir"] == FText(flowDir)
  {
    if "flowDir" in payload then payload else payload["flowDir" := FText(flowDir)]
  }

  lemma WithFlowDirIdempotent(payload: Dict, a: string, b: string)
    ensures WithFlowDir(WithFlowDir(payload, a), b) == WithFlowDir(payload, a)
  {
  }

  /** The command line: `node <cli> <command> --payload=<base64 JSON>`. */
  function CommandLine(cli: string, command: string, payload: Dict, dumps: Dict -> seq<Bytes.byte>): (r: seq<string>)
    ensures |r| == 4 && r[0] == "node" && r[1] == cli && r[2] == command
    ensures StartsWith(r[3], PAYLOAD_FLAG)
  {
    ["node", cli, command, PAYLOAD_FLAG + Base64.Encode(dumps(payload))]
  }

  /** The CLI reads back exactly the serialised payload. */
  lemma PayloadRoundTrip(cli: string, command: string, payload: Dict, dumps: Dict -> seq<Bytes.byte>)
    ensures var arg := CommandLine(cli, command, payload, dumps)[3];
            Base64.Decode(arg[|PAYLOAD_FLAG|..]) == Some(dumps(payload))
  {
    var enc := Base64.Encode(dumps(payload));
    assert (PAYLOAD_FLAG + enc)[|PAYLOAD_FLAG|..] == enc;
    Base64.DecodeEncode(dumps(payload));
  }

  function ArgsOr(args: Option<seq<Field>>): seq<Field> {
    if args.Some? then args.value else []
  }

  function DictOr(d: Option<Dict>): Dict {
    if d.Some? then d.value else map[]
  }

  /** The `execute_script` payload. */
  function ScriptPayload(scriptPath: string, args: Option<seq<Field>>, network: string): (r: Dict)
    ensures r.Keys == {"scriptPath", "args", "network"}
    ensures r["scriptPath"] == FText(scriptPath) && r["args"] == FList(ArgsOr(args)) && r["network"] == FText(network)
  {
    map["scriptPath" := FText(scriptPath), "args" := FList(ArgsOr(args)), "network" := FText(network)]
  }

  function TextList(xs: seq<string>): (r: seq<Field>)
    ensures |r| == |xs| && forall i :: 0 <= i < |xs| ==> r[i] == FText(xs[i])
  {
    seq(|xs|, i requires 0 <= i < |xs| => FText(xs[i]))
  }

  /** The wallet ids a send payload carries: each only when truthy. */
  function WithWalletIds(payload: Dict, proposer: Option<string>, payer: Option<string>,
                         authorizers: Option<seq<string>>): (r: Dict)
    ensures r.Keys == payload.Keys
                      + (if Truthy(proposer) then {"proposerWalletId"} else {})
                      + (if Truthy(payer) then {"payerWalletId"} else {})
                      + (if authorizers.Some? && authorizers.value != [] then {"authorizerWalletIds"} else {})
    ensures forall k :: k in payload && k !in {"proposerWalletId", "payerWalletId", "authorizerWalletIds"} ==> r[k] == payload[k]
    ensures Truthy(proposer) ==> r["proposerWalletId"] == FText(proposer.value)
    ensures Truthy(payer) ==> r["payerWalletId"] == FText(payer.value)
    ensures authorizers.Some? && authorizers.value != [] ==> r["authorizerWalletIds"] == FList(TextList(authorizers.value))
  {
    var p1 := if Truthy(proposer) then payload["proposerWalletId" := FText(proposer.value)] else payload;
    var p2 := if Truthy(payer) then p1["payerWalletId" := FText(payer.value)] else p1;
    if authorizers.Some? && authorizers.value != [] then p2["authorizerWalletIds" := FList(TextList(authorizers.value))] else p2
  }

  /** The `send_transaction` payload. */
  function SendPayload(transactionPath: string, args: Option<seq<Field>>, roles: Option<Dict>, network: string,
                       proposer: Option<string>, payer: Option<string>, authorizers: Option<seq<string>>): (r: Dict)
    ensures r.Keys == {"transactionPath", "args", "roles", "network"}
                      + (if Truthy(proposer) then {"proposerWalletId"} else {})
                      + (if Truthy(payer) then {"payerWalletId"} else {})
                      + (if authorizers.Some? && authorizers.value != [] then {"authorizerWalletIds"} else {})
    ensures "privateKeys" !in r
    ensures "transactionPath" in r && r["transactionPath"] == FText(transactionPath)
    ensures "args" in r && r["args"] == FList(ArgsOr(args))
    ensures "roles" in r && r["roles"] == FDict(DictOr(roles))
    ensures "network" in r && r["network"] == FText(network)
    ensures Truthy(proposer) ==> "proposerWalletId" in r && r["proposerWalletId"] == FText(proposer.value)
    ensures Truthy(payer) ==> "payerWalletId" in r && r["payerWalletId"] == FText(payer.value)
    ensures authorizers.Some? && authorizers.value != [] ==>
              "authorizerWalletIds" in r && r["authorizerWalletIds"] == FList(TextList(authorizers.value))
  {
    var base := map["transactionPath" := FText(transactionPath), "args" := FList(ArgsOr(args)),
                    "roles" := FDict(DictOr(roles)), "network" := FText(network)];
    assert base.Keys == {"transactionPath", "args", "roles", "network"};
    WithWalletIds(base, proposer, payer, authorizers)
  }

  /** The `send_transaction_with_private_key` payload. */
  function SendWithKeysPayload(transactionPath: string, args: Option<seq<Field>>, roles: Option<Dict>, network: string,
                               privateKeys: Option<Dict>, proposer: Option<string>, payer: Option<string>,
                               authorizers: Option<seq<string>>): (r: Dict)
    ensures "privateKeys" in r && r["privateKeys"] == FDict(DictOr(privateKeys))
  {
    WithWalletIds(map["transactionPath" := FText(transactionPath), "args" := FList(ArgsOr(args)),
                      "roles" := FDict(DictOr(roles)), "network" := FText(network),
                      "privateKeys" := FDict(DictOr(privateKeys))],
                  proposer, payer, authorizers)
  }

  /** The private-key variant sends the plain payload plus the keys, an
      empty map when none are given. */
  lemma WithKeysExtendsPlain(transactionPath: string, args: Option<seq<Field>>, roles: Option<Dict>, network: string,
                             privateKeys: Option<Dict>, proposer: Option<string>, payer: Option<string>,
                             authorizers: Option<seq<string>>)
    ensures SendWithKeysPayload(transactionPath, args, roles, network, privateKeys, proposer, payer, authorizers)
            == SendPayload(transactionPath, args, roles, network, proposer, payer, authorizers)["privateKeys" := FDict(DictOr(privateKeys))]
  {
    var base := map["transactionPath" := FText(transactionPath), "args" := FList(ArgsOr(args)),
                     "roles" := FDict(DictOr(roles)), "network" := FText(network)];
    WalletIdsCommute(base, "privateKeys", FDict(DictOr(privateKeys)), proposer, payer, authorizers);
  }

  /** Setting a member other than a wallet id before or after adding the
      wallet ids gives the same payload. */
  lemma WalletIdsCommute(payload: Dict, k: string, v: Field, proposer: Option<string>, payer: Option<string>,
                         authorizers: Option<seq<string>>)
    requires k !in {"proposerWalletId", "payerWalletId", "authorizerWalletIds"}
    ensures WithWalletIds(payload[k := v], proposer, payer, authorizers)
            == WithWalletIds(payload, proposer, payer, authorizers)[k := v]
  {
    var a := WithWalletIds(payload[k := v], proposer, payer, authorizers);
    var b := WithWalletIds(payload, proposer, payer, authorizers)[k := v];
    assert a.Keys == b.Keys;
    assert forall j :: j in a ==> a[j] == b[j];
  }

  // ---------------------------------------------------------------------
  // Reading the output
  // ---------------------------------------------------------------------

  /** A line the bridge accepts: once stripped, braces at both ends and
      parseable as a JSON object. */
  predicate IsJsonLine(line: string, parse: string -> Option<Dict>) {
    var t := Strip(line);
    StartsWith(t, "{") && EndsWith(t, "}") && parse(t).Some?
  }

  /** The line test as a value, so the scan below is about any test. */
  function Accepts(parse: string -> Option<Dict>): string -> bool {
    line => IsJsonLine(line, parse)
  }

  /** The last line among the first `k` that passes `ok`. */
  function LastMatching(lines: seq<string>, ok: string -> bool, k: nat): (r: Option<nat>)
    requires k <= |lines|
    ensures r.Some? ==> r.value < k && ok(lines[r.value])
    ensures r.Some? ==> forall j :: r.value < j < k ==> !ok(lines[j])
    ensures r.None? ==> forall j :: 0 <= j < k ==> !ok(lines[j])
    decreases k
  {
    if k == 0 then None
    else if ok(lines[k - 1]) then Some(k - 1)
    else LastMatching(lines, ok, k - 1)
  }

  /** The scan of `_run` from the last line to the first. */
  method PickJsonLine(lines: seq<string>, ok: string -> bool) returns (r: Option<nat>)
    ensures r == LastMatching(lines, ok, |lines|)
  {
    var k := |lines|;
    while k > 0
      invariant 0 <= k <= |lines|
      invariant LastMatching(lines, ok, |lines|) == LastMatching(lines, ok, k)
      decreases k
    {
      if ok(lines[k - 1]) {
        return Some(k - 1);
      }
      k := k - 1;
    }
    return None;
  }

  /** How the CLI process ended: its captured output and exit code, or
      killed after 300 seconds. */
  datatype Process =
    | Process(stdout: Option<string>, stderr: Option<string>, returncode: int)
    | Expired

  /** What `_run` returns: the short failure for an empty output, or the
      fields read from the reply line. */
  datatype NodeResult =
    | NoOutput(stderr: string, returncode: int)
    | Replied(success: Field, stdout: string, stderr: string, returncode: int,
              data: Field, transactionId: Field, errorMessage: Field, command: string)

  function Get(d: Dict, k: string, default: Field): Field {
    if k in d then d[k] else default
  }

  /** The result read from a chosen reply: `success` defaults to false,
      the other members to null. */
  function ReplyResult(reply: Dict, stdout: string, stderr: string, returncode: int, command: string): (r: NodeResult)
    ensures r.Replied? && r.stdout == stdout && r.stderr == stderr && r.returncode == returncode
    ensures r.success == (if "success" in reply then reply["success"] else FBool(false))
    ensures r.transactionId == (if "transactionId" in reply then reply["transactionId"] else FNull)
    ensures r.errorMessage == (if "errorMessage" in reply then reply["errorMessage"] else FNull)
    ensures r.data == (if "data" in reply then reply["data"] else FNull)
  {
    Replied(Get(reply, "success", FBool(false)), stdout, stderr, returncode,
            Get(reply, "data", FNull), Get(reply, "transactionId", FNull), Get(reply, "errorMessage", FNull),
            command)
  }

  /** `_run` on the stripped output: the short failure for an empty one,
      else the reply from the last JSON line, or an error when there is
      none. */
  function ReadOutput(stdout: string, stderr: string, returncode: int, shown: string,
                      parse: string -> Option<Dict>): (r: Result<NodeResult, string>)
    ensures stdout == "" <==> r == Ok(NoOutput(stderr, returncode))
    ensures r.Err? ==>
              r.error == NO_JSON + stdout
              && forall j :: 0 <= j < |Split(stdout, '\n')| ==> !Accepts(parse)(Split(stdout, '\n')[j])
    ensures r.Ok? && r.value.Replied? ==> r.value.command == shown && r.value.stdout == stdout
  {
    if stdout == "" then Ok(NoOutput(stderr, returncode))
    else ReplyFrom(Split(stdout, '\n'), stdout, stderr, returncode, shown, parse)
  }

  /** The reply from the last JSON line of a non-empty output, or the
      error naming the output when no line is one. */
  function ReplyFrom(lines: seq<string>, stdout: string, stderr: string, returncode: int, shown: string,
                     parse: string -> Option<Dict>): (r: Result<NodeResult, string>)
    ensures r.Err? ==> r.error == NO_JSON + stdout && forall j :: 0 <= j < |lines| ==> !Accepts(parse)(lines[j])
    ensures r.Ok? ==> r.value.Replied? && r.value.command == shown && r.value.stdout == stdout
  {
    match LastMatching(lines, Accepts(parse), |lines|)
    case None => Err(NO_JSON + stdout)
    case Some(i) => Ok(ReplyResult(parse(Strip(lines[i])).value, stdout, stderr, returncode, shown))
  }

  /** A JSON last line is the one read. */
  lemma ReplyFromLast(lines: seq<string>, stdout: string, stderr: string, returncode: int, shown: string,
                      parse: string -> Option<Dict>)
    requires |lines| > 0 && Accepts(parse)(lines[|lines| - 1])
    ensures ReplyFrom(lines, stdout, stderr, returncode, shown, parse)
            == Ok(ReplyResult(parse(Strip(lines[|lines| - 1])).value, stdout, stderr, returncode, shown))
  {
    assert LastMatching(lines, Accepts(parse), |lines|) == Some(|lines| - 1);
  }

  /** `_run` after the process: refused when the CLI is not built, the
      timeout passed on when the process was killed, else the stripped
      output read as above. */
  function RunResult(cliExists: bool, cli: string, command: string, proc: Process,
                     parse: string -> Option<Dict>): (r: Result<NodeResult, string>)
    ensures !cliExists ==> r == Err(CLI_NOT_BUILT)
    ensures cliExists && proc.Expired? ==> r == Err(TIMEOUT_EXPIRED)
    ensures cliExists && proc.Process? ==>
              r == ReadOutput(Strip(proc.stdout.GetOr("")), Strip(proc.stderr.GetOr("")), proc.returncode,
                              "node " + cli + " " + command, parse)
  {
    if !cliExists then Err(CLI_NOT_BUILT)
    else if proc.Expired? then Err(TIMEOUT_EXPIRED)
    else ReadOutput(Strip(proc.stdout.GetOr("")), Strip(proc.stderr.GetOr("")), proc.returncode,
                    "node " + cli + " " + command, parse)
  }

  /** `_run` as the scan computes it. */
  method Run(cliExists: bool, cli: string, command: string, proc: Process,
             parse: string -> Option<Dict>) returns (r: Result<NodeResult, string>)
    ensures r == RunResult(cliExists, cli, command, proc, parse)
  {
    if !cliExists {
      return Err(CLI_NOT_BUILT);
    }
    if proc.Expired? {
      return Err(TIMEOUT_EXPIRED);
    }
    var stdout := Strip(proc.stdout.GetOr(""));
    var stderr := Strip(proc.stderr.GetOr(""));
    if stdout == "" {
      return Ok(NoOutput(stderr, proc.returncode));
    }
    var lines := Split(stdout, '\n');
    var picked := PickJsonLine(lines, Accepts(parse));
    if picked.None? {
      return Err(NO_JSON + stdout);
    }
    var reply := parse(Strip(lines[picked.value])).value;
    return Ok(ReplyResult(reply, stdout, stderr, proc.returncode, "node " + cli + " " + command));
  }

  /** Joined lines are not empty when the last one is not. */
  lemma JoinNotEmpty(parts: seq<string>)
    requires |parts| > 0 && parts[|parts| - 1] != ""
    ensures Join(parts, "\n") != ""
  {
    assert parts == parts[..|parts| - 1] + [parts[|parts| - 1]];
  }

  /** When the last output line is a JSON line, the result is read from
      it. */
  lemma ReadsLastLine(stdout: string, stderr: string, returncode: int, shown: string,
                      parse: string -> Option<Dict>)
    requires stdout != ""
    requires Accepts(parse)(Split(stdout, '\n')[|Split(stdout, '\n')| - 1])
    ensures ReadOutput(stdout, stderr, returncode, shown, parse)
            == Ok(ReplyResult(parse(Strip(Split(stdout, '\n')[|Split(stdout, '\n')| - 1])).value,
                              stdout, stderr, returncode, shown))
  {
    var lines := Split(stdout, '\n');
    assert ReadOutput(stdout, stderr, returncode, shown, parse)
           == ReplyFrom(lines, stdout, stderr, returncode, shown, parse);
    ReplyFromLast(lines, stdout, stderr, returncode, shown, parse);
  }

  /** Log lines and a reply, none holding a newline, split back apart. */
  lemma LinesOfOutput(logs: seq<string>, reply: string)
    requires '\n' !in reply
    requires forall i :: 0 <= i < |logs| ==> '\n' !in logs[i]
    ensures Split(Join(logs + [reply], "\n"), '\n') == logs + [reply]
  {
    var parts := logs + [reply];
    assert forall i :: 0 <= i < |parts| ==> '\n' !in parts[i] by {
      forall i | 0 <= i < |parts|
        ensures '\n' !in parts[i]
      {
        if i < |logs| {
          assert parts[i] == logs[i];
        }
      }
    }
    SplitJoin(parts, '\n');
  }

  /** Log lines before the reply do not matter: when the output ends with
      a JSON line, the result is read from that line. */
  lemma ReplyAfterLogs(logs: seq<string>, reply: string, stderr: string, returncode: int, shown: string,
                       parse: string -> Option<Dict>)
    requires IsJsonLine(reply, parse) && '\n' !in reply
    requires forall i :: 0 <= i < |logs| ==> '\n' !in logs[i]
    ensures var out := Join(logs + [reply], "\n");
            ReadOutput(out, stderr, returncode, shown, parse)
            == Ok(ReplyResult(parse(Strip(reply)).value, out, stderr, returncode, shown))
  {
    var parts := logs + [reply];
    var out := Join(parts, "\n");
    assert Split(out, '\n') == parts by {
      LinesOfOutput(logs, reply);
    }
    assert out != "" by {
      assert parts[|parts| - 1] == reply;
      JoinNotEmpty(parts);
    }
    assert Accepts(parse)(Split(out, '\n')[|Split(out, '\n')| - 1]) by {
      assert parts[|parts| - 1] == reply;
    }
    ReadsLastLine(out, stderr, returncode, shown, parse);
  }
}

=== FILE: py_transaction.dfy ===
/** The Python adapter's transaction path (`flow_py_adapter.py`): access
    node choice, role defaults from wallet ids, role resolution, the
    proposer's sequence number, sealing poll and the result dictionary.

    The access node, the clock and the Flow client are parameters: a
    `Chain` value says what each remote call answers.
 */
module PyTransaction {
  import opened Wrappers
  import opened Text
  import opened Accounts
  import CadenceArgs
  import opened Envelope

  /** `_get_access_node`: gRPC host and port per network name. */
  function AccessNode(network: string): (r: (string, nat))
    ensures network == "mainnet" ==> r == ("access.mainnet.nodes.onflow.org", 9000)
    ensures network == "testnet" ==> r == ("access.devnet.nodes.onflow.org", 9000)
    ensures network != "mainnet" && network != "testnet" ==> r == ("127.0.0.1", 3569)
  {
    if network == "mainnet" then ("access.mainnet.nodes.onflow.org", 9000)
    else if network == "testnet" then ("access.devnet.nodes.onflow.org", 9000)
    else ("127.0.0.1", 3569)
  }

  /** A value found under a role key. `RoleAbsent` is a missing key,
      `RoleNone` an explicit `None`; `RoleOther` is any other object with
      its truthiness. */
  datatype RoleValue =
    | RoleAbsent
    | RoleNone
    | RoleText(text: string)
    | RoleList(items: seq<RoleValue>)
    | RoleOther(truthy: bool)

  predicate Truthy(v: RoleValue) {
    match v
    case RoleAbsent => false
    case RoleNone => false
    case RoleText(t) => t != ""
    case RoleList(items) => |items| > 0
    case RoleOther(t) => t
  }

  /** The `roles` dictionary, by its three keys. */
  datatype Roles = Roles(proposer: RoleValue, payer: RoleValue, authorizer: RoleValue)

  predicate RolesEmpty(r: Roles) {
    r.proposer.RoleAbsent? && r.payer.RoleAbsent? && r.authorizer.RoleAbsent?
  }

  function OptText(s: Option<string>): RoleValue {
    if s.Some? then RoleText(s.value) else RoleNone
  }

  /** Python's `a or b` on optional texts. */
  function Or(a: Option<string>, b: Option<string>): Option<string> {
    if Wrappers.Truthy(a) then a else b
  }

  /** `send_transaction`: with no roles given, the wallet ids fill them in,
      proposer and payer standing in for each other and the authorizers
      defaulting to them. */
  function RolesFromWallets(roles: Roles, proposerId: Option<string>, payerId: Option<string>,
                            authorizerIds: Option<seq<string>>): (r: Roles)
    ensures !RolesEmpty(roles) ==> r == roles
    ensures (RolesEmpty(roles) && !Wrappers.Truthy(proposerId) && !Wrappers.Truthy(payerId)
             && (authorizerIds.None? || |authorizerIds.value| == 0)) ==> r == roles
    ensures RolesEmpty(roles) && Wrappers.Truthy(proposerId) ==> r.proposer == RoleText(proposerId.value)
    ensures RolesEmpty(roles) && Wrappers.Truthy(payerId) ==> r.payer == RoleText(payerId.value)
    ensures RolesEmpty(roles) && !Wrappers.Truthy(proposerId) && Wrappers.Truthy(payerId) ==>
              r.proposer == RoleText(payerId.value)
    ensures RolesEmpty(roles) && Wrappers.Truthy(proposerId) && !Wrappers.Truthy(payerId) ==>
              r.payer == RoleText(proposerId.value)
    ensures RolesEmpty(roles) && authorizerIds.Some? && |authorizerIds.value| > 0 ==>
              r.authorizer.RoleList? && |r.authorizer.items| == |authorizerIds.value|
              && forall i :: 0 <= i < |authorizerIds.value| ==> r.authorizer.items[i] == RoleText(authorizerIds.value[i])
    ensures RolesEmpty(roles) && (Wrappers.Truthy(proposerId) || Wrappers.Truthy(payerId))
            && (authorizerIds.None? || |authorizerIds.value| == 0) ==>
              r.authorizer == r.proposer
  {
    var anyAuthorizer := authorizerIds.Some? && |authorizerIds.value| > 0;
    if RolesEmpty(roles) && (Wrappers.Truthy(proposerId) || Wrappers.Truthy(payerId) || anyAuthorizer) then
      Roles(OptText(Or(proposerId, payerId)), OptText(Or(payerId, proposerId)),
            if anyAuthorizer
            then RoleList(seq(|authorizerIds.value|, i requires 0 <= i < |authorizerIds.value| =>
                              RoleText(authorizerIds.value[i])))
            else OptText(Or(proposerId, payerId)))
    else roles
  }

  /** A single wallet id fills all three roles. */
  lemma OneWalletFillsAllRoles(id: string)
    requires id != ""
    ensures RolesFromWallets(Roles(RoleAbsent, RoleAbsent, RoleAbsent), Some(id), None, None)
            == Roles(RoleText(id), RoleText(id), RoleText(id))
  {
  }

  /** The payer alone stands in as proposer too. */
  lemma PayerStandsInForProposer(payerId: string, auths: seq<string>)
    requires payerId != ""
    ensures var r := RolesFromWallets(Roles(RoleAbsent, RoleAbsent, RoleAbsent), None, Some(payerId), Some(auths));
            r.proposer == r.payer == RoleText(payerId)
  {
  }

  /** Python's `.lower()` of the address with a `0x` prefix. */
  function NormalizeKeyAddress(a: string): string {
    Lower(WithPrefix(a))
  }

  /** A supplied key entry is for `addr`. */
  predicate KeyMatches(entry: (string, string), addr: string) {
    NormalizeKeyAddress(entry.0) == NormalizeKeyAddress(addr)
  }

  /** The first matching position at or after `start`. */
  function FirstMatchFrom(privateKeys: seq<(string, string)>, addr: string, start: nat): (r: Option<nat>)
    requires start <= |privateKeys|
    ensures r.None? ==> forall k :: start <= k < |privateKeys| ==> !KeyMatches(privateKeys[k], addr)
    ensures r.Some? ==> start <= r.value < |privateKeys| && KeyMatches(privateKeys[r.value], addr)
    ensures r.Some? ==> forall k :: start <= k < r.value ==> !KeyMatches(privateKeys[k], addr)
    decreases |privateKeys| - start
  {
    if start == |privateKeys| then None
    else if KeyMatches(privateKeys[start], addr) then Some(start)
    else FirstMatchFrom(privateKeys, addr, start + 1)
  }

  /** `_get_private_key`: the value of the first entry, in insertion order,
      whose address matches ignoring the `0x` prefix and case. */
  function PrivateKeyFor(privateKeys: seq<(string, string)>, addr: string): (r: Option<string>)
    ensures r.None? <==> forall k :: 0 <= k < |privateKeys| ==> !KeyMatches(privateKeys[k], addr)
    ensures r.Some? ==> exists i :: 0 <= i < |privateKeys| && privateKeys[i].1 == r.value
                          && KeyMatches(privateKeys[i], addr)
                          && forall k :: 0 <= k < i ==> !KeyMatches(privateKeys[k], addr)
  {
    match FirstMatchFrom(privateKeys, addr, 0)
    case None => None
    case Some(i) => Some(privateKeys[i].1)
  }

  lemma LowerAfterPrefix(h: string)
    ensures Lower("0x" + h) == "0x" + Lower(h)
    ensures Lower("0x" + Upper(h)) == "0x" + Lower(h)
  {
    assert forall i :: 0 <= i < |h| ==> LowerChar(UpperChar(h[i])) == LowerChar(h[i]);
  }

  lemma HexNormalForms(h: string)
    requires AllHex(h)
    ensures NormalizeKeyAddress(h) == NormalizeKeyAddress("0x" + h)
                                   == NormalizeKeyAddress("0x" + Upper(h)) == "0x" + Lower(h)
  {
    if |h| >= 2 {
      assert IsHexChar(h[1]);
    }
    assert !StartsWith(h, "0x");
    assert ("0x" + h)[..2] == "0x" && ("0x" + Upper(h))[..2] == "0x";
    LowerAfterPrefix(h);
  }

  /** Hex digits find the same supplied key with or without `0x` and in
      either case. */
  lemma PrivateKeyLookupIgnoresCaseAndPrefix(privateKeys: seq<(string, string)>, h: string)
    requires AllHex(h)
    ensures PrivateKeyFor(privateKeys, h) == PrivateKeyFor(privateKeys, "0x" + h)
                                           == PrivateKeyFor(privateKeys, "0x" + Upper(h))
  {
    HexNormalForms(h);
    SameNormalFormSameKey(privateKeys, h, "0x" + h, 0);
    SameNormalFormSameKey(privateKeys, h, "0x" + Upper(h), 0);
  }

  lemma {:induction false} SameNormalFormSameKey(privateKeys: seq<(string, string)>, a: string, b: string, start: nat)
    requires start <= |privateKeys|
    requires NormalizeKeyAddress(a) == NormalizeKeyAddress(b)
    ensures FirstMatchFrom(privateKeys, a, start) == FirstMatchFrom(privateKeys, b, start)
    decreases |privateKeys| - start
  {
    if start < |privateKeys| {
      assert KeyMatches(privateKeys[start], a) == KeyMatches(privateKeys[start], b);
      SameNormalFormSameKey(privateKeys, a, b, start + 1);
    }
  }

  /** `_create_signer` applied to an account. */
  function SignerFor(key: string, signatureAlgorithm: string, hashAlgorithm: string): Signer {
    var algos := PySigner(signatureAlgorithm, hashAlgorithm);
    Signer(key, algos.0, algos.1)
  }

  /** A signing party at `Address.from_hex(address)`; the address parse
      raises on text that is not hex digits in pairs. */
  function PartyAt(address: string, keyId: int, signer: Signer): (r: Result<Party, string>)
    ensures r.Ok? <==> CadenceArgs.HexPairs(CadenceArgs.HexDigits(address))
    ensures r.Ok? ==> r.value == Party(Lower(CadenceArgs.HexDigits(address)), keyId, signer)
    ensures r.Err? ==> r.error == CadenceArgs.FROMHEX_ERROR
  {
    match CadenceArgs.AddressFromHex(address)
    case Ok(hex) => Ok(Party(hex, keyId, signer))
    case Err(e) => Err(e)
  }

  /** A loaded account as a signing party. */
  function PartyOf(a: Account): (r: Result<Party, string>)
    ensures r.Ok? <==> CadenceArgs.HexPairs(CadenceArgs.HexDigits(a.address))
    ensures r.Ok? ==> r.value.address == Lower(CadenceArgs.HexDigits(a.address))
    ensures r.Ok? ==> r.value.keyId == a.keyId && r.value.signer.privateKey == a.key
  {
    PartyAt(a.address, a.keyId, SignerFor(a.key, a.signatureAlgorithm, a.hashAlgorithm))
  }

  const INVALID_ROLE := "ValueError: Invalid authorization value"

  /** `resolve_account`, after the service account `svc` was loaded (so
      the cache holds it): a falsy value is the service account; a text is
      an address with a supplied private key (key index 0, P-256 and
      SHA3-256) or else an account name; anything else is an error. */
  function Resolve(dir: FlowDir, svc: Account, privateKeys: seq<(string, string)>,
                   v: RoleValue): (r: Result<Party, string>)
    ensures !Truthy(v) ==> r == PartyOf(svc)
    ensures Truthy(v) && !v.RoleText? ==> r == Err(INVALID_ROLE)
    ensures Truthy(v) && v.RoleText? && Wrappers.Truthy(PrivateKeyFor(privateKeys, v.text)) ==>
              r == PartyAt(WithPrefix(v.text), 0,
                           Signer(PrivateKeyFor(privateKeys, v.text).value, P256, Sha3))
    ensures Truthy(v) && v.RoleText? && !Wrappers.Truthy(PrivateKeyFor(privateKeys, v.text)) ==>
              r == (match PyLoadByName(dir, Some(svc), v.text).result
                    case Ok(a) => PartyOf(a)
                    case Err(e) => Err(e))
  {
    if !Truthy(v) then PartyOf(svc)
    else if v.RoleText? then
      var pk := PrivateKeyFor(privateKeys, v.text);
      if Wrappers.Truthy(pk) then
        PartyAt(WithPrefix(v.text), 0, SignerFor(pk.value, ECDSA_P256, SHA3_256))
      else
        match PyLoadByName(dir, Some(svc), v.text).result
        case Ok(acc) => PartyOf(acc)
        case Err(e) => Err(e)
    else Err(INVALID_ROLE)
  }

  /** A supplied private key takes precedence over an account of the same
      name: the flow directory is not consulted, and the party is the
      address itself at key index 0. */
  lemma SuppliedKeyWins(dir1: FlowDir, dir2: FlowDir, svc: Account,
                        privateKeys: seq<(string, string)>, text: string, key: string)
    requires text != ""
    requires exists i :: 0 <= i < |privateKeys| && KeyMatches(privateKeys[i], text)
                         && privateKeys[i].1 == key
                         && forall k :: 0 <= k < i ==> !KeyMatches(privateKeys[k], text)
    requires key != ""
    ensures Resolve(dir1, svc, privateKeys, RoleText(text)) == Resolve(dir2, svc, privateKeys, RoleText(text))
    ensures Resolve(dir1, svc, privateKeys, RoleText(text)) == PartyAt(WithPrefix(text), 0, Signer(key, P256, Sha3))
  {
    var i :| 0 <= i < |privateKeys| && KeyMatches(privateKeys[i], text)
             && privateKeys[i].1 == key
             && forall k :: 0 <= k < i ==> !KeyMatches(privateKeys[k], text);
    FirstMatchIsUnique(privateKeys, text, 0, i);
  }

  /** The first match is the one every earlier entry misses. */
  lemma {:induction false} FirstMatchIsUnique(privateKeys: seq<(string, string)>, addr: string,
                                              start: nat, i: nat)
    requires start <= i < |privateKeys| && KeyMatches(privateKeys[i], addr)
    requires forall k :: start <= k < i ==> !KeyMatches(privateKeys[k], addr)
    ensures FirstMatchFrom(privateKeys, addr, start) == Some(i)
    decreases i - start
  {
    if start < i {
      FirstMatchIsUnique(privateKeys, addr, start + 1, i);
    }
  }

  /** Without a matching supplied key, a text names an account: supplied
      keys for other addresses change nothing. */
  lemma UnmatchedKeysIgnored(dir: FlowDir, svc: Account, privateKeys: seq<(string, string)>,
                             text: string)
    requires forall k :: 0 <= k < |privateKeys| ==> !KeyMatches(privateKeys[k], text)
    ensures Resolve(dir, svc, privateKeys, RoleText(text)) == Resolve(dir, svc, [], RoleText(text))
  {
  }

  /** Resolves each element, stopping at the first error. */
  function ResolveAll(dir: FlowDir, svc: Account, privateKeys: seq<(string, string)>,
                      vs: seq<RoleValue>): (r: Result<seq<Party>, string>)
    ensures r.Ok? ==> (|r.value| == |vs|
      && forall i :: 0 <= i < |vs| ==> Resolve(dir, svc, privateKeys, vs[i]) == Ok(r.value[i]))
    ensures r.Err? ==> exists i :: 0 <= i < |vs| && Resolve(dir, svc, privateKeys, vs[i]) == Err(r.error)
                                   && forall j :: 0 <= j < i ==> Resolve(dir, svc, privateKeys, vs[j]).Ok?
    decreases |vs|
  {
    if |vs| == 0 then Ok([])
    else
      match Resolve(dir, svc, privateKeys, vs[0])
      case Err(e) => Err(e)
      case Ok(p) =>
        match ResolveAll(dir, svc, privateKeys, vs[1..])
        case Err(e) =>
          FailedInTail(dir, svc, privateKeys, vs, e);
          Err(e)
        case Ok(ps) =>
          ResolvedCons(dir, svc, privateKeys, vs, p, ps);
          Ok([p] + ps)
  }

  lemma FailedInTail(dir: FlowDir, svc: Account, privateKeys: seq<(string, string)>, vs: seq<RoleValue>,
                     e: string)
    requires |vs| > 0 && Resolve(dir, svc, privateKeys, vs[0]).Ok?
    requires exists i :: 0 <= i < |vs[1..]| && Resolve(dir, svc, privateKeys, vs[1..][i]) == Err(e)
                         && forall j :: 0 <= j < i ==> Resolve(dir, svc, privateKeys, vs[1..][j]).Ok?
    ensures exists i :: 0 <= i < |vs| && Resolve(dir, svc, privateKeys, vs[i]) == Err(e)
                        && forall j :: 0 <= j < i ==> Resolve(dir, svc, privateKeys, vs[j]).Ok?
  {
    var i :| 0 <= i < |vs[1..]| && Resolve(dir, svc, privateKeys, vs[1..][i]) == Err(e)
             && forall j :: 0 <= j < i ==> Resolve(dir, svc, privateKeys, vs[1..][j]).Ok?;
    assert vs[1..][i] == vs[i + 1];
    forall j | 0 <= j < i + 1
      ensures Resolve(dir, svc, privateKeys, vs[j]).Ok?
    {
      if j > 0 {
        assert vs[j] == vs[1..][j - 1];
      }
    }
  }

  lemma ResolvedCons(dir: FlowDir, svc: Account, privateKeys: seq<(string, string)>, vs: seq<RoleValue>,
                     p: Party, ps: seq<Party>)
    requires |vs| > 0 && Resolve(dir, svc, privateKeys, vs[0]) == Ok(p)
    requires |ps| == |vs[1..]| && forall i :: 0 <= i < |vs[1..]| ==> Resolve(dir, svc, privateKeys, vs[1..][i]) == Ok(ps[i])
    ensures |[p] + ps| == |vs|
    ensures forall i :: 0 <= i < |vs| ==> Resolve(dir, svc, privateKeys, vs[i]) == Ok(([p] + ps)[i])
  {
    var tail := vs[1..];
    forall i | 0 <= i < |vs|
      ensures Resolve(dir, svc, privateKeys, vs[i]) == Ok(([p] + ps)[i])
    {
      if i > 0 {
        assert tail[i - 1] == vs[i];
        assert ([p] + ps)[i] == ps[i - 1];
        assert Resolve(dir, svc, privateKeys, tail[i - 1]) == Ok(ps[i - 1]);
      }
    }
  }

  /** The authorizer list: a list (even an empty one) resolves element by
      element, a single truthy value resolves alone, otherwise the proposer
      authorises. */
  function Authorizers(dir: FlowDir, svc: Account, privateKeys: seq<(string, string)>,
                       v: RoleValue, proposer: Party): (r: Result<seq<Party>, string>)
    ensures v == RoleList([]) ==> r == Ok([])
    ensures !Truthy(v) && !v.RoleList? ==> r == Ok([proposer])
    ensures v.RoleList? ==> r == ResolveAll(dir, svc, privateKeys, v.items)
    ensures Truthy(v) && !v.RoleList? ==>
              r == (match Resolve(dir, svc, privateKeys, v) case Ok(p) => Ok([p]) case Err(e) => Err(e))
  {
    if v.RoleList? then ResolveAll(dir, svc, privateKeys, v.items)
    else if Truthy(v) then
      match Resolve(dir, svc, privateKeys, v)
      case Ok(p) => Ok([p])
      case Err(e) => Err(e)
    else Ok([proposer])
  }

  /** The three resolved roles of a transaction. */
  datatype Parties = Parties(proposer: Party, payer: Party, authorizers: seq<Party>)

  /** Proposer, then payer, then the authorizers, as `_execute_transaction`
      resolves them; the first failure is the error. */
  function ResolveRoles(dir: FlowDir, svc: Account, privateKeys: seq<(string, string)>,
                        roles: Roles): (r: Result<Parties, string>)
    ensures Resolve(dir, svc, privateKeys, roles.proposer).Err? ==>
              r == Err(Resolve(dir, svc, privateKeys, roles.proposer).error)
    ensures Resolve(dir, svc, privateKeys, roles.proposer).Ok? && Resolve(dir, svc, privateKeys, roles.payer).Err? ==>
              r == Err(Resolve(dir, svc, privateKeys, roles.payer).error)
    ensures r.Ok? <==> Resolve(dir, svc, privateKeys, roles.proposer).Ok? && Resolve(dir, svc, privateKeys, roles.payer).Ok?
                       && Authorizers(dir, svc, privateKeys, roles.authorizer,
                                      Resolve(dir, svc, privateKeys, roles.proposer).value).Ok?
    ensures r.Ok? ==> r.value.proposer == Resolve(dir, svc, privateKeys, roles.proposer).value
                      && r.value.payer == Resolve(dir, svc, privateKeys, roles.payer).value
                      && r.value.authorizers == Authorizers(dir, svc, privateKeys, roles.authorizer, r.value.proposer).value
  {
    match Resolve(dir, svc, privateKeys, roles.proposer)
    case Err(e) => Err(e)
    case Ok(proposer) =>
      match Resolve(dir, svc, privateKeys, roles.payer)
      case Err(e) => Err(e)
      case Ok(payer) =>
        match Authorizers(dir, svc, privateKeys, roles.authorizer, proposer)
        case Err(e) => Err(e)
        case Ok(auths) => Ok(Parties(proposer, payer, auths))
  }

  /** Python's `xs[i]`, negative positions counting from the end. */
  function PyIndex<T>(xs: seq<T>, i: int): (r: Option<T>)
    ensures r.Some? <==> -|xs| <= i < |xs|
    ensures 0 <= i < |xs| ==> r == Some(xs[i])
    ensures -|xs| <= i < 0 ==> r == Some(xs[|xs| + i])
  {
    if 0 <= i < |xs| then Some(xs[i])
    else if -|xs| <= i < 0 then Some(xs[|xs| + i])
    else None
  }

  /** The proposer's sequence number: the key at the proposer's index if
      that index is below the number of keys, else the first key. An empty
      key list or a negative index beyond the list raise `IndexError`. */
  function SequenceNumber(keys: seq<nat>, keyId: int): (r: Option<nat>)
    ensures 0 <= keyId < |keys| ==> r == Some(keys[keyId])
    ensures keyId >= |keys| > 0 ==> r == Some(keys[0])
    ensures |keys| == 0 ==> r.None?
    ensures keyId < -|keys| ==> r.None?
    ensures -|keys| <= keyId < 0 ==> r == Some(keys[|keys| + keyId])
  {
    if keyId < |keys| then PyIndex(keys, keyId) else PyIndex(keys, 0)
  }

  /** Seconds `TIMEOUT` the adapter waits for sealing, polling once per
      second. */
  /** `str(e)` of the `IndexError` a list index out of range raises. */
  const INDEX_ERROR := "list index out of range"

  const SEAL_TIMEOUT_MS: nat := 120_000
  const SEALED: int := 4

  /** What the Flow access node does, call by call. `statusAt(k)` is the
      k-th `get_transaction_result` (0 is the one right after sending),
      `clockMs(k)` the milliseconds since polling began when the loop test
      runs for the k-th time; one second is slept between polls. */
  datatype Chain = Chain(
    latestBlock: Result<string, string>,
    proposerKeys: Result<seq<nat>, string>,
    sent: Result<string, string>,
    statusAt: nat -> Result<int, string>,
    clockMs: nat -> int)

  /** The clock advances by at least the second slept between polls. */
  ghost predicate SleepsAdvanceClock(c: Chain) {
    forall k: nat :: c.clockMs(k) >= 1000 * k
  }

  /** The k-th poll answered, with a status other than SEALED, before the
      deadline: the loop polls again. */
  predicate PollsAgain(c: Chain, k: nat) {
    c.statusAt(k).Ok? && c.statusAt(k).value != SEALED && c.clockMs(k) < SEAL_TIMEOUT_MS
  }

  /** Where polling stops: the poll that failed, or the poll whose status
      ends the loop. */
  datatype PollEnd = PollFailed(polls: nat, error: string) | PollStopped(polls: nat, status: int)

  function PollFrom(c: Chain, k: nat): (r: PollEnd)
    requires SleepsAdvanceClock(c)
    ensures r.polls >= k && !PollsAgain(c, r.polls)
    ensures forall j :: k <= j < r.polls ==> PollsAgain(c, j)
    ensures r.PollFailed? <==> c.statusAt(r.polls).Err?
    ensures r.PollFailed? ==> c.statusAt(r.polls) == Err(r.error)
    ensures r.PollStopped? ==> c.statusAt(r.polls) == Ok(r.status)
    ensures r.PollStopped? ==> r.status == SEALED || c.clockMs(r.polls) >= SEAL_TIMEOUT_MS
    decreases 120 - k
  {
    match c.statusAt(k)
    case Err(e) => PollFailed(k, e)
    case Ok(status) =>
      if status != SEALED && c.clockMs(k) < SEAL_TIMEOUT_MS then
        assert k < 120;
        PollFrom(c, k + 1)
      else PollStopped(k, status)
  }

  /** Polling ends at the first poll that does not poll again, whatever
      comes after it. */
  lemma {:induction false} PollEndsAtFirstStop(c: Chain, k: nat, m: nat)
    requires SleepsAdvanceClock(c)
    requires k <= m && !PollsAgain(c, m)
    requires forall j :: k <= j < m ==> PollsAgain(c, j)
    ensures PollFrom(c, k).polls == m
    decreases m - k
  {
    if k < m {
      assert PollsAgain(c, k);
      PollEndsAtFirstStop(c, k + 1, m);
    }
  }

  /** The sealing loop of `_execute_transaction`. */
  method Poll(c: Chain) returns (r: PollEnd)
    requires SleepsAdvanceClock(c)
    ensures r == PollFrom(c, 0)
    ensures r.polls <= 120
  {
    var k: nat := 0;
    var result := c.statusAt(0);
    while result.Ok? && result.value != SEALED && c.clockMs(k) < SEAL_TIMEOUT_MS
      invariant k <= 120
      invariant result == c.statusAt(k)
      invariant PollFrom(c, k) == PollFrom(c, 0)
      decreases 120 - k
    {
      k := k + 1;
      result := c.statusAt(k);
    }
    if result.Err? {
      r := PollFailed(k, result.error);
    } else {
      r := PollStopped(k, result.value);
    }
  }

  /** The adapter's result dictionary. `Raised` is an exception that
      escapes `send_transaction` (it happens before the `try`). */
  datatype TxReport =
    | Raised(error: string)
    | Report(success: bool, transactionId: Option<string>, errorMessage: Option<string>,
             returncode: Option<int>, status: Option<int>)

  /** The report of the `except` clause. */
  function Caught(e: string): TxReport {
    Report(false, None, Some(e), Some(1), None)
  }

  /** Every remote call before polling answered, and the proposer's key
      list has an entry for the proposer. */
  predicate Sent(c: Chain, proposer: Party) {
    c.latestBlock.Ok? && c.proposerKeys.Ok?
    && SequenceNumber(c.proposerKeys.value, proposer.keyId).Some? && c.sent.Ok?
  }

  /** The part inside the `try`: every failure becomes a report with no
      transaction id and return code 1. */
  function Submit(c: Chain, proposer: Party): (r: TxReport)
    requires SleepsAdvanceClock(c)
    ensures r.Report?
    ensures r.success <==> r.status == Some(SEALED)
    ensures r.success ==> r.returncode == Some(0) && c.sent.Ok? && r.transactionId == Some(c.sent.value)
    ensures r.transactionId.None? ==> r.returncode == Some(1)
    ensures c.latestBlock.Err? ==> r == Caught(c.latestBlock.error)
    ensures c.latestBlock.Ok? && c.proposerKeys.Err? ==> r == Caught(c.proposerKeys.error)
    ensures c.latestBlock.Ok? && c.proposerKeys.Ok? && SequenceNumber(c.proposerKeys.value, proposer.keyId).None? ==>
              r == Caught(INDEX_ERROR)
    ensures c.latestBlock.Ok? && c.proposerKeys.Ok? && c.sent.Err?
            && SequenceNumber(c.proposerKeys.value, proposer.keyId).Some? ==>
              r == Caught(c.sent.error)
    ensures Sent(c, proposer) && PollFrom(c, 0).PollFailed? ==> r == Caught(PollFrom(c, 0).error)
    ensures Sent(c, proposer) && PollFrom(c, 0).PollStopped? ==>
              var s := PollFrom(c, 0).status;
              r.transactionId == Some(c.sent.value) && r.status == Some(s) && (r.success <==> s == SEALED)
              && (s != SEALED ==> r.errorMessage == Some("Transaction status: " + IntToString(s)) && r.returncode.None?)
  {
    if c.latestBlock.Err? then Caught(c.latestBlock.error)
    else if c.proposerKeys.Err? then Caught(c.proposerKeys.error)
    else if SequenceNumber(c.proposerKeys.value, proposer.keyId).None? then
      Caught(INDEX_ERROR)
    else if c.sent.Err? then Caught(c.sent.error)
    else
      var txId := c.sent.value;
      match PollFrom(c, 0)
      case PollFailed(_, e) => Caught(e)
      case PollStopped(_, status) =>
        if status == SEALED then Report(true, Some(txId), None, Some(0), Some(status))
        else Report(false, Some(txId), Some("Transaction status: " + IntToString(status)), None, Some(status))
  }

  /** The report in terms of the first poll that ends the loop: once the
      transaction is sent, the m-th status decides, where m is the first
      poll that fails, is sealed, or finds the deadline passed. */
  lemma SubmitReportsFirstStop(c: Chain, proposer: Party, m: nat)
    requires SleepsAdvanceClock(c) && Sent(c, proposer)
    requires !PollsAgain(c, m) && forall j :: 0 <= j < m ==> PollsAgain(c, j)
    ensures c.statusAt(m).Err? ==> Submit(c, proposer) == Caught(c.statusAt(m).error)
    ensures c.statusAt(m).Ok? && c.statusAt(m).value == SEALED ==>
              Submit(c, proposer) == Report(true, Some(c.sent.value), None, Some(0), Some(SEALED))
    ensures c.statusAt(m).Ok? && c.statusAt(m).value != SEALED ==>
              c.clockMs(m) >= SEAL_TIMEOUT_MS
              && Submit(c, proposer) == Report(false, Some(c.sent.value),
                                               Some("Transaction status: " + IntToString(c.statusAt(m).value)),
                                               None, Some(c.statusAt(m).value))
  {
    PollEndsAtFirstStop(c, 0, m);
  }

  /** `_execute_transaction`: the service account, the roles, the
      transaction file and the arguments are resolved first and raise; the
      remote calls are caught. */
  function ExecuteTransaction(dir: FlowDir, cache: Option<Account>, roles: Roles,
                              privateKeys: seq<(string, string)>, code: Option<string>,
                              args: Option<seq<CadenceArgs.PyArg>>, c: Chain): (r: TxReport)
    requires SleepsAdvanceClock(c)
    ensures PyLoadService(dir, cache).result.Err? ==> r == Raised(PyLoadService(dir, cache).result.error)
    ensures PyLoadService(dir, cache).result.Ok? ==>
              var parties := ResolveRoles(dir, PyLoadService(dir, cache).result.value, privateKeys, roles);
              (parties.Err? ==> r == Raised(parties.error))
              && (parties.Ok? && code.None? ==> r == Raised("FileNotFoundError"))
              && (parties.Ok? && code.Some? && CadenceArgs.BuildArgs(args).Err? ==>
                    r == Raised(CadenceArgs.BuildArgs(args).error))
              && (parties.Ok? && code.Some? && CadenceArgs.BuildArgs(args).Ok? ==>
                    r == Submit(c, parties.value.proposer))
  {
    match PyLoadService(dir, cache).result
    case Err(e) => Raised(e)
    case Ok(svc) =>
      match ResolveRoles(dir, svc, privateKeys, roles)
      case Err(e) => Raised(e)
      case Ok(parties) =>
        if code.None? then Raised("FileNotFoundError")
        else
          match CadenceArgs.BuildArgs(args)
          case Err(e) => Raised(e)
          case Ok(_) => Submit(c, parties.proposer)
  }

  /** The envelope signatures the adapter attaches for some roles, when
      they resolve: each authorizer's first listing unless it is the payer,
      then the payer unless already signed. */
  function SignaturesFor(dir: FlowDir, svc: Account, privateKeys: seq<(string, string)>,
                         roles: Roles): (r: Result<seq<Party>, string>)
    ensures r.Ok? <==> ResolveRoles(dir, svc, privateKeys, roles).Ok?
    ensures r.Err? ==> r.error == ResolveRoles(dir, svc, privateKeys, roles).error
    ensures r.Ok? ==> var parties := ResolveRoles(dir, svc, privateKeys, roles).value;
                      r.value == EnvelopeSignatures(parties.authorizers, parties.payer)
                      && |r.value| >= 1 && Pair(parties.payer) in PairsOf(r.value)
                      && PairsOf(r.value) == PairsOf(parties.authorizers) + {Pair(parties.payer)}
  {
    match ResolveRoles(dir, svc, privateKeys, roles)
    case Err(e) => Err(e)
    case Ok(parties) =>
      EnvelopeSignaturesShape(parties.authorizers, parties.payer);
      Ok(EnvelopeSignatures(parties.authorizers, parties.payer))
  }

  /** A single party that is also the payer leaves only the payer's
      signature. */
  lemma PayerAloneSigns(p: Party)
    ensures EnvelopeSignatures([p], p) == [p]
    ensures EnvelopeSignatures([], p) == [p]
  {
    assert [p][..0] == [];
    assert PairsOf([]) == {};
    assert AuthorizerSignatures([p], p) == [];
  }

  /** With no roles at all, the service account proposes, pays and
      authorises, and signs the envelope once; an unparsable service
      address raises. */
  lemma ServiceAccountSignsOnce(dir: FlowDir, svc: Account, privateKeys: seq<(string, string)>)
    ensures SignaturesFor(dir, svc, privateKeys, Roles(RoleAbsent, RoleAbsent, RoleAbsent))
            == (match PartyOf(svc) case Ok(p) => Ok([p]) case Err(e) => Err(e))
  {
    if PartyOf(svc).Ok? {
      PayerAloneSigns(PartyOf(svc).value);
    }
  }

  /** An empty authorizer list leaves only the payer's signature. */
  lemma EmptyAuthorizerList(dir: FlowDir, svc: Account, privateKeys: seq<(string, string)>)
    ensures SignaturesFor(dir, svc, privateKeys, Roles(RoleAbsent, RoleAbsent, RoleList([])))
            == (match PartyOf(svc) case Ok(p) => Ok([p]) case Err(e) => Err(e))
  {
    if PartyOf(svc).Ok? {
      PayerAloneSigns(PartyOf(svc).value);
    }
  }

  /** A proposer that neither pays nor authorises never signs the
      envelope. */
  lemma ProposerOnlySignsIfAuthorizer(dir: FlowDir, svc: Account, privateKeys: seq<(string, string)>,
                                      roles: Roles)
    requires SignaturesFor(dir, svc, privateKeys, roles).Ok?
    ensures var parties := ResolveRoles(dir, svc, privateKeys, roles).value;
            Pair(parties.proposer) in PairsOf(SignaturesFor(dir, svc, privateKeys, roles).value)
            <==> Pair(parties.proposer) == Pair(parties.payer) || Pair(parties.proposer) in PairsOf(parties.authorizers)
  {
    var parties := ResolveRoles(dir, svc, privateKeys, roles).value;
    EnvelopeSignaturesShape(parties.authorizers, parties.payer);
  }
}

=== FILE: sync_wallets.dfy ===
/** The production-configuration sync of `syncWallets.py`: wallet rows
    read from the database become the accounts of `flow-production.json`,
    each pointing at its key file `accounts/pkeys/<auth_id>.pkey`, and key
    files that no account points at are reported as orphans.

    The database, the key directory and `flow accounts get` are outside
    the model: the rows and the directory listing are inputs, the other
    calls are the oracles of `Env`.
 */
module SyncWallets {
  import opened Wrappers
  import opened Text
  import opened Json

  // ---------------------------------------------------------------------
  // Wallet rows
  // ---------------------------------------------------------------------

  /** A database row: the columns present, each text or null. */
  type Row = map<string, Option<string>>

  /** `wallet.get(column)`: a missing column reads as null. */
  function Column(w: Row, c: string): Option<string> {
    if c in w then w[c] else None
  }

  const REQUIRED: seq<string> := ["auth_id", "flow_address", "flow_private_key", "flow_public_key"]

  /** Every required column is present and not empty. */
  ghost predicate HasRequired(w: Row) {
    forall i :: 0 <= i < |REQUIRED| ==> Truthy(Column(w, REQUIRED[i]))
  }

  /** The four columns, one by one. */
  predicate IsComplete(w: Row) {
    && Truthy(Column(w, "auth_id"))
    && Truthy(Column(w, "flow_address"))
    && Truthy(Column(w, "flow_private_key"))
    && Truthy(Column(w, "flow_public_key"))
  }

  lemma CompleteIsRequired(w: Row)
    ensures HasRequired(w) <==> IsComplete(w)
  {
    if IsComplete(w) {
      forall i | 0 <= i < |REQUIRED|
        ensures Truthy(Column(w, REQUIRED[i]))
      {
      }
    }
    if HasRequired(w) {
      assert Truthy(Column(w, REQUIRED[0]));
      assert Truthy(Column(w, REQUIRED[1]));
      assert Truthy(Column(w, REQUIRED[2]));
      assert Truthy(Column(w, REQUIRED[3]));
    }
  }

  /** `validate_wallet_data`: stops at the first required column that is
      missing, null or empty. */
  method ValidateWalletData(w: Row) returns (r: bool)
    ensures r <==> HasRequired(w)
    ensures r <==> IsComplete(w)
  {
    CompleteIsRequired(w);
    var i := 0;
    while i < |REQUIRED|
      invariant 0 <= i <= |REQUIRED|
      invariant forall j :: 0 <= j < i ==> Truthy(Column(w, REQUIRED[j]))
    {
      if !Truthy(Column(w, REQUIRED[i])) {
        return false;
      }
      i := i + 1;
    }
    return true;
  }

  // ---------------------------------------------------------------------
  // The on-chain algorithm lookup
  // ---------------------------------------------------------------------

  /** How `flow accounts get <address> --format json` ended. */
  datatype Lookup = TimedOut | Exited(returncode: int, stdout: string)

  datatype Algorithms = Algorithms(signature: Field, hash: Field)

  /** The `(None, None)` of a failed lookup. */
  const UNKNOWN := Algorithms(FNull, FNull)

  /** The first account key, when the reply is an object whose `keys` is
      a non-empty list starting with an object; any other shape raises
      inside the lookup and is caught. */
  function FirstKey(data: Field): (r: Option<Dict>)
    ensures r.Some? <==>
              data.FDict? && "keys" in data.entries && data.entries["keys"].FList?
              && |data.entries["keys"].items| > 0 && data.entries["keys"].items[0].FDict?
    ensures r.Some? ==> r.value == data.entries["keys"].items[0].entries
  {
    match data
    case FDict(d) =>
      if "keys" in d then
        match d["keys"]
        case FList(items) =>
          if |items| > 0 then
            match items[0]
            case FDict(key) => Some(key)
            case _ => None
          else None
        case _ => None
      else None
    case _ => None
  }

  /** `key.get(name, '')`. */
  function KeyGet(key: Dict, name: string): Field {
    if name in key then key[name] else FText("")
  }

  /** `check_wallet_signature_algorithm`: the first key's two algorithms,
      unchanged, or `(None, None)` when the command fails, times out,
      prints something that is not JSON or lists no key. */
  function CheckSignatureAlgorithm(lookup: Lookup, parse: string -> Option<Field>): (r: Algorithms)
    ensures (lookup.TimedOut? || lookup.returncode != 0) ==> r == UNKNOWN
    ensures lookup.Exited? && parse(lookup.stdout).None? ==> r == UNKNOWN
    ensures lookup.Exited? && parse(lookup.stdout).Some? && FirstKey(parse(lookup.stdout).value).None? ==>
              r == UNKNOWN
    ensures lookup.Exited? && lookup.returncode == 0 && parse(lookup.stdout).Some?
            && FirstKey(parse(lookup.stdout).value).Some? ==>
              var key := FirstKey(parse(lookup.stdout).value).value;
              r == Algorithms(KeyGet(key, "signatureAlgorithm"), KeyGet(key, "hashAlgorithm"))
  {
    match lookup
    case TimedOut => UNKNOWN
    case Exited(code, out) =>
      if code != 0 then UNKNOWN
      else
        match parse(out)
        case None => UNKNOWN
        case Some(data) =>
          match FirstKey(data)
          case None => UNKNOWN
          case Some(key) => Algorithms(KeyGet(key, "signatureAlgorithm"), KeyGet(key, "hashAlgorithm"))
  }

  /** The algorithms of an account whose first key names both come back
      as named, whatever else the reply holds. */
  lemma CheckReadsFirstKey(out: string, parse: string -> Option<Field>, sig: string, hash: string,
                           rest: seq<Field>, others: Dict)
    requires "keys" !in others
    requires parse(out) == Some(FDict(others["keys" := FList([FDict(map["signatureAlgorithm" := FText(sig), "hashAlgorithm" := FText(hash)])] + rest)]))
    ensures CheckSignatureAlgorithm(Exited(0, out), parse) == Algorithms(FText(sig), FText(hash))
  {
    var key := map["signatureAlgorithm" := FText(sig), "hashAlgorithm" := FText(hash)];
    var items := [FDict(key)] + rest;
    assert items[0] == FDict(key);
    assert FirstKey(parse(out).value) == Some(key);
  }

  /** A reply without keys, or with a key that is not an object, falls
      back to `(None, None)`. */
  lemma CheckNeedsKeyObject(out: string, parse: string -> Option<Field>, first: Field, rest: seq<Field>)
    requires !first.FDict?
    requires parse(out) == Some(FDict(map["keys" := FList([first] + rest)])) || parse(out) == Some(FDict(map["keys" := FList([])]))
    ensures CheckSignatureAlgorithm(Exited(0, out), parse) == UNKNOWN
  {
    assert ([first] + rest)[0] == first;
  }

  // ---------------------------------------------------------------------
  // Choosing the algorithms of an account
  // ---------------------------------------------------------------------

  /** The calls `create_production_config` makes outside the model. */
  datatype Env = Env(
    lookup: string -> Lookup,                   // `flow accounts get`, by address
    parse: string -> Option<Field>,             // `json.loads`
    canWriteKey: string -> bool,                // `create_pkey_file` succeeds, by auth id
    recordAlgorithms: (string, Field, Field) -> bool)  // the update reports a row

  const DEFAULT := Algorithms(FText("ECDSA_P256"), FText("SHA3_256"))

  datatype Choice = Choice(algorithms: Algorithms, updates: nat, errors: nat)

  /** The signature and hash algorithm of a wallet: its own columns when
      both are set, else the first on-chain key's when both are truthy
      (counting an update when the database reports the row rewritten),
      else the defaults, counting an error. */
  function ChooseAlgorithms(w: Row, auth: string, address: string, env: Env): (r: Choice)
    ensures FieldTruthy(r.algorithms.signature) && FieldTruthy(r.algorithms.hash)
    ensures r.updates + r.errors <= 1
    ensures Truthy(Column(w, "signature_algorithm")) && Truthy(Column(w, "hash_algorithm")) ==>
              r == Choice(Algorithms(FText(Column(w, "signature_algorithm").value),
                                     FText(Column(w, "hash_algorithm").value)), 0, 0)
    ensures r.errors == 1 <==> r.algorithms == DEFAULT && r.updates == 0
                               && !(Truthy(Column(w, "signature_algorithm")) && Truthy(Column(w, "hash_algorithm")))
                               && var found := CheckSignatureAlgorithm(env.lookup(address), env.parse);
                                  !(FieldTruthy(found.signature) && FieldTruthy(found.hash))
    ensures r.updates == 1 ==>
              r.algorithms == CheckSignatureAlgorithm(env.lookup(address), env.parse)
              && env.recordAlgorithms(auth, r.algorithms.signature, r.algorithms.hash)
    ensures var found := CheckSignatureAlgorithm(env.lookup(address), env.parse);
            !(Truthy(Column(w, "signature_algorithm")) && Truthy(Column(w, "hash_algorithm")))
            && FieldTruthy(found.signature) && FieldTruthy(found.hash) ==>
              r.algorithms == found && r.errors == 0
              && (r.updates == 1 <==> env.recordAlgorithms(auth, found.signature, found.hash))
  {
    var sig := Column(w, "signature_algorithm");
    var hash := Column(w, "hash_algorithm");
    if Truthy(sig) && Truthy(hash) then Choice(Algorithms(FText(sig.value), FText(hash.value)), 0, 0)
    else
      var found := CheckSignatureAlgorithm(env.lookup(address), env.parse);
      if FieldTruthy(found.signature) && FieldTruthy(found.hash) then
        Choice(found, if env.recordAlgorithms(auth, found.signature, found.hash) then 1 else 0, 0)
      else Choice(DEFAULT, 0, 1)
  }

  /** The chain is asked only when a column is empty, and what it reports
      is used when both its algorithms are set. */
  lemma ChainUsedWhenColumnsEmpty(w: Row, auth: string, address: string, env: Env)
    requires !Truthy(Column(w, "signature_algorithm")) || !Truthy(Column(w, "hash_algorithm"))
    requires var found := CheckSignatureAlgorithm(env.lookup(address), env.parse);
             FieldTruthy(found.signature) && FieldTruthy(found.hash)
    ensures ChooseAlgorithms(w, auth, address, env).algorithms
            == CheckSignatureAlgorithm(env.lookup(address), env.parse)
    ensures ChooseAlgorithms(w, auth, address, env).errors == 0
  {
  }

  // ---------------------------------------------------------------------
  // The production configuration
  // ---------------------------------------------------------------------

  const PKEY := ".pkey"
  const PKEY_DIR := "accounts/pkeys/"

  /** The file name of an auth id's key. */
  function KeyFile(auth: string): string {
    auth + PKEY
  }

  /** An account of `flow-production.json`; its key is always of type
      `file`. */
  datatype Entry = Entry(address: string, location: string, algorithms: Algorithms)

  /** The accounts built so far, the key files present, and the counters
      of the sync. */
  datatype Sync = Sync(accounts: map<string, Entry>, files: set<string>,
                       corrupted: nat, missingPkeys: nat, synced: nat,
                       algorithmUpdates: nat, algorithmErrors: nat)

  /** Wallets seen so far: each adds one to exactly one of these. */
  function Seen(s: Sync): nat {
    s.corrupted + s.missingPkeys + s.synced
  }

  const NO_AUTH_ID := "KeyError: 'auth_id'"

  /** One wallet of the loop of `create_production_config`. */
  function Step(s: Sync, w: Row, env: Env): (r: Result<Sync, string>)
    ensures r.Err? <==> "auth_id" !in w
    ensures r.Ok? ==> Seen(r.value) == Seen(s) + 1
    ensures r.Ok? && !IsComplete(w) ==> r.value == s.(corrupted := s.corrupted + 1)
    ensures r.Ok? && IsComplete(w) && r.value.synced == s.synced ==> r.value == s.(missingPkeys := s.missingPkeys + 1)
    ensures r.Ok? && r.value.synced == s.synced + 1 ==>
              IsComplete(w) && var auth := Column(w, "auth_id").value;
              auth in r.value.accounts && r.value.accounts == s.accounts[auth := r.value.accounts[auth]]
              && r.value.accounts[auth].address == Column(w, "flow_address").value
              && r.value.accounts[auth].location == PKEY_DIR + KeyFile(auth)
              && r.value.files == s.files + {KeyFile(auth)}
    ensures r.Ok? && r.value.synced == s.synced + 1 ==>
              var auth := Column(w, "auth_id").value;
              var c := ChooseAlgorithms(w, auth, Column(w, "flow_address").value, env);
              r.value.accounts[auth].algorithms == c.algorithms
              && r.value.algorithmUpdates == s.algorithmUpdates + c.updates
              && r.value.algorithmErrors == s.algorithmErrors + c.errors
    ensures r.Ok? && r.value.synced == s.synced ==>
              r.value.accounts == s.accounts && r.value.files == s.files
              && r.value.algorithmUpdates == s.algorithmUpdates && r.value.algorithmErrors == s.algorithmErrors
  {
    if "auth_id" !in w then Err(NO_AUTH_ID)
    else if !IsComplete(w) then Ok(s.(corrupted := s.corrupted + 1))
    else
      var auth := Column(w, "auth_id").value;
      if KeyFile(auth) !in s.files && !env.canWriteKey(auth) then
        Ok(s.(missingPkeys := s.missingPkeys + 1))
      else
        var address := Column(w, "flow_address").value;
        var c := ChooseAlgorithms(w, auth, address, env);
        Ok(s.(accounts := s.accounts[auth := Entry(address, PKEY_DIR + KeyFile(auth), c.algorithms)],
              files := s.files + {KeyFile(auth)},
              synced := s.synced + 1,
              algorithmUpdates := s.algorithmUpdates + c.updates,
              algorithmErrors := s.algorithmErrors + c.errors))
  }

  /** The loop over the wallets, in order; a wallet without `auth_id`
      ends it with the error. */
  function Run(s: Sync, ws: seq<Row>, env: Env): (r: Result<Sync, string>)
    decreases |ws|
  {
    if |ws| == 0 then Ok(s)
    else
      match Step(s, ws[0], env)
      case Err(e) => Err(e)
      case Ok(s1) => Run(s1, ws[1..], env)
  }

  /** `create_production_config` on the wallets, with `files` the key
      files already present. */
  function CreateProductionConfig(ws: seq<Row>, files: set<string>, env: Env): Result<Sync, string> {
    Run(Sync(map[], files, 0, 0, 0, 0, 0), ws, env)
  }

  /** The loop fails exactly when some wallet has no `auth_id` column. */
  lemma {:induction false} RunFailsOnlyWithoutAuthId(s: Sync, ws: seq<Row>, env: Env)
    ensures Run(s, ws, env).Err? <==> exists i :: 0 <= i < |ws| && "auth_id" !in ws[i]
    ensures Run(s, ws, env).Err? ==> Run(s, ws, env).error == NO_AUTH_ID
    decreases |ws|
  {
    if |ws| > 0 {
      match Step(s, ws[0], env)
      case Err(_) =>
      case Ok(s1) =>
        RunFailsOnlyWithoutAuthId(s1, ws[1..], env);
        if Run(s, ws, env).Err? {
          var i :| 0 <= i < |ws[1..]| && "auth_id" !in ws[1..][i];
          assert "auth_id" !in ws[i + 1];
        }
        if exists i :: 0 <= i < |ws| && "auth_id" !in ws[i] {
          var i :| 0 <= i < |ws| && "auth_id" !in ws[i];
          assert i > 0;
          assert "auth_id" !in ws[1..][i - 1];
        }
    }
  }

  /** Every wallet is counted exactly once: as corrupted, as missing its
      key file, or as synced. */
  lemma {:induction false} EveryWalletCounted(s: Sync, ws: seq<Row>, env: Env)
    requires Run(s, ws, env).Ok?
    ensures Seen(Run(s, ws, env).value) == Seen(s) + |ws|
    decreases |ws|
  {
    if |ws| > 0 {
      var s1 := Step(s, ws[0], env).value;
      EveryWalletCounted(s1, ws[1..], env);
    }
  }

  /** From zero: the three counters add up to the number of wallets. */
  lemma CountersAddUp(ws: seq<Row>, files: set<string>, env: Env)
    requires CreateProductionConfig(ws, files, env).Ok?
    ensures var r := CreateProductionConfig(ws, files, env).value;
            r.corrupted + r.missingPkeys + r.synced == |ws|
  {
    EveryWalletCounted(Sync(map[], files, 0, 0, 0, 0, 0), ws, env);
  }

  /** A synced wallet adds at most one algorithm update or error, and
      the others none, so the two counters never pass the synced count. */
  lemma {:induction false} AlgorithmCountsBounded(s: Sync, ws: seq<Row>, env: Env)
    requires s.algorithmUpdates + s.algorithmErrors <= s.synced
    requires Run(s, ws, env).Ok?
    ensures var r := Run(s, ws, env).value;
            r.algorithmUpdates + r.algorithmErrors <= r.synced
    decreases |ws|
  {
    if |ws| > 0 {
      var s1 := Step(s, ws[0], env).value;
      AlgorithmCountsBounded(s1, ws[1..], env);
    }
  }

  /** Each account points at its own key file, which exists, and has both
      algorithms set. */
  ghost predicate WellFormed(s: Sync) {
    forall auth :: auth in s.accounts ==>
      && auth != ""
      && s.accounts[auth].location == PKEY_DIR + KeyFile(auth)
      && KeyFile(auth) in s.files
      && FieldTruthy(s.accounts[auth].algorithms.signature)
      && FieldTruthy(s.accounts[auth].algorithms.hash)
  }

  lemma StepKeepsWellFormed(s: Sync, w: Row, env: Env)
    requires WellFormed(s) && Step(s, w, env).Ok?
    ensures WellFormed(Step(s, w, env).value)
  {
  }

  lemma {:induction false} RunKeepsWellFormed(s: Sync, ws: seq<Row>, env: Env)
    requires WellFormed(s) && Run(s, ws, env).Ok?
    ensures WellFormed(Run(s, ws, env).value)
    decreases |ws|
  {
    if |ws| > 0 {
      var s1 := Step(s, ws[0], env).value;
      StepKeepsWellFormed(s, ws[0], env);
      RunKeepsWellFormed(s1, ws[1..], env);
    }
  }

  /** Every account of the configuration is keyed by a non-empty auth id,
      points at `accounts/pkeys/<auth_id>.pkey`, whose file exists, and
      never has an empty algorithm. */
  lemma ConfigWellFormed(ws: seq<Row>, files: set<string>, env: Env)
    requires CreateProductionConfig(ws, files, env).Ok?
    ensures WellFormed(CreateProductionConfig(ws, files, env).value)
  {
    RunKeepsWellFormed(Sync(map[], files, 0, 0, 0, 0, 0), ws, env);
  }

  /** Running over two lists is running over the first, then the second. */
  lemma {:induction false} RunAppend(s: Sync, ws: seq<Row>, w: Row, env: Env)
    ensures Run(s, ws + [w], env)
            == match Run(s, ws, env)
               case Err(e) => Err(e)
               case Ok(s1) => Step(s1, w, env)
    decreases |ws|
  {
    if |ws| == 0 {
      assert ws + [w] == [w];
      assert [w][1..] == [];
    } else {
      assert (ws + [w])[0] == ws[0];
      assert (ws + [w])[1..] == ws[1..] + [w];
      match Step(s, ws[0], env)
      case Err(_) =>
      case Ok(s1) => RunAppend(s1, ws[1..], w, env);
    }
  }

  /** A later wallet with the same auth id overwrites the earlier
      account: when the last wallet is synced, its account is the one
      the configuration holds. */
  lemma LastWalletWins(s: Sync, ws: seq<Row>, w: Row, env: Env)
    requires Run(s, ws, env).Ok? && Run(s, ws + [w], env).Ok?
    requires IsComplete(w)
    requires var r := Run(s, ws + [w], env).value;
             r.synced == Run(s, ws, env).value.synced + 1
    ensures var r := Run(s, ws + [w], env).value;
            var auth := Column(w, "auth_id").value;
            auth in r.accounts && r.accounts[auth].address == Column(w, "flow_address").value
  {
    RunAppend(s, ws, w, env);
  }

  /** A wallet is synced exactly when it is complete and its key file
      exists or can be written. */
  lemma SyncedWhenKeyAvailable(s: Sync, w: Row, env: Env)
    requires "auth_id" in w && IsComplete(w)
    ensures var auth := Column(w, "auth_id").value;
            Step(s, w, env).value.synced == s.synced + 1
            <==> KeyFile(auth) in s.files || env.canWriteKey(auth)
  {
  }

  /** The number of accounts never exceeds the number of synced wallets:
      duplicates share one account. */
  lemma {:induction false} AccountsAtMostSynced(s: Sync, ws: seq<Row>, env: Env)
    requires Run(s, ws, env).Ok?
    ensures |Run(s, ws, env).value.accounts| <= |s.accounts| + Run(s, ws, env).value.synced - s.synced
    ensures Run(s, ws, env).value.synced >= s.synced
    decreases |ws|
  {
    if |ws| > 0 {
      var s1 := Step(s, ws[0], env).value;
      if s1.synced == s.synced + 1 {
        var auth := Column(ws[0], "auth_id").value;
        assert s1.accounts.Keys == s.accounts.Keys + {auth};
        assert |s1.accounts.Keys| <= |s.accounts.Keys| + |{auth}|;
      }
      AccountsAtMostSynced(s1, ws[1..], env);
    }
  }

  // ---------------------------------------------------------------------
  // Orphaned key files
  // ---------------------------------------------------------------------

  /** `Path(name).stem` for a name ending in `.pkey`: a bare `.pkey` is a
      hidden file without suffix and keeps its name. */
  function Stem(name: string): (r: string)
    requires EndsWith(name, PKEY)
    ensures |name| > |PKEY| ==> r + PKEY == name
    ensures |name| == |PKEY| ==> r == name
  {
    if |name| > |PKEY| then name[..|name| - |PKEY|] else name
  }

  /** The stem of an auth id's key file is the auth id. */
  lemma StemOfKeyFile(auth: string)
    requires auth != ""
    ensures EndsWith(KeyFile(auth), PKEY) && Stem(KeyFile(auth)) == auth
  {
    assert KeyFile(auth)[|KeyFile(auth)| - |PKEY|..] == PKEY;
    assert KeyFile(auth)[..|KeyFile(auth)| - |PKEY|] == auth;
  }

  predicate IsOrphan(name: string, valid: set<string>) {
    EndsWith(name, PKEY) && Stem(name) !in valid
  }

  /** The orphans of `cleanup_orphaned_pkey_files`: the names of the key
      directory matching `*.pkey` whose stem is not a synced auth id, in
      listing order. */
  function Orphans(names: seq<string>, valid: set<string>): (r: seq<string>)
    ensures forall x :: x in r <==> x in names && IsOrphan(x, valid)
    ensures |r| <= |names|
    decreases |names|
  {
    if |names| == 0 then []
    else
      var rest := Orphans(names[1..], valid);
      if IsOrphan(names[0], valid) then [names[0]] + rest else rest
  }

  /** The key file of a configured account is never an orphan; the key
      file of any other auth id is one. */
  lemma OrphanExactly(names: seq<string>, valid: set<string>, auth: string)
    requires auth != "" && KeyFile(auth) in names
    ensures KeyFile(auth) in Orphans(names, valid) <==> auth !in valid
  {
    StemOfKeyFile(auth);
  }

  /** After a sync, the key files of the configuration's accounts are kept
      and all of them exist. */
  lemma SyncedKeysKept(ws: seq<Row>, files: set<string>, env: Env, names: seq<string>, auth: string)
    requires CreateProductionConfig(ws, files, env).Ok?
    requires auth in CreateProductionConfig(ws, files, env).value.accounts
    ensures KeyFile(auth) in CreateProductionConfig(ws, files, env).value.files
    ensures KeyFile(auth) !in Orphans(names, CreateProductionConfig(ws, files, env).value.accounts.Keys)
  {
    ConfigWellFormed(ws, files, env);
    StemOfKeyFile(auth);
  }
}

=== FILE: text.dfy ===
/** String helpers shared by every component: prefix and substring tests,
    Python's `str.replace(p, '')`, `split`, `strip`, `lower`/`upper`, `join`
    and decimal rendering of integers.

    Characters are compared exactly; case mapping and whitespace are the
    ASCII ones (see README, "Left out").
 */
module Text {

  predicate StartsWith(s: string, p: string) {
    |p| <= |s| && s[..|p|] == p
  }

  predicate EndsWith(s: string, p: string) {
    |p| <= |s| && s[|s| - |p|..] == p
  }

  /** `sub in s` for strings. */
  predicate Contains(s: string, sub: string)
    decreases |s|
  {
    StartsWith(s, sub) || (|s| > 0 && Contains(s[1..], sub))
  }

  lemma {:induction false} ContainsAt(s: string, sub: string, i: nat)
    requires i + |sub| <= |s| && s[i..i + |sub|] == sub
    ensures Contains(s, sub)
    decreases i
  {
    if i == 0 {
      assert s[..|sub|] == sub;
    } else {
      assert s[1..][i - 1..i - 1 + |sub|] == s[i..i + |sub|];
      ContainsAt(s[1..], sub, i - 1);
    }
  }

  lemma {:induction false} ContainsWitness(s: string, sub: string) returns (i: nat)
    requires Contains(s, sub)
    ensures i + |sub| <= |s| && s[i..i + |sub|] == sub
    decreases |s|
  {
    if StartsWith(s, sub) {
      i := 0;
    } else {
      var j := ContainsWitness(s[1..], sub);
      assert s[1..][j..j + |sub|] == s[j + 1..j + 1 + |sub|];
      i := j + 1;
    }
  }

  /** A longer text keeps every substring of its parts. */
  lemma ContainsConcat(a: string, b: string, sub: string)
    ensures Contains(a, sub) ==> Contains(a + b, sub)
    ensures Contains(b, sub) ==> Contains(a + b, sub)
  {
    if Contains(a, sub) {
      var i := ContainsWitness(a, sub);
      assert (a + b)[i..i + |sub|] == a[i..i + |sub|];
      ContainsAt(a + b, sub, i);
    }
    if Contains(b, sub) {
      var i := ContainsWitness(b, sub);
      assert (a + b)[|a| + i..|a| + i + |sub|] == b[i..i + |sub|];
      ContainsAt(a + b, sub, |a| + i);
    }
  }

  /** Python's `s.replace(pat, '')`: every non-overlapping occurrence of
      `pat`, scanned left to right, is deleted in one pass. */
  function RemoveAll(s: string, pat: string): (r: string)
    requires |pat| > 0
    ensures |r| <= |s|
    ensures |r| == |s| ==> r == s
    decreases |s|
  {
    if |s| == 0 then s
    else if StartsWith(s, pat) then
      var rest := RemoveAll(s[|pat|..], pat);
      rest
    else
      var rest := RemoveAll(s[1..], pat);
      assert |rest| == |s[1..]| ==> rest == s[1..];
      [s[0]] + rest
  }

  /** Text that never contains the pattern is left alone. */
  lemma {:induction false} RemoveAllAbsent(s: string, pat: string)
    requires |pat| > 0 && !Contains(s, pat)
    ensures RemoveAll(s, pat) == s
    decreases |s|
  {
    if |s| > 0 {
      RemoveAllAbsent(s[1..], pat);
      assert [s[0]] + s[1..] == s;
    }
  }

  predicate IsHexChar(c: char) {
    ('0' <= c <= '9') || ('a' <= c <= 'f') || ('A' <= c <= 'F')
  }

  predicate AllHex(s: string) {
    forall i :: 0 <= i < |s| ==> IsHexChar(s[i])
  }

  predicate IsDigit(c: char) {
    '0' <= c <= '9'
  }

  /** Python's `str.isdigit()` on ASCII text: non-empty and all digits. */
  predicate IsDigitString(s: string) {
    |s| > 0 && forall i :: 0 <= i < |s| ==> IsDigit(s[i])
  }

  /** ASCII whitespace: tab, line feed, vertical tab, form feed, carriage
      return and space. */
  predicate IsSpace(c: char) {
    c == ' ' || ('\t' <= c <= '\r')
  }

  function LowerChar(c: char): char {
    if 'A' <= c <= 'Z' then (c as int + 32) as char else c
  }

  function UpperChar(c: char): char {
    if 'a' <= c <= 'z' then (c as int - 32) as char else c
  }

  function Lower(s: string): (r: string)
    ensures |r| == |s|
    ensures forall i :: 0 <= i < |s| ==> r[i] == LowerChar(s[i])
  {
    seq(|s|, i requires 0 <= i < |s| => LowerChar(s[i]))
  }

  /** Text without capital letters is its own lower case. */
  lemma LowerNoCapitals(s: string)
    requires forall i :: 0 <= i < |s| ==> !('A' <= s[i] <= 'Z')
    ensures Lower(s) == s
  {
    assert forall i :: 0 <= i < |s| ==> Lower(s)[i] == s[i];
  }

  function Upper(s: string): (r: string)
    ensures |r| == |s|
    ensures forall i :: 0 <= i < |s| ==> r[i] == UpperChar(s[i])
  {
    seq(|s|, i requires 0 <= i < |s| => UpperChar(s[i]))
  }

  function TrimLeft(s: string): (r: string)
    ensures |r| <= |s| && r == s[|s| - |r|..]
    ensures |r| > 0 ==> !IsSpace(r[0])
    ensures forall i :: 0 <= i < |s| - |r| ==> IsSpace(s[i])
    decreases |s|
  {
    if |s| > 0 && IsSpace(s[0]) then TrimLeft(s[1..]) else s
  }

  function TrimRight(s: string): (r: string)
    ensures |r| <= |s| && r == s[..|r|]
    ensures |r| > 0 ==> !IsSpace(r[|r| - 1])
    ensures forall i :: |r| <= i < |s| ==> IsSpace(s[i])
    decreases |s|
  {
    if |s| > 0 && IsSpace(s[|s| - 1]) then TrimRight(s[..|s| - 1]) else s
  }

  /** Python's `str.strip()` / JavaScript's `trim()` on ASCII whitespace. */
  function Strip(s: string): (r: string)
    ensures |r| <= |s|
    ensures |r| > 0 ==> !IsSpace(r[0]) && !IsSpace(r[|r| - 1])
  {
    TrimRight(TrimLeft(s))
  }

  /** Text with no surrounding whitespace is its own strip. */
  lemma StripUnpadded(s: string)
    requires |s| > 0 && !IsSpace(s[0]) && !IsSpace(s[|s| - 1])
    ensures Strip(s) == s
  {
  }

  /** `s.split(c)`: the pieces between occurrences of `c`, empty pieces
      included; the empty text gives one empty piece. */
  function Split(s: string, c: char): (r: seq<string>)
    ensures |r| >= 1
    ensures forall i :: 0 <= i < |r| ==> c !in r[i]
    decreases |s|
  {
    if |s| == 0 then [""]
    else
      var rest := Split(s[1..], c);
      if s[0] == c then [""] + rest
      else [[s[0]] + rest[0]] + rest[1..]
  }

  /** `sep.join(parts)`. */
  function Join(parts: seq<string>, sep: string): string
    decreases |parts|
  {
    if |parts| == 0 then ""
    else if |parts| == 1 then parts[0]
    else parts[0] + sep + Join(parts[1..], sep)
  }

  /** Splitting on a character and joining with it gives back the text. */
  lemma {:induction false} JoinSplit(s: string, c: char)
    ensures Join(Split(s, c), [c]) == s
    decreases |s|
  {
    if |s| > 0 {
      var rest := Split(s[1..], c);
      JoinSplit(s[1..], c);
      if s[0] == c {
        assert Split(s, c) == [""] + rest;
        assert Join([""] + rest, [c]) == "" + [c] + Join(rest, [c]);
      } else {
        var parts := Split(s, c);
        assert parts == [[s[0]] + rest[0]] + rest[1..];
        if |rest| == 1 {
          assert parts == [[s[0]] + rest[0]];
          assert Join(rest, [c]) == rest[0];
        } else {
          assert parts[1..] == rest[1..];
          assert Join(rest, [c]) == rest[0] + [c] + Join(rest[1..], [c]);
          assert Join(parts, [c]) == [s[0]] + rest[0] + [c] + Join(rest[1..], [c]);
        }
        assert s == [s[0]] + s[1..];
      }
    }
  }

  /** A piece free of the separator splits off whole. */
  lemma {:induction false} SplitPiece(w: string, c: char, rest: string)
    requires c !in w
    ensures Split(w + [c] + rest, c) == [w] + Split(rest, c)
    ensures Split(w, c) == [w]
    decreases |w|
  {
    if |w| == 0 {
      assert (w + [c] + rest)[1..] == rest;
      assert w + [c] + rest == [c] + rest;
    } else {
      SplitPiece(w[1..], c, rest);
      assert (w + [c] + rest)[1..] == w[1..] + [c] + rest;
      assert [w[0]] + w[1..] == w;
    }
  }

  /** Joining separator-free pieces and splitting gives the pieces back. */
  lemma {:induction false} SplitJoin(parts: seq<string>, c: char)
    requires |parts| >= 1
    requires forall i :: 0 <= i < |parts| ==> c !in parts[i]
    ensures Split(Join(parts, [c]), c) == parts
    decreases |parts|
  {
    if |parts| == 1 {
      SplitPiece(parts[0], c, "");
    } else {
      SplitJoin(parts[1..], c);
      SplitPiece(parts[0], c, Join(parts[1..], [c]));
      assert [parts[0]] + parts[1..] == parts;
    }
  }

  /** A text holding the separator splits into at least two pieces. */
  lemma {:induction false} SplitAtLeastTwo(s: string, c: char)
    requires c in s
    ensures |Split(s, c)| >= 2
    decreases |s|
  {
    if s[0] != c {
      assert c in s[1..] by {
        var i :| 0 <= i < |s| && s[i] == c;
        assert s[1..][i - 1] == c;
      }
      SplitAtLeastTwo(s[1..], c);
    }
  }

  /** A joined text starts with its first part. */
  lemma JoinStartsWith(parts: seq<string>, sep: string)
    requires |parts| >= 1
    ensures StartsWith(Join(parts, sep), parts[0])
  {
    if |parts| > 1 {
      assert Join(parts, sep)[..|parts[0]|] == parts[0];
    }
  }

  /** The words of `s` accumulated after the partial word `cur`. */
  function Words(s: string, cur: string): (r: seq<string>)
    requires forall i :: 0 <= i < |cur| ==> !IsSpace(cur[i])
    ensures forall k :: 0 <= k < |r| ==> |r[k]| > 0
    ensures forall k, i :: 0 <= k < |r| && 0 <= i < |r[k]| ==> !IsSpace(r[k][i])
    decreases |s|
  {
    if |s| == 0 then (if cur == "" then [] else [cur])
    else if IsSpace(s[0]) then
      (if cur == "" then Words(s[1..], "") else [cur] + Words(s[1..], ""))
    else Words(s[1..], cur + [s[0]])
  }

  /** Python's `s.split()`: the maximal runs of non-whitespace. */
  function SplitWhitespace(s: string): (r: seq<string>)
    ensures forall k :: 0 <= k < |r| ==> |r[k]| > 0
    ensures forall k, i :: 0 <= k < |r| && 0 <= i < |r[k]| ==> !IsSpace(r[k][i])
  {
    Words(s, "")
  }

  predicate NoSpace(w: string) {
    forall i :: 0 <= i < |w| ==> !IsSpace(w[i])
  }

  lemma {:induction false} WordsOfWord(w: string, cur: string, rest: string)
    requires NoSpace(w) && NoSpace(cur) && |cur + w| > 0
    ensures rest == "" ==> Words(w + rest, cur) == [cur + w]
    ensures |rest| > 0 && IsSpace(rest[0]) ==>
      Words(w + rest, cur) == [cur + w] + Words(rest[1..], "")
    decreases |w|
  {
    if |w| == 0 {
      assert w + rest == rest;
      assert cur + w == cur;
    } else {
      assert (w + rest)[1..] == w[1..] + rest;
      assert cur + w == (cur + [w[0]]) + w[1..];
      WordsOfWord(w[1..], cur + [w[0]], rest);
    }
  }

  /** Space-separated words split back into themselves. */
  lemma {:induction false} SplitWords(words: seq<string>)
    requires forall k :: 0 <= k < |words| ==> |words[k]| > 0 && NoSpace(words[k])
    ensures SplitWhitespace(Join(words, " ")) == words
    decreases |words|
  {
    if |words| == 1 {
      WordsOfWord(words[0], "", "");
      assert words[0] + "" == words[0];
      assert "" + words[0] == words[0];
    } else if |words| > 1 {
      var tail := Join(words[1..], " ");
      assert Join(words, " ") == words[0] + (" " + tail);
      WordsOfWord(words[0], "", " " + tail);
      assert (" " + tail)[1..] == tail;
      assert "" + words[0] == words[0];
      SplitWords(words[1..]);
      assert words == [words[0]] + words[1..];
    }
  }

  function DigitChar(d: nat): char
    requires d < 10
  {
    ('0' as int + d) as char
  }

  /** Decimal rendering of a natural number, as Python's `str(n)`. */
  function NatToString(n: nat): (r: string)
    ensures IsDigitString(r)
    ensures r[0] == '0' ==> n == 0
    decreases n
  {
    if n < 10 then [DigitChar(n)] else NatToString(n / 10) + [DigitChar(n % 10)]
  }

  /** Decimal rendering of an integer, with a leading minus when negative. */
  function IntToString(i: int): string {
    if i < 0 then "-" + NatToString(-i) else NatToString(i)
  }

  /** The value of a string of decimal digits. */
  function DigitsValue(s: string): nat
    requires forall i :: 0 <= i < |s| ==> IsDigit(s[i])
    decreases |s|
  {
    if |s| == 0 then 0
    else
      assert IsDigit(s[|s| - 1]);
      DigitsValue(s[..|s| - 1]) * 10 + (s[|s| - 1] as int - '0' as int)
  }

  /** Reading back a rendered number gives the number. */
  lemma {:induction false} NatToStringRoundTrip(n: nat)
    ensures DigitsValue(NatToString(n)) == n
    decreases n
  {
    if n >= 10 {
      var r := NatToString(n);
      NatToStringRoundTrip(n / 10);
      assert r[..|r| - 1] == NatToString(n / 10);
    }
  }

  function Pow10(n: nat): (r: nat)
    ensures r >= 1
  {
    if n == 0 then 1 else 10 * Pow10(n - 1)
  }

  /** `n` zero digits. */
  function Zeros(n: nat): (r: string)
    ensures |r| == n
    ensures forall i :: 0 <= i < n ==> r[i] == '0'
  {
    seq(n, i => '0')
  }

  /** Digits written after others shift them by their own length. */
  lemma {:induction false} DigitsValueConcat(a: string, b: string)
    requires forall i :: 0 <= i < |a| ==> IsDigit(a[i])
    requires forall i :: 0 <= i < |b| ==> IsDigit(b[i])
    ensures DigitsValue(a + b) == DigitsValue(a) * Pow10(|b|) + DigitsValue(b)
    decreases |b|
  {
    if |b| == 0 {
      assert a + b == a;
    } else {
      var ab := a + b;
      var b' := b[..|b| - 1];
      var d := b[|b| - 1] as int - '0' as int;
      assert ab[..|ab| - 1] == a + b';
      assert ab[|ab| - 1] == b[|b| - 1];
      assert DigitsValue(ab) == DigitsValue(a + b') * 10 + d;
      assert DigitsValue(b) == DigitsValue(b') * 10 + d;
      assert Pow10(|b|) == 10 * Pow10(|b'|);
      DigitsValueConcat(a, b');
      ShiftDigit(DigitsValue(a), Pow10(|b'|), DigitsValue(b'), d);
    }
  }

  /** One more digit after `x * p + v` multiplies the shift by ten. */
  lemma ShiftDigit(x: int, p: int, v: int, d: int)
    ensures (x * p + v) * 10 + d == x * (10 * p) + (v * 10 + d)
  {
    assert (x * p) * 10 == x * (10 * p);
  }

  /** Leading zeros do not change a number. */
  lemma {:induction false} DigitsValueZeros(n: nat)
    ensures DigitsValue(Zeros(n)) == 0
    decreases n
  {
    if n > 0 {
      assert Zeros(n)[..n - 1] == Zeros(n - 1);
      DigitsValueZeros(n - 1);
    }
  }

  /** A number below `10^k` needs at most `k` digits. */
  lemma {:induction false} NatToStringLength(n: nat, k: nat)
    requires 1 <= k && n < Pow10(k)
    ensures |NatToString(n)| <= k
    decreases k
  {
    if n >= 10 {
      NatToStringLength(n / 10, k - 1);
    }
  }
}

=== FILE: transaction_logger.dfy ===
/** The transaction log kept in the `transactions` table
    (`src/python/transaction_logger.py`): the record written when a
    transaction starts, the log appended at each step, and the fields each
    status update writes.

    Rows are JSON dictionaries. The database client is a flag
    (present or not) plus the result of each call, and the clock is the
    text `now`.
 */
module TransactionLogger {
  import opened Wrappers
  import opened Text
  import opened Json
  import AppHelpers

  /** A database error: its `code` attribute, if any, and its text. */
  datatype DbError = DbError(code: Option<string>, message: string)

  // ---------------------------------------------------------------------
  // The initial record
  // ---------------------------------------------------------------------

  /** The wallet ids of a list that are valid, in order. */
  function ValidIds(ids: seq<string>): (r: seq<string>)
    ensures forall i :: 0 <= i < |r| ==> AppHelpers.IsValidWalletId(Some(r[i]))
    ensures forall i :: 0 <= i < |ids| && AppHelpers.IsValidWalletId(Some(ids[i])) ==> ids[i] in r
    ensures forall w :: w in r ==> w in ids
    ensures forall w :: multiset(r)[w] == if AppHelpers.IsValidWalletId(Some(w)) then multiset(ids)[w] else 0
    ensures |r| <= |ids|
    decreases |ids|
  {
    if |ids| == 0 then []
    else
      var rest := ValidIds(ids[1..]);
      assert ids == [ids[0]] + ids[1..];
      assert multiset(ids) == multiset{ids[0]} + multiset(ids[1..]);
      if AppHelpers.IsValidWalletId(Some(ids[0])) then
        assert multiset([ids[0]] + rest) == multiset{ids[0]} + multiset(rest);
        [ids[0]] + rest
      else rest
  }

  /** Filtering a concatenation filters each part in place, so the kept
      ids stay in their original order. */
  lemma {:induction false} ValidIdsConcat(a: seq<string>, b: seq<string>)
    ensures ValidIds(a + b) == ValidIds(a) + ValidIds(b)
    decreases |a|
  {
    if |a| > 0 {
      assert (a + b)[0] == a[0] && (a + b)[1..] == a[1..] + b;
      ValidIdsConcat(a[1..], b);
    } else {
      assert a + b == b;
    }
  }

  /** Valid ids are kept, so filtering twice is filtering once. */
  lemma {:induction false} ValidIdsKeepsValid(ids: seq<string>)
    requires forall i :: 0 <= i < |ids| ==> AppHelpers.IsValidWalletId(Some(ids[i]))
    ensures ValidIds(ids) == ids
    decreases |ids|
  {
    if |ids| > 0 {
      ValidIdsKeepsValid(ids[1..]);
      assert [ids[0]] + ids[1..] == ids;
    }
  }

  lemma ValidIdsIdempotent(ids: seq<string>)
    ensures ValidIds(ValidIds(ids)) == ValidIds(ids)
  {
    ValidIdsKeepsValid(ValidIds(ids));
  }

  /** The row `create_transaction` inserts; an optional column is `None`
      when the row leaves it out. */
  datatype NewRow = NewRow(transactionType: string, status: string, network: string,
                           arguments: seq<Field>, logs: seq<Field>,
                           scriptPath: Option<string>, transactionPath: Option<string>,
                           proposerWalletId: Option<string>, payerWalletId: Option<string>,
                           authorizerWalletIds: Option<seq<string>>)

  function OptionIf(cond: bool, v: string): Option<string> {
    if cond then Some(v) else None
  }

  /** The row `create_transaction` builds: pending, arguments defaulting to
      the empty list, one "started" log entry, paths only when given, and
      wallet ids only when valid. */
  function NewRecord(transactionType: string, scriptPath: Option<string>, transactionPath: Option<string>,
                     args: Option<seq<Field>>, proposer: Option<string>, payer: Option<string>,
                     authorizers: Option<seq<string>>, network: string, now: string): (r: NewRow)
    ensures r.status == "pending" && r.transactionType == transactionType && r.network == network
    ensures r.arguments == (if args.Some? then args.value else [])
    ensures r.logs == [FDict(map["level" := FText("info"),
                                 "message" := FText(transactionType + " execution started"),
                                 "timestamp" := FText(now)])]
    ensures r.scriptPath.Some? <==> Truthy(scriptPath)
    ensures r.scriptPath.Some? ==> r.scriptPath == scriptPath
    ensures r.transactionPath.Some? <==> Truthy(transactionPath)
    ensures r.transactionPath.Some? ==> r.transactionPath == transactionPath
    ensures r.proposerWalletId.Some? <==> AppHelpers.IsValidWalletId(proposer)
    ensures r.proposerWalletId.Some? ==> r.proposerWalletId == proposer
    ensures r.payerWalletId.Some? <==> AppHelpers.IsValidWalletId(payer)
    ensures r.payerWalletId.Some? ==> r.payerWalletId == payer
    ensures r.authorizerWalletIds.Some? <==> authorizers.Some? && ValidIds(authorizers.value) != []
    ensures r.authorizerWalletIds.Some? ==> r.authorizerWalletIds.value == ValidIds(authorizers.value)
  {
    NewRow(transactionType, "pending", network,
           if args.Some? then args.value else [],
           [FDict(map["level" := FText("info"),
                      "message" := FText(transactionType + " execution started"),
                      "timestamp" := FText(now)])],
           OptionIf(Truthy(scriptPath), scriptPath.GetOr("")),
           OptionIf(Truthy(transactionPath), transactionPath.GetOr("")),
           OptionIf(AppHelpers.IsValidWalletId(proposer), proposer.GetOr("")),
           OptionIf(AppHelpers.IsValidWalletId(payer), payer.GetOr("")),
           if authorizers.Some? && ValidIds(authorizers.value) != [] then Some(ValidIds(authorizers.value)) else None)
  }

  /** Every wallet id the record names is a valid one. */
  lemma RecordIdsValid(transactionType: string, scriptPath: Option<string>, transactionPath: Option<string>,
                       args: Option<seq<Field>>, proposer: Option<string>, payer: Option<string>,
                       authorizers: Option<seq<string>>, network: string, now: string)
    ensures var r := NewRecord(transactionType, scriptPath, transactionPath, args, proposer, payer, authorizers, network, now);
            && (r.proposerWalletId.Some? ==> AppHelpers.IsValidWalletId(r.proposerWalletId))
            && (r.payerWalletId.Some? ==> AppHelpers.IsValidWalletId(r.payerWalletId))
            && (r.authorizerWalletIds.Some? ==>
                  |r.authorizerWalletIds.value| > 0
                  && forall i :: 0 <= i < |r.authorizerWalletIds.value| ==>
                       AppHelpers.IsValidWalletId(Some(r.authorizerWalletIds.value[i])))
  {
  }

  /** A foreign-key violation: code 23503, or the words in the message. */
  predicate IsForeignKeyError(e: DbError) {
    e.code == Some("23503") || Contains(Lower(e.message), "foreign key constraint")
  }

  /** `create_transaction`: nothing without a client; the first inserted
      row, if any; nothing on a foreign-key violation; any other error is
      raised. */
  function CreateTransaction(hasClient: bool, record: NewRow, insert: NewRow -> Result<seq<Dict>, DbError>): (r: Result<Option<Dict>, DbError>)
    ensures !hasClient ==> r == Ok(None)
    ensures r.Err? <==> hasClient && insert(record).Err? && !IsForeignKeyError(insert(record).error)
    ensures r.Err? ==> r.error == insert(record).error
    ensures r.Ok? && r.value.Some? <==> hasClient && insert(record).Ok? && |insert(record).value| > 0
    ensures r.Ok? && r.value.Some? ==> r.value.value == insert(record).value[0]
  {
    if !hasClient then Ok(None)
    else match insert(record)
      case Ok(rows) => Ok(if |rows| > 0 then Some(rows[0]) else None)
      case Err(e) => if IsForeignKeyError(e) then Ok(None) else Err(e)
  }

  // ---------------------------------------------------------------------
  // Logs
  // ---------------------------------------------------------------------

  /** The logs a fetched row holds: a list, or nothing. */
  function CurrentLogs(logs: Option<Field>): seq<Field> {
    if logs.Some? && logs.value.FList? then logs.value.items else []
  }

  /** `_append_log`: the stored list (missing or not a list counts as
      empty) with the entry stamped at the end; if the fetch fails, the
      unstamped entry alone. */
  function AppendLog(fetched: Result<Option<Field>, DbError>, entry: Dict, now: string): (r: seq<Field>)
    ensures fetched.Err? ==> r == [FDict(entry)]
    ensures fetched.Ok? ==> |r| == |CurrentLogs(fetched.value)| + 1
                            && r[..|r| - 1] == CurrentLogs(fetched.value)
                            && r[|r| - 1] == FDict(entry["timestamp" := FText(now)])
  {
    match fetched
    case Err(_) => [FDict(entry)]
    case Ok(logs) => CurrentLogs(logs) + [FDict(entry["timestamp" := FText(now)])]
  }

  /** Appending to what an earlier append stored keeps the earlier entries
      in order. */
  lemma AppendTwice(logs: Option<Field>, first: Dict, second: Dict, t1: string, t2: string)
    ensures var once := AppendLog(Ok(logs), first, t1);
            AppendLog(Ok(Some(FList(once))), second, t2)
            == CurrentLogs(logs) + [FDict(first["timestamp" := FText(t1)]), FDict(second["timestamp" := FText(t2)])]
  {
  }

  // ---------------------------------------------------------------------
  // Status updates
  // ---------------------------------------------------------------------

  function OptInt(o: Option<int>): Field {
    if o.Some? then FInt(o.value) else FNull
  }

  function OptText(o: Option<string>): Field {
    if o.Some? then FText(o.value) else FNull
  }

  /** `update_transaction`: the first updated row; nothing without a
      client, when no row changed, or on any error. */
  function UpdateTransaction(hasClient: bool, updates: Dict, apply: Dict -> Result<seq<Dict>, DbError>): (r: Option<Dict>)
    ensures r.Some? <==> hasClient && apply(updates).Ok? && |apply(updates).value| > 0
    ensures r.Some? ==> r.value == apply(updates).value[0]
  {
    if !hasClient then None
    else match apply(updates)
      case Err(_) => None
      case Ok(rows) => if |rows| > 0 then Some(rows[0]) else None
  }

  /** The log entry `update_transaction_success` appends. */
  function SuccessEntry(executionTimeMs: int): Dict {
    map["level" := FText("info"), "message" := FText("Execution completed successfully"),
        "execution_time_ms" := FInt(executionTimeMs)]
  }

  /** The log entry `update_transaction_failure` appends. */
  function FailureEntry(errorMessage: string, executionTimeMs: int): Dict {
    map["level" := FText("error"), "message" := FText("Execution failed"),
        "error" := FText(errorMessage), "execution_time_ms" := FInt(executionTimeMs)]
  }

  /** The update `update_transaction_success` sends, if any. */
  function SuccessUpdate(hasClient: bool, fetched: Result<Option<Field>, DbError>, now: string,
                         resultData: Field, executionTimeMs: int): (r: Option<Dict>)
    ensures r.Some? <==> hasClient
    ensures r.Some? ==> r.value.Keys == {"status", "result_data", "execution_time_ms", "logs"}
                        && r.value["status"] == FText("executed")
                        && r.value["result_data"] == resultData
                        && r.value["execution_time_ms"] == FInt(executionTimeMs)
    ensures r.Some? ==> r.value["logs"] == FList(AppendLog(fetched, SuccessEntry(executionTimeMs), now))
  {
    if !hasClient then None
    else
      Some(map["status" := FText("executed"), "result_data" := resultData,
               "execution_time_ms" := FInt(executionTimeMs),
               "logs" := FList(AppendLog(fetched, SuccessEntry(executionTimeMs), now))])
  }

  /** The update `update_transaction_failure` sends, if any. */
  function FailureUpdate(hasClient: bool, fetched: Result<Option<Field>, DbError>, now: string,
                         errorMessage: string, executionTimeMs: int): (r: Option<Dict>)
    ensures r.Some? <==> hasClient
    ensures r.Some? ==> r.value.Keys == {"status", "error_message", "execution_time_ms", "logs"}
                        && r.value["status"] == FText("failed")
                        && r.value["error_message"] == FText(errorMessage)
                        && r.value["execution_time_ms"] == FInt(executionTimeMs)
    ensures r.Some? ==> r.value["logs"] == FList(AppendLog(fetched, FailureEntry(errorMessage, executionTimeMs), now))
  {
    if !hasClient then None
    else
      Some(map["status" := FText("failed"), "error_message" := FText(errorMessage),
               "execution_time_ms" := FInt(executionTimeMs),
               "logs" := FList(AppendLog(fetched, FailureEntry(errorMessage, executionTimeMs), now))])
  }

  const SUBMITTED := "Transaction submitted to Flow network"

  /** The message `update_transaction_submitted` logs: the fixed text,
      followed by the Flow id exactly when one is given. */
  function SubmittedMessage(flowTransactionId: Option<string>): (m: string)
    ensures |SUBMITTED| <= |m| && m[..|SUBMITTED|] == SUBMITTED
    ensures !Truthy(flowTransactionId) <==> m == SUBMITTED
    ensures Truthy(flowTransactionId) ==> m[|SUBMITTED|..] == " with ID " + flowTransactionId.value
  {
    if Truthy(flowTransactionId) then SUBMITTED + " with ID " + flowTransactionId.value else SUBMITTED
  }

  /** The log entry `update_transaction_submitted` appends. */
  function SubmittedEntry(flowTransactionId: Option<string>): Dict {
    map["level" := FText("info"), "message" := FText(SubmittedMessage(flowTransactionId))]
  }

  /** The update `update_transaction_submitted` sends, if any: the Flow id
      goes into the row and the log message only when it is given. */
  function SubmittedUpdate(hasClient: bool, fetched: Result<Option<Field>, DbError>, now: string,
                           flowTransactionId: Option<string>): (r: Option<Dict>)
    ensures r.Some? <==> hasClient
    ensures r.Some? ==> "status" in r.value && r.value["status"] == FText("submitted") && "logs" in r.value
    ensures r.Some? ==> ("flow_transaction_id" in r.value <==> Truthy(flowTransactionId))
                        && r.value.Keys <= {"status", "logs", "flow_transaction_id"}
    ensures r.Some? && Truthy(flowTransactionId) ==> r.value["flow_transaction_id"] == FText(flowTransactionId.value)
    ensures r.Some? ==> r.value["logs"] == FList(AppendLog(fetched, SubmittedEntry(flowTransactionId), now))
  {
    if !hasClient then None
    else
      var logs := AppendLog(fetched, SubmittedEntry(flowTransactionId), now);
      var updates := map["status" := FText("submitted"), "logs" := FList(logs)];
      Some(if Truthy(flowTransactionId) then updates["flow_transaction_id" := FText(flowTransactionId.value)] else updates)
  }

  /** The log entry `update_transaction_sealed` appends: every optional
      field but the result, `None` ones as null. */
  function SealedEntry(blockHeight: Option<int>, blockTimestamp: Option<string>, gasUsed: Option<int>,
                       executionTimeMs: Option<int>): Dict {
    map["level" := FText("info"), "message" := FText("Transaction sealed successfully"),
        "block_height" := OptInt(blockHeight), "block_timestamp" := OptText(blockTimestamp),
        "gas_used" := OptInt(gasUsed), "execution_time_ms" := OptInt(executionTimeMs)]
  }

  /** The update `update_transaction_sealed` sends, if any: every optional
      field that is not `None`, and no other. */
  function SealedUpdate(hasClient: bool, fetched: Result<Option<Field>, DbError>, now: string,
                        blockHeight: Option<int>, blockTimestamp: Option<string>, gasUsed: Option<int>,
                        resultData: Option<Field>, executionTimeMs: Option<int>): (r: Option<Dict>)
    ensures r.Some? <==> hasClient
    ensures r.Some? ==> "status" in r.value && r.value["status"] == FText("sealed") && "logs" in r.value
    ensures r.Some? ==> r.value.Keys <= {"status", "logs", "block_height", "block_timestamp", "gas_used",
                                         "result_data", "execution_time_ms"}
    ensures r.Some? ==> ("block_height" in r.value <==> blockHeight.Some?)
                        && ("block_height" in r.value ==> r.value["block_height"] == FInt(blockHeight.value))
    ensures r.Some? ==> ("block_timestamp" in r.value <==> blockTimestamp.Some?)
                        && ("block_timestamp" in r.value ==> r.value["block_timestamp"] == FText(blockTimestamp.value))
    ensures r.Some? ==> ("gas_used" in r.value <==> gasUsed.Some?)
                        && ("gas_used" in r.value ==> r.value["gas_used"] == FInt(gasUsed.value))
    ensures r.Some? ==> ("result_data" in r.value <==> resultData.Some?)
                        && ("result_data" in r.value ==> r.value["result_data"] == resultData.value)
    ensures r.Some? ==> ("execution_time_ms" in r.value <==> executionTimeMs.Some?)
                        && ("execution_time_ms" in r.value ==> r.value["execution_time_ms"] == FInt(executionTimeMs.value))
    ensures r.Some? ==> r.value["logs"] == FList(AppendLog(fetched, SealedEntry(blockHeight, blockTimestamp, gasUsed, executionTimeMs), now))
  {
    if !hasClient then None
    else
      var entry := SealedEntry(blockHeight, blockTimestamp, gasUsed, executionTimeMs);
      var u0 := map["status" := FText("sealed"), "logs" := FList(AppendLog(fetched, entry, now))];
      var u1 := if blockHeight.Some? then u0["block_height" := FInt(blockHeight.value)] else u0;
      var u2 := if blockTimestamp.Some? then u1["block_timestamp" := FText(blockTimestamp.value)] else u1;
      var u3 := if gasUsed.Some? then u2["gas_used" := FInt(gasUsed.value)] else u2;
      var u4 := if resultData.Some? then u3["result_data" := resultData.value] else u3;
      Some(if executionTimeMs.Some? then u4["execution_time_ms" := FInt(executionTimeMs.value)] else u4)
  }

  /** Every status update keeps the stored log entries in order and adds
      exactly one, whose message names the update. */
  lemma UpdatesAppendOneEntry(stored: Option<Field>, now: string, errorMessage: string, t: int,
                              flowTransactionId: Option<string>)
    ensures var s := SuccessUpdate(true, Ok(stored), now, FNull, t).value["logs"];
            s.FList? && s.items == CurrentLogs(stored) + [FDict(SuccessEntry(t)["timestamp" := FText(now)])]
    ensures var f := FailureUpdate(true, Ok(stored), now, errorMessage, t).value["logs"];
            f.FList? && f.items == CurrentLogs(stored) + [FDict(FailureEntry(errorMessage, t)["timestamp" := FText(now)])]
    ensures var u := SubmittedUpdate(true, Ok(stored), now, flowTransactionId).value["logs"];
            && u.FList? && |u.items| == |CurrentLogs(stored)| + 1
            && u.items[..|CurrentLogs(stored)|] == CurrentLogs(stored)
            && u.items[|CurrentLogs(stored)|].FDict?
            && u.items[|CurrentLogs(stored)|].entries["message"]
               == FText(if Truthy(flowTransactionId) then SUBMITTED + " with ID " + flowTransactionId.value else SUBMITTED)
  {
  }

  /** The sealed log entry records every field, `None` ones as null, even
      those the row update leaves out. */
  lemma SealedLogKeepsNulls(fetched: Result<Option<Field>, DbError>, now: string)
    requires fetched.Ok?
    ensures var u := SealedUpdate(true, fetched, now, None, None, None, None, None).value;
            && u.Keys == {"status", "logs"}
            && u["logs"].FList?
            && var last := u["logs"].items[|u["logs"].items| - 1];
               last.FDict? && "block_height" in last.entries && last.entries["block_height"] == FNull
  {
  }
}

=== FILE: wallet_crypto.dfy ===
/** Private keys at rest (`src/python/wallet_crypto.py`): the master-key
    guards, the blob layout base64(salt[16] ‖ nonce[12] ‖ ciphertext), the
    plaintext-versus-encrypted heuristic and the read path.

    PBKDF2 and AES-GCM are parameters: `derive` stands for the key
    derivation and `Aead` for the cipher, whose correctness is the
    predicate `Correct`. The random salt and nonce are parameters too.
 */
module WalletCrypto {
  import opened Wrappers
  import opened Text
  import opened Bytes
  import Base64

  const SALT_LEN := 16
  const NONCE_LEN := 12
  /** The AES-GCM authentication tag appended to every ciphertext. */
  const TAG_LEN := 16
  const KEY_LEN := 32
  const MIN_BLOB := SALT_LEN + NONCE_LEN + TAG_LEN

  const MASTER_KEY_MISSING := "WALLET_ENCRYPTION_KEY must be set (32+ char hex or 44+ char base64)"
  const BLOB_TOO_SHORT := "Invalid encrypted blob length"
  const NOT_BASE64 := "Incorrect padding"
  const ODD_HEX := "non-hexadecimal number found in fromhex() arg"
  const BAD_TAG := "InvalidTag"

  /** An authenticated cipher: `seal(key, nonce, plaintext)` and
      `open(key, nonce, ciphertext)`. */
  datatype Aead = Aead(seal: (seq<byte>, seq<byte>, seq<byte>) -> seq<byte>,
                       open: (seq<byte>, seq<byte>, seq<byte>) -> Option<seq<byte>>)

  /** Opening what was sealed gives the plaintext, and sealing adds the
      tag. */
  ghost predicate Correct(a: Aead) {
    forall k, n, p :: a.open(k, n, a.seal(k, n, p)) == Some(p) && |a.seal(k, n, p)| == |p| + TAG_LEN
  }

  // ---------------------------------------------------------------------
  // Master key
  // ---------------------------------------------------------------------

  /** `_get_master_key`: the variable must be set and at least 32
      characters long before stripping; 64 hex digits after stripping are
      hex-decoded. The base64 and padded-text forms are `otherForms`. */
  function MasterKey(env: Option<string>, otherForms: string -> Result<seq<byte>, string>): (r: Result<seq<byte>, string>)
    ensures r == Err(MASTER_KEY_MISSING) <==> !Truthy(env) || |env.value| < 32 || (otherForms(Strip(env.value)) == Err(MASTER_KEY_MISSING) && !(|Strip(env.value)| == 64 && AllHex(Strip(env.value))))
    ensures Truthy(env) && |env.value| >= 32 && |Strip(env.value)| == 64 && AllHex(Strip(env.value)) ==>
              r.Ok? && |r.value| == KEY_LEN && HexEncode(r.value) == Lower(Strip(env.value))
  {
    if !Truthy(env) || |env.value| < 32 then Err(MASTER_KEY_MISSING)
    else
      var k := Strip(env.value);
      if |k| == 64 && AllHex(k) then
        HexLowerRoundTrip(k);
        Ok(HexDecode(k).value)
      else otherForms(k)
  }

  /** A 64-digit hex variable is its own stripped form and gives its 32
      bytes; a short one is refused whatever the other forms do. */
  lemma HexMasterKey(h: string, otherForms: string -> Result<seq<byte>, string>)
    requires |h| == 64 && AllHex(h)
    ensures MasterKey(Some(h), otherForms) == Ok(HexDecode(h).value)
    ensures |MasterKey(Some(h), otherForms).value| == KEY_LEN
    ensures MasterKey(Some(h[..31]), otherForms) == Err(MASTER_KEY_MISSING)
  {
    assert !IsSpace(h[0]) && !IsSpace(h[63]);
    StripUnpadded(h);
  }

  // ---------------------------------------------------------------------
  // Encryption and decryption
  // ---------------------------------------------------------------------

  /** The bytes encrypted for a key text: all-hex text is hex-decoded
      (an odd number of digits makes `bytes.fromhex` raise), any other
      text is encoded by `utf8`. */
  function PlainBytes(text: string, utf8: string -> seq<byte>): (r: Result<seq<byte>, string>)
    ensures r.Err? <==> AllHex(text) && |text| % 2 == 1
    ensures AllHex(text) && r.Ok? ==> HexEncode(r.value) == Lower(text)
    ensures !AllHex(text) ==> r == Ok(utf8(text))
  {
    if AllHex(text) then
      match HexDecode(text)
      case None => Err(ODD_HEX)
      case Some(b) =>
        HexLowerRoundTrip(text);
        Ok(b)
    else Ok(utf8(text))
  }

  /** `encrypt_private_key`: the master key first, then base64 of salt,
      nonce and the sealed plaintext under the derived key. */
  function Encrypt(text: string, master: Result<seq<byte>, string>, salt: seq<byte>, nonce: seq<byte>,
                   derive: (seq<byte>, seq<byte>) -> seq<byte>, aead: Aead, utf8: string -> seq<byte>): (r: Result<string, string>)
    requires |salt| == SALT_LEN && |nonce| == NONCE_LEN
    ensures r.Ok? <==> master.Ok? && PlainBytes(text, utf8).Ok?
    ensures master.Err? ==> r == Err(master.error)
    ensures r.Ok? ==> Base64.Decode(r.value).Some?
                      && |Base64.Decode(r.value).value| >= SALT_LEN + NONCE_LEN
                      && Base64.Decode(r.value).value[..SALT_LEN] == salt
                      && Base64.Decode(r.value).value[SALT_LEN..SALT_LEN + NONCE_LEN] == nonce
  {
    if master.Err? then Err(master.error)
    else match PlainBytes(text, utf8)
      case Err(e) => Err(e)
      case Ok(plain) =>
        var raw := salt + nonce + aead.seal(derive(master.value, salt), nonce, plain);
        Base64.DecodeEncode(raw);
        Ok(Base64.Encode(raw))
  }

  /** `decrypt_private_key`: the master key first, then base64, the length
      guard, the split at 16 and 28, and the plaintext as lower-case hex. */
  function Decrypt(blob: string, master: Result<seq<byte>, string>,
                   derive: (seq<byte>, seq<byte>) -> seq<byte>, aead: Aead): (r: Result<string, string>)
    ensures master.Err? ==> r == Err(master.error)
    ensures master.Ok? && Base64.Decode(blob).None? ==> r == Err(NOT_BASE64)
    ensures master.Ok? && Base64.Decode(blob).Some? ==>
              (r == Err(BLOB_TOO_SHORT) <==> |Base64.Decode(blob).value| < MIN_BLOB)
    ensures r.Ok? ==> |r.value| % 2 == 0 && AllHex(r.value) && r.value == Lower(r.value)
  {
    if master.Err? then Err(master.error)
    else match Base64.Decode(blob)
      case None => Err(NOT_BASE64)
      case Some(raw) =>
        if |raw| < MIN_BLOB then Err(BLOB_TOO_SHORT)
        else
          var salt := raw[..SALT_LEN];
          var nonce := raw[SALT_LEN..SALT_LEN + NONCE_LEN];
          var ciphertext := raw[SALT_LEN + NONCE_LEN..];
          match aead.open(derive(master.value, salt), nonce, ciphertext)
          case None => Err(BAD_TAG)
          case Some(plain) =>
            LowerHexIsLower(HexEncode(plain));
            Ok(HexEncode(plain))
  }

  lemma LowerHexIsLower(h: string)
    requires forall i :: 0 <= i < |h| ==> h[i] == LowerChar(h[i])
    ensures h == Lower(h)
  {
  }

  /** The bytes a blob holds, as `Encrypt` laid them out. */
  lemma EncryptLayout(text: string, master: Result<seq<byte>, string>, salt: seq<byte>, nonce: seq<byte>,
                      derive: (seq<byte>, seq<byte>) -> seq<byte>, aead: Aead, utf8: string -> seq<byte>)
    requires |salt| == SALT_LEN && |nonce| == NONCE_LEN
    requires Encrypt(text, master, salt, nonce, derive, aead, utf8).Ok?
    ensures Base64.Decode(Encrypt(text, master, salt, nonce, derive, aead, utf8).value)
            == Some(salt + nonce + aead.seal(derive(master.value, salt), nonce, PlainBytes(text, utf8).value))
  {
    Base64.DecodeEncode(salt + nonce + aead.seal(derive(master.value, salt), nonce, PlainBytes(text, utf8).value));
  }

  /** With a correct cipher, decrypting an encryption under the same master
      key gives the key back: hex keys in lower case, other text as the hex
      of its encoded bytes. */
  lemma RoundTrip(text: string, master: seq<byte>, salt: seq<byte>, nonce: seq<byte>,
                  derive: (seq<byte>, seq<byte>) -> seq<byte>, aead: Aead, utf8: string -> seq<byte>)
    requires Correct(aead)
    requires |salt| == SALT_LEN && |nonce| == NONCE_LEN
    requires !AllHex(text) || |text| % 2 == 0
    ensures var blob := Encrypt(text, Ok(master), salt, nonce, derive, aead, utf8);
            blob.Ok? && Decrypt(blob.value, Ok(master), derive, aead)
                        == Ok(if AllHex(text) then Lower(text) else HexEncode(utf8(text)))
  {
    var plain := PlainBytes(text, utf8).value;
    var sealed := aead.seal(derive(master, salt), nonce, plain);
    var raw := salt + nonce + sealed;
    EncryptLayout(text, Ok(master), salt, nonce, derive, aead, utf8);
    assert raw[..SALT_LEN] == salt;
    assert raw[SALT_LEN..SALT_LEN + NONCE_LEN] == nonce;
    assert raw[SALT_LEN + NONCE_LEN..] == sealed;
    assert aead.open(derive(master, salt), nonce, sealed) == Some(plain);
  }

  // ---------------------------------------------------------------------
  // Recognising encrypted values
  // ---------------------------------------------------------------------

  /** `is_encrypted`: not empty, not a 64-digit hex key (lower-casing does
      not change which characters are hex digits), and strict base64 of at
      least 44 bytes. */
  predicate IsEncrypted(value: Option<string>) {
    && Truthy(value)
    && !(|value.value| == 64 && AllHex(value.value))
    && Base64.Decode(value.value).Some?
    && |Base64.Decode(value.value).value| >= MIN_BLOB
  }

  /** Hex digits are base64 characters, so hex text of a multiple of four
      digits is strict base64 of three bytes per four digits. */
  lemma HexIsBase64(h: string)
    requires AllHex(h) && |h| % 4 == 0
    ensures Base64.Decode(h).Some? && |Base64.Decode(h).value| == 3 * (|h| / 4)
  {
    assert Base64.AllBase64(h) by {
      forall i | 0 <= i < |h|
        ensures Base64.IsBase64Char(h[i])
      {
        assert IsHexChar(h[i]);
      }
    }
    Base64.DecodeUnpadded(h);
  }

  /** A plain 64-digit hex key is not taken for a blob, although it is
      strict base64 of 48 bytes: the length test is what keeps it out. */
  lemma HexKeyGuardNeeded(h: string)
    requires |h| == 64 && AllHex(h)
    ensures !IsEncrypted(Some(h))
    ensures Base64.Decode(h).Some? && |Base64.Decode(h).value| == 48
  {
    HexIsBase64(h);
  }

  /** Other hex texts are not protected: any of 60 or more digits, in
      groups of four, other than 64 digits, counts as encrypted. */
  lemma LongHexLooksEncrypted(h: string)
    requires AllHex(h) && |h| % 4 == 0 && |h| >= 60 && |h| != 64
    ensures IsEncrypted(Some(h))
  {
    HexIsBase64(h);
  }

  /** An encryption of more than four plaintext bytes is recognised as
      encrypted (shorter ones can encode to 64 characters, which may all be
      hex digits). */
  lemma EncryptedIsRecognised(text: string, master: seq<byte>, salt: seq<byte>, nonce: seq<byte>,
                              derive: (seq<byte>, seq<byte>) -> seq<byte>, aead: Aead, utf8: string -> seq<byte>)
    requires Correct(aead)
    requires |salt| == SALT_LEN && |nonce| == NONCE_LEN
    requires PlainBytes(text, utf8).Ok? && |PlainBytes(text, utf8).value| > 4
    ensures IsEncrypted(Some(Encrypt(text, Ok(master), salt, nonce, derive, aead, utf8).value))
  {
    var plain := PlainBytes(text, utf8).value;
    var sealed := aead.seal(derive(master, salt), nonce, plain);
    var raw := salt + nonce + sealed;
    assert Encrypt(text, Ok(master), salt, nonce, derive, aead, utf8).value == Base64.Encode(raw);
    assert |raw| >= 49 by {
      assert |sealed| == |plain| + TAG_LEN;
    }
    LongBlobIsEncrypted(raw);
  }

  /** The encoding of forty-nine bytes or more passes both tests. */
  lemma LongBlobIsEncrypted(raw: seq<byte>)
    requires |raw| >= 49
    ensures IsEncrypted(Some(Base64.Encode(raw)))
  {
    Base64.DecodeEncode(raw);
    Base64.LongEncoding(raw);
  }

  // ---------------------------------------------------------------------
  // Reading a stored key
  // ---------------------------------------------------------------------

  /** `get_plain_private_key`: nothing for a missing or empty key, the
      decryption of an encrypted one, and any other value unchanged. */
  function PlainPrivateKey(stored: Option<string>, master: Result<seq<byte>, string>,
                           derive: (seq<byte>, seq<byte>) -> seq<byte>, aead: Aead): (r: Result<Option<string>, string>)
    ensures !Truthy(stored) ==> r == Ok(None)
    ensures Truthy(stored) && !IsEncrypted(stored) ==> r == Ok(stored)
    ensures IsEncrypted(stored) ==>
              (r.Ok? <==> Decrypt(stored.value, master, derive, aead).Ok?)
              && (r.Ok? ==> r.value == Some(Decrypt(stored.value, master, derive, aead).value))
  {
    if !Truthy(stored) then Ok(None)
    else if IsEncrypted(stored) then
      match Decrypt(stored.value, master, derive, aead)
      case Err(e) => Err(e)
      case Ok(k) => Ok(Some(k))
    else Ok(stored)
  }

  /** A stored encryption of a hex key of more than eight digits reads back
      as the key in lower case; a plain 64-digit hex key reads back as it
      is. */
  lemma StoredKeyReadsBack(key: string, master: seq<byte>, salt: seq<byte>, nonce: seq<byte>,
                           derive: (seq<byte>, seq<byte>) -> seq<byte>, aead: Aead, utf8: string -> seq<byte>)
    requires Correct(aead)
    requires |salt| == SALT_LEN && |nonce| == NONCE_LEN
    requires AllHex(key) && |key| % 2 == 0 && |key| > 8
    ensures var blob := Encrypt(key, Ok(master), salt, nonce, derive, aead, utf8).value;
            PlainPrivateKey(Some(blob), Ok(master), derive, aead) == Ok(Some(Lower(key)))
    ensures |key| == 64 ==> PlainPrivateKey(Some(key), Ok(master), derive, aead) == Ok(Some(key))
  {
    EncryptedIsRecognised(key, master, salt, nonce, derive, aead, utf8);
    RoundTrip(key, master, salt, nonce, derive, aead, utf8);
  }
}

=== FILE: wrappers.dfy ===
/** Failure-compatible wrappers used throughout the model.

    `Option` stands for Python's `None` / JavaScript's `null` next to a value,
    `Result` for a call that either returns or raises (the error carries the
    exception message).
 */
module Wrappers {

  datatype Option<+T> = None | Some(value: T) {

    /** The wrapped value, or `default` when there is none. */
    function GetOr(default: T): T {
      match this
      case Some(v) => v
      case None => default
    }
  }

  datatype Result<+T, +E> = Ok(value: T) | Err(error: E) {

    predicate IsFailure() {
      Err?
    }

    function PropagateFailure<U>(): Result<U, E>
      requires Err?
    {
      Err(error)
    }

    function Extract(): T
      requires Ok?
    {
      value
    }
  }

  /** Python truthiness of an optional text: present and not empty. */
  predicate Truthy(s: Option<string>) {
    s.Some? && s.value != ""
  }
}
